=== FILE: README.md ===
# TDAmeritradeAPI core, modelled in Dafny

This project models the logic of the C# client library TDAmeritradeAPI for the
TD Ameritrade REST and streaming APIs. The logic covered is:

- the persisted OAuth 2.0 credential record, in both its revisions: `-1`
  sentinels, and nullable expiries;
- the client's token life cycle: first-time tokens, refresh-token and
  access-token exchanges, the status-driven `RefreshTokens` dispatch and the
  refresh timer;
- symbol translation (`ParseSymbol`, `ParseSymbols`);
- the order records with `Clone` and `GetChildOrderStrategy`;
- the order builders and validators of `OrderGenerator`;
- the price-history and option-chain query parameters;
- the `assetMainType` scan of a quote;
- the two JSON naming policies and the instrument JSON writers;
- the pure parts of the streaming client.

Everything is an immutable value and a pure function. The clock is a
parameter `now`, and so is every foreign routine: `HttpUtility.UrlEncode` is
`encode`, the token endpoint is `server`, the number and date formatting is
`num` and `date`. A C# exception is an `Err` or `Fail` value naming it.

Modules follow the source files:

| file | module | source |
|---|---|---|
| `common.dfy` | `Common` | `Option`, `Result`, `Outcome` |
| `text.dfy` | `Text` | the ASCII string routines the source calls: case, trimming, `IndexOf`, `Split`, `Join`, integer text |
| `dict.dfy` | `Dict` | `Dictionary<string,string>` filled by `Add`, as an insertion-ordered list of pairs |
| `token_data.dfy` | `TokenData` | TDAmeritradeAPI/OAuth2Data.cs |
| `token_data_nullable.dfy` | `TokenDataNullable` | TDAmeritradeAPI/Utils/OAuth2Data.cs |
| `client_auth.dfy` | `Client` | the OAuth part of TDAmeritradeAPI/TDAmeritradeAPI.cs |
| `symbols.dfy` | `Symbols` | `ParseSymbol`, `ParseSymbols` of TDAmeritradeAPI/TDAmeritradeAPI.cs |
| `requests.dfy` | `Requests` | `BuildURL` and `GetAccount` of TDAmeritradeAPI/TDAmeritradeAPI.cs |
| `orders.dfy` | `Orders` | TDAmeritradeAPI/Orders.cs, and the sanitising of `PlaceOrderHelper` |
| `order_generator.dfy` | `OrderGenerator` | TDAmeritradeAPI/OrderGenerator.cs |
| `price_history.dfy` | `PriceHistory` | TDAmeritradeAPI/PriceHistory.cs |
| `option_chain.dfy` | `OptionChain` | `OptionChainSearchOptions` of TDAmeritradeAPI/OptionChain.cs |
| `quote.dfy` | `Quote` | `GetAssetType` of TDAmeritradeAPI/DataModels/Quote.cs |
| `naming.dfy` | `Naming` | the naming policies of both JsonSerializationHelpers.cs files |
| `instrument_writer.dfy` | `InstrumentWriter` | `InstrumentConverter.Write` and `OrderInstrumentConverter.Write` |
| `streaming.dfy` | `Streaming` | TDAmeritradeAPI/TDAmeritradeStreamingClient.cs |

Where the source has an evident bug, the model keeps the code as written,
and a second, corrected definition sits beside it (see "## Findings"). The
dangling `else` branches of `ValidateInstruction`, `ValidateSpread` and
`ValidateFrequency`, and the always-true disjunction of
`ValidateFrequencyType`, are modelled as written, without a corrected
definition; lemmas state their consequences.

The class `OrderInstrument`, used by `OrderGenerator` and by
`OrderInstrumentConverter`, is not modelled separately: it is given the same
shape as `Instrument` of TDAmeritradeAPI/Orders.cs, a symbol, an asset type,
a description, a CUSIP and the same subclasses.

## Model

| member | source | states |
|---|---|---|
| TokenData.Load | TDAmeritradeAPI/OAuth2Data.cs:34-74 | an unreadable authorization file leaves both expiries at -1 and all four credentials null; a readable one gives the stored record |
| TokenData.TokensExpirationsStatus | TDAmeritradeAPI/OAuth2Data.cs:84-110 | the status is in 0..4. It is 4 exactly when the refresh expiry is unset or reached. Otherwise bit 0 is set iff the access expiry is unset or within 180 s, and bit 1 iff the refresh expiry is within 86400 s |
| TokenData.WriteTokenExpiration | TDAmeritradeAPI/OAuth2Data.cs:169-184 | the selected expiries become now+1800 (access) and now+7776000 (refresh); the other expiry and every credential are unchanged |
| TokenData.SecondsUntilExpiration | TDAmeritradeAPI/OAuth2Data.cs:147-158 | -1 for Both; otherwise now plus the result is the chosen token's expiry |
| TokenData.FreshRecordNeedsBootstrap | TDAmeritradeAPI/OAuth2Data.cs:34-110 | a record built from the defaults reports status 4 at every time |
| TokenData.WriteBothThenFine | TDAmeritradeAPI/OAuth2Data.cs:84-184 | right after writing both expiries at `now`, the status at that `now` is 0 |
| TokenData.WriteTokenExpirationIdempotent | TDAmeritradeAPI/OAuth2Data.cs:169-184 | writing the same expiries twice at one time equals writing them once |
| TokenData.StatusFourIgnoresAccess | TDAmeritradeAPI/OAuth2Data.cs:99-104 | whether the status is 4 does not depend on the access expiry |
| TokenData.StatusEncodesClassification | TDAmeritradeAPI/OAuth2Data.cs:76-110 | the integer status is the encoding of the documented classification (re-authenticate, or renew access and/or refresh) and decodes back to it |
| TokenData.DecodeEncode | TDAmeritradeAPI/OAuth2Data.cs:76-82 | the status code encoding of the documentation is invertible |
| TokenDataNullable.TokensExpirationsStatus | TDAmeritradeAPI/Utils/OAuth2Data.cs:32-58 | the status is in 0..4, with the thresholds of the sentinel revision, and every comparison with a null expiry false: 4 only for a present refresh expiry that is negative or reached |
| TokenDataNullable.NullRefreshNeverReauthenticates | TDAmeritradeAPI/Utils/OAuth2Data.cs:24-58 | with a null refresh expiry the status is never 4 and bit 1 is clear, although line 25 documents 4 for a missing refresh token |
| TokenDataNullable.NullAccessLeavesBitClear | TDAmeritradeAPI/Utils/OAuth2Data.cs:41-45 | a null access expiry leaves bit 0 clear |
| TokenDataNullable.EmptyRecordStatusZero | TDAmeritradeAPI/Utils/OAuth2Data.cs:22-58 | a freshly constructed record (every property null) reports 0, "both tokens are OK" |
| TokenDataNullable.AgreesWithSentinelRevision | TDAmeritradeAPI/Utils/OAuth2Data.cs:38-57 | with both expiries present the two revisions compute the same status |
| TokenDataNullable.DocumentedStatus | TDAmeritradeAPI/Utils/OAuth2Data.cs:24-31 | the documented status: 4 for a missing refresh expiry, bit 0 for a missing access expiry, and the written status when both are present |
| TokenDataNullable.WriteTokenExpiration | TDAmeritradeAPI/Utils/OAuth2Data.cs:103-118 | the selected expiries become now+1800 and now+7776000; everything else is unchanged |
| TokenDataNullable.SecondsUntilExpiration | TDAmeritradeAPI/Utils/OAuth2Data.cs:76-87 | -1 for Both; for one token an error exactly when its expiry is null, else now plus the result is that expiry |
| TokenDataNullable.WriteBothThenFine | TDAmeritradeAPI/Utils/OAuth2Data.cs:32-118 | right after writing both expiries at `now`, the status at that `now` is 0 |
| Client.NewTokenRequest | TDAmeritradeAPI/TDAmeritradeAPI.cs:194-207 | a refresh_token grant carrying the stored refresh token and client id, an empty code and redirect URI, and access_type "offline" exactly for the refresh token |
| Client.NewTokenRequestsDifferOnlyInAccessType | TDAmeritradeAPI/TDAmeritradeAPI.cs:204-207 | the access-token and refresh-token requests are equal but for access_type, and do differ |
| Client.AuthorizationRequest | TDAmeritradeAPI/TDAmeritradeAPI.cs:118-126 | an authorization_code grant, offline, with the login's code and the stored client id and redirect URI |
| Client.PostAccessToken | TDAmeritradeAPI/TDAmeritradeAPI.cs:331-371 | a null reply is an error. refresh_token+offline sets only the refresh token and its expiry. refresh_token+"" sets only the access token and its expiry. authorization_code+offline sets both, access first. A missing key is an error; a partial update is kept. Other requests change nothing. The client id and redirect URI are never touched |
| Client.GetNewAccessTokenEffect | TDAmeritradeAPI/TDAmeritradeAPI.cs:191-215 | an access-token exchange changes exactly the access token and its expiry, or reports the error and changes nothing |
| Client.GetNewRefreshTokenEffect | TDAmeritradeAPI/TDAmeritradeAPI.cs:191-215 | a refresh-token exchange changes exactly the refresh token and its expiry, or reports the error and changes nothing |
| Client.FillCredentials | TDAmeritradeAPI/TDAmeritradeAPI.cs:66-77 | a missing or empty client id or redirect URI is replaced by the trimmed input; present ones and all other fields are kept |
| Client.FirstTimeTokens | TDAmeritradeAPI/TDAmeritradeAPI.cs:61-133 | it sends the authorization request built from the filled-in credentials; on success both tokens are set and both expiries are written at `now` |
| Client.PlanFollowsStatus | TDAmeritradeAPI/TDAmeritradeAPI.cs:379-404 | the switch bootstraps exactly when the refresh token is unusable, and then does nothing else. Otherwise it renews the access token iff it is due and the refresh token iff it is due soon, the refresh token first |
| Client.Run | TDAmeritradeAPI/TDAmeritradeAPI.cs:381-404 | at most one request per planned action, at least one for a non-empty plan, and exactly one per action when no exception stops the run. The k-th request is of the kind the k-th action sends: a refresh-token grant, `offline` exactly for the refresh token, or an authorization-code grant for a re-bootstrap. The first exchange goes out with the record as it was. An empty plan changes nothing, and a one-action plan leaves the record and error of that exchange or bootstrap |
| Client.RunAppend | TDAmeritradeAPI/TDAmeritradeAPI.cs:381-404 | running two plans in turn is running their concatenation: the second starts from the record the first left, its requests follow the first's, and an exception in the first means the second never runs |
| Client.RefreshTokens | TDAmeritradeAPI/TDAmeritradeAPI.cs:377-418 | the k-th request is of the kind the k-th action of the status's plan sends; on success one request per planned action and a new timer whose interval is the as-written one (seconds left on the access token minus 120 for status 0 or 2, else 1680000); an exception keeps the old timer. The record and error per status: unchanged for 0; those of the access exchange for 1 and the refresh exchange for 2; for 3 those of the refresh exchange if it failed, else those of the access exchange on the refreshed record; for 4 those of the bootstrap |
| Client.RefreshTokensSends | TDAmeritradeAPI/TDAmeritradeAPI.cs:381-404 | the requests per status in full: none for 0; the access exchange for 1; the refresh exchange for 2; for 3 the refresh exchange, then the access exchange on the refreshed record unless the first failed; the authorization-code request for 4 |
| Client.RefreshIntervalPositive | TDAmeritradeAPI/TDAmeritradeAPI.cs:406-414 | after a successful refresh the new interval is at least 61, so the timer constructor never gets a non-positive interval |
| Client.IntervalIsSecondsNotMilliseconds | TDAmeritradeAPI/TDAmeritradeAPI.cs:408-417 | for a freshly written access token the status-0 interval is 1680, a thousandth of the 28-minute interval used elsewhere |
| Client.IntendedIntervalMs | TDAmeritradeAPI/TDAmeritradeAPI.cs:408-417 | the corrected interval: it is the as-written one times 1000, exceeds 60000 ms, and ends two minutes before the access expiry |
| Client.RefreshTokensIntended | TDAmeritradeAPI/TDAmeritradeAPI.cs:377-418 | the same requests, errors and record as `RefreshTokens`, with a timer that fires two minutes before the access token expires |
| Client.Init | TDAmeritradeAPI/TDAmeritradeAPI.cs:23-44 | with a credential missing it sends one authorization-code request and, on success, sets the 28-minute timer; otherwise, unless the status is 4, it sends only refresh-token grants. The loaded record is where the work starts: with a credential missing the result holds the bootstrap's record, request and error, and an exception keeps the old timer; otherwise the result is `RefreshTokens` on the loaded record |
| Client.RefreshSendsRefreshGrants | TDAmeritradeAPI/TDAmeritradeAPI.cs:377-404 | unless the status is 4, every request `RefreshTokens` sends is a refresh_token grant |
| Client.TimerElapsed | TDAmeritradeAPI/TDAmeritradeAPI.cs:314-323 | every tick sends one access-token request and leaves the record and error of that exchange, whatever the flag; the first successful tick sets the interval to 1680000 and clears the first-run flag, later ticks change neither |
| Client.TimerSettlesAfterFirstRun | TDAmeritradeAPI/TDAmeritradeAPI.cs:314-323 | after one successful tick the flag is clear and further ticks keep the timer |
| Symbols.NormalizeIsUpperThenTrim | TDAmeritradeAPI/TDAmeritradeAPI.cs:499 | the normal form is `ToUpper().Trim()` of the symbol |
| Symbols.NormalizeNoComma | TDAmeritradeAPI/TDAmeritradeAPI.cs:499 | normalising introduces no comma |
| Symbols.Rearrange | TDAmeritradeAPI/TDAmeritradeAPI.cs:514-516 | the date YYMMDD becomes MMDDYY: the last four characters, then the first two |
| Symbols.OptionWire | TDAmeritradeAPI/TDAmeritradeAPI.cs:508-525 | an index error exactly when no `2` occurs early enough to leave six characters; otherwise the result is one character longer and has no comma if the input had none |
| Symbols.ParseSymbolCases | TDAmeritradeAPI/TDAmeritradeAPI.cs:495-540 | three cases. A dotted option symbol fails iff no date is found, else it becomes an Option of the same length. A dotted futures symbol loses only its dot and is Other. Any other symbol is returned normalised: Option iff it has two or more characters and an underscore, else Equity iff it starts with a letter |
| Symbols.ParsedNoComma | TDAmeritradeAPI/TDAmeritradeAPI.cs:495-540 | a symbol without a comma parses to a wire form without a comma |
| Symbols.OptionWireSplit | TDAmeritradeAPI/TDAmeritradeAPI.cs:510-523 | head + date + tail, with no `2` in the head, becomes head + "_" + MMDDYY + tail |
| Symbols.ParseNormalizedOption | TDAmeritradeAPI/TDAmeritradeAPI.cs:501-526 | a normalised dotted option symbol is an Option with the rewritten wire form |
| Symbols.ParseOptionSymbol | TDAmeritradeAPI/TDAmeritradeAPI.cs:495-526 | any raw symbol normalising to `.` + head + date + tail parses to that Option wire form |
| Symbols.NormalizeFixed | TDAmeritradeAPI/TDAmeritradeAPI.cs:499 | an upper-case symbol without surrounding white space is its own normal form |
| Symbols.ExampleOption | TDAmeritradeAPI/TDAmeritradeAPI.cs:501-526 | `.AAPL210528C126` becomes the Option `AAPL_052821C126` |
| Symbols.ExamplesUndotted | TDAmeritradeAPI/TDAmeritradeAPI.cs:528-532 | an already-translated option symbol is an Option and is kept; `MSFT` is an Equity |
| Symbols.ExamplesDotted | TDAmeritradeAPI/TDAmeritradeAPI.cs:503-514 | `./ESZ23` becomes Other `/ESZ23`; `.AAPL` has no date digit and fails |
| Symbols.ParseEach | TDAmeritradeAPI/TDAmeritradeAPI.cs:553-554 | the loop succeeds iff every symbol parses, and then the i-th output is the wire form of the i-th input |
| Symbols.MapEach | TDAmeritradeAPI/TDAmeritradeAPI.cs:553-554 | a loop that applies a step to each element in turn succeeds iff every step succeeds, and then holds the i-th step's value at position i |
| Symbols.ParseSymbols | TDAmeritradeAPI/TDAmeritradeAPI.cs:547-558 | it succeeds iff every comma-separated symbol parses. Splitting the result at commas then gives as many pieces as the input, the i-th being the wire form of the i-th input symbol |
| Dict.Collect | TDAmeritradeAPI/OptionChain.cs:244-258 | adding each set field in turn gives at most one entry per field, each keyed by one of the fields' names |
| Dict.CollectLookup | TDAmeritradeAPI/OptionChain.cs:244-258 | with distinct field names no key is added twice, and looking a name up gives its field's text when set and nothing when null |
| Requests.BuildURL | TDAmeritradeAPI/TDAmeritradeAPI.cs:434-445 | no parameters give the bare endpoint; otherwise the endpoint, `?`, and the `key=encode(value)` assignments joined by `&` with no trailing `&` |
| Requests.QuerySplitsBack | TDAmeritradeAPI/TDAmeritradeAPI.cs:434-445 | when neither keys nor encoded values contain `&`, the query splits back into exactly the assignments, in order |
| Requests.AccountEndpoint | TDAmeritradeAPI/TDAmeritradeAPI.cs:709-726 | an empty account id addresses all accounts, any other id its own `/accounts/{id}` path |
| Requests.AccountParameters | TDAmeritradeAPI/TDAmeritradeAPI.cs:713-724 | no parameters when nothing extra is asked for; otherwise one `fields` entry listing positions and/or orders, comma-separated, in that order |
| Requests.AccountFieldsSplitBack | TDAmeritradeAPI/TDAmeritradeAPI.cs:713-724 | the `fields` value splits back into exactly the requested names |
| Orders.NewInstrument | TDAmeritradeAPI/Orders.cs:231-235 | symbol and asset type set, nothing else |
| Orders.NewLeg | TDAmeritradeAPI/Orders.cs:87-92 | instruction, quantity and instrument set, every other leg field null |
| Orders.CopyList | TDAmeritradeAPI/Orders.cs:167-170 | a copied list is null iff the original is, and otherwise has the same elements in the same order |
| Orders.Clone | TDAmeritradeAPI/Orders.cs:164-172 | the clone equals the original in every field, lists included |
| Orders.GetChildOrderStrategy | TDAmeritradeAPI/Orders.cs:173-185 | exactly order type, session, price, duration, strategy type and legs are copied; every other field, the child strategies included, is null |
| Orders.ChildStrategyDeterminedBySixFields | TDAmeritradeAPI/Orders.cs:173-185 | two orders have equal child strategies iff they agree on the six copied fields |
| Orders.ChildStrategyIdempotent | TDAmeritradeAPI/Orders.cs:173-185 | taking the child strategy twice equals taking it once, and nested strategies are dropped |
| Orders.SanitizeLeg | TDAmeritradeAPI/TDAmeritradeAPI.cs:1059-1065 | leg id and position effect cleared, the instrument's CUSIP cleared if there is an instrument, nothing else changed |
| Orders.SanitizeLegs | TDAmeritradeAPI/TDAmeritradeAPI.cs:1057-1066 | every leg sanitised, the order and number of legs kept |
| Orders.Sanitize | TDAmeritradeAPI/TDAmeritradeAPI.cs:1047-1066 | the nine fields the order endpoints refuse are cleared; the legs are the input's legs, in order, each differing from its original only in a cleared leg id, position effect and instrument CUSIP; nothing else changes |
| Orders.SanitizeIdempotent | TDAmeritradeAPI/TDAmeritradeAPI.cs:1047-1066 | sanitising twice equals sanitising once |
| Orders.PlaceOrderRequest | TDAmeritradeAPI/TDAmeritradeAPI.cs:1032-1087 | a new order is POSTed to `/accounts/{id}/orders`, a replacement is PUT to `/accounts/{id}/orders/{orderId}`, and the body is the sanitised order in both cases |
| OrderGenerator.ValidateInstruction | TDAmeritradeAPI/OrderGenerator.cs:83-93 | it rejects exactly an equity order whose instruction is not BUY, SELL, BUY_TO_COVER or SELL_SHORT |
| OrderGenerator.OptionInstructionsNeverRejected | TDAmeritradeAPI/OrderGenerator.cs:83-93 | no instruction is rejected for an option: the option check sits in the dangling `else` |
| OrderGenerator.EquityInstructionsAccepted | TDAmeritradeAPI/OrderGenerator.cs:10-11 | the accepted equity instructions are exactly the four of the list |
| OrderGenerator.ValidatePrice | TDAmeritradeAPI/OrderGenerator.cs:100-104 | a null or non-negative price passes, a negative one fails |
| OrderGenerator.ValidateQuantity | TDAmeritradeAPI/OrderGenerator.cs:111-114 | quantity 0 fails, any other passes |
| OrderGenerator.ValidateSpread | TDAmeritradeAPI/OrderGenerator.cs:125-139 | it passes iff the underlyings match and, for a vertical spread, the strikes differ and the expirations agree; the error names the failed check |
| OrderGenerator.HorizontalSpreadUnchecked | TDAmeritradeAPI/OrderGenerator.cs:125-139 | a horizontal spread is only checked for matching underlyings, exactly like a custom one |
| OrderGenerator.ValidateSymbol | TDAmeritradeAPI/OrderGenerator.cs:147-152 | it passes iff the symbol parses to the expected type, giving the wire form; an index error or a wrong type is reported |
| OrderGenerator.BasicOrder | TDAmeritradeAPI/OrderGenerator.cs:312-341 | it succeeds iff all four validations pass, and the first failing validation decides the error. The order is MARKET without a price or LIMIT at the price, NORMAL, SINGLE, and has exactly one leg: the instruction, the quantity, the wire symbol, asset type EQUITY iff the security is an equity. Nothing else is set |
| OrderGenerator.BuyEquity | TDAmeritradeAPI/OrderGenerator.cs:163-173 | it succeeds iff the symbol is an equity, the quantity is positive and the price is valid; the instruction is BUY to open, BUY_TO_COVER to close |
| OrderGenerator.SellEquity | TDAmeritradeAPI/OrderGenerator.cs:184-194 | the same acceptance; SELL_SHORT to open, SELL to close |
| OrderGenerator.BuyOption | TDAmeritradeAPI/OrderGenerator.cs:205-215 | it succeeds iff the symbol is an option, the quantity is positive and the price is valid; BUY_TO_OPEN or BUY_TO_CLOSE |
| OrderGenerator.SellOption | TDAmeritradeAPI/OrderGenerator.cs:226-236 | the same acceptance; SELL_TO_OPEN or SELL_TO_CLOSE. The option instruction list lacks SELL_TO_OPEN, but option instructions are never checked |
| OrderGenerator.BuySellEquityDifferOnlyInInstruction | TDAmeritradeAPI/OrderGenerator.cs:163-194 | buying and selling the same equity are accepted alike and give the same order but for the leg's instruction |
| OrderGenerator.CreateSpread | TDAmeritradeAPI/OrderGenerator.cs:250-299 | a price without a net effect is rejected, and so are a zero quantity and an invalid spread. The order type is the net effect's or MARKET; the complex strategy is CUSTOM iff the spread is custom. There are two option legs, long first: BUY_TO_OPEN/SELL_TO_OPEN when opening, SELL_TO_CLOSE/BUY_TO_CLOSE when closing |
| OrderGenerator.CloseSpreadUndoesOpen | TDAmeritradeAPI/OrderGenerator.cs:250-299 | the closing spread has the closing instruction of each opening leg and otherwise equals the opening spread |
| OrderGenerator.TriggeredOrder | TDAmeritradeAPI/OrderGenerator.cs:349-364 | the trigger order with strategy TRIGGER and one child, the triggered order's child strategy: its order type, session, price, duration, strategy type and legs, and no children; every other field is the trigger's |
| OrderGenerator.TriggeredOrderDeterminedBySixFields | TDAmeritradeAPI/OrderGenerator.cs:349-364 | for one trigger, two triggered orders give the same result exactly when they agree on the six properties a child strategy copies |
| OrderGenerator.OneCancelsAnother | TDAmeritradeAPI/OrderGenerator.cs:373-385 | an OCO order with the two child strategies in argument order, each carrying its order's type, session, price, duration, strategy type and legs, and nothing else set |
| OrderGenerator.OneCancelsAnotherDeterminedBySixFields | TDAmeritradeAPI/OrderGenerator.cs:373-385 | two OCO orders are equal exactly when their first orders have the same child strategy and so do their second orders |
| OrderGenerator.OneCancelsAnotherSwap | TDAmeritradeAPI/OrderGenerator.cs:373-385 | swapping the arguments swaps the two children |
| OrderGenerator.TriggerOneCancelsAnother | TDAmeritradeAPI/OrderGenerator.cs:395-411 | strategy TRIGGER, every other field but the children the trigger's |
| OrderGenerator.TriggerOcoLosesBothOrders | TDAmeritradeAPI/OrderGenerator.cs:395-411 | the only child is an empty OCO order: neither order to cancel survives |
| OrderGenerator.TriggerOneCancelsAnotherIntended | TDAmeritradeAPI/OrderGenerator.cs:395-411 | the corrected builder: the only child is the OCO order with both child strategies |
| OrderGenerator.IntendedKeepsBothOrders | TDAmeritradeAPI/OrderGenerator.cs:395-411 | the corrected builder keeps both orders' legs in its OCO child; the as-written builder is exactly `TriggeredOrder` applied to the OCO order, whose child strategy has no children |
| OrderGenerator.SetLimit | TDAmeritradeAPI/OrderGenerator.cs:418-422 | LIMIT at the given price; nothing else changes |
| OrderGenerator.SetStop | TDAmeritradeAPI/OrderGenerator.cs:430-435 | STOP with the stop price and link basis; nothing else changes |
| OrderGenerator.SetStopLimit | TDAmeritradeAPI/OrderGenerator.cs:444-450 | STOP_LIMIT with the stop price, link basis and limit price; nothing else changes |
| OrderGenerator.SetTrailingStop | TDAmeritradeAPI/OrderGenerator.cs:459-468 | TRAILING_STOP with link basis, link type and offset, complex strategy NONE; nothing else changes |
| OrderGenerator.SetTrailingStopLimit | TDAmeritradeAPI/OrderGenerator.cs:477-487 | TRAILING_STOP_LIMIT with link basis, link type, offset and limit price, complex strategy NONE; nothing else changes |
| OrderGenerator.SettersCompose | TDAmeritradeAPI/OrderGenerator.cs:418-487 | each limit variant is its stop variant followed by `SetLimit` with the type renamed; `SetLimit` is idempotent; a later `SetStop` keeps a trailing offset |
| PriceHistory.ValidatePeriod | TDAmeritradeAPI/PriceHistory.cs:200-232 | the accepted amounts are Day {1,2,3,4,5,10}, Month {1,2,3,6}, Year {1,2,3,5,10,15,20}, YTD {1} |
| PriceHistory.ValidateFrequency | TDAmeritradeAPI/PriceHistory.cs:137-156 | it accepts exactly Minute with {1,5,10,15,30}; any other type fails, as "not valid" when the amount is 1 |
| PriceHistory.ValidateFrequencyType | TDAmeritradeAPI/PriceHistory.cs:165-191 | it accepts exactly Day with Minute, and Month or YTD with Daily or Weekly; Year never |
| PriceHistory.ValidateDates | TDAmeritradeAPI/PriceHistory.cs:122-128 | it accepts iff 0 <= start < end; a negative date and an unordered pair are told apart |
| PriceHistory.EmptyAcceptedSets | TDAmeritradeAPI/PriceHistory.cs:137-191 | no non-minute frequency is ever accepted, and no frequency type with a year period |
| PriceHistory.WithPeriod | TDAmeritradeAPI/PriceHistory.cs:48-62 | built iff the period, frequency type and frequency validate; it keeps the arguments and sets both dates to -1 |
| PriceHistory.WithDates | TDAmeritradeAPI/PriceHistory.cs:73-87 | built iff frequency type, frequency and dates validate, with no period validation; it keeps the arguments and sets the period to -1 |
| PriceHistory.ConstructorsAccept | TDAmeritradeAPI/PriceHistory.cs:48-87 | every constructed object asks for Minute candles over Day periods |
| PriceHistory.SetPeriod | TDAmeritradeAPI/PriceHistory.cs:36 | the public setter changes only the period, unvalidated |
| PriceHistory.EnumTextsLowered | TDAmeritradeAPI/PriceHistory.cs:95-109 | the lower-cased enum names are the API's values, for example `day`, `minute`, `ytd` |
| PriceHistory.EnumTextsDistinct | TDAmeritradeAPI/PriceHistory.cs:95-109 | different enum values give different parameter values |
| PriceHistory.ToDictionary | TDAmeritradeAPI/PriceHistory.cs:89-113 | the period keys when a date is -1, else the date keys when the period is -1, else nothing; keys distinct |
| PriceHistory.ToDictionaryValues | TDAmeritradeAPI/PriceHistory.cs:89-113 | in either form `periodType`, `frequencyType` and `needExtendedHoursData` hold the lower-cased names and `frequency` its decimal text; the period form holds the period and no dates, the date form both dates and no period |
| PriceHistory.PeriodFormDetermines | TDAmeritradeAPI/PriceHistory.cs:89-113 | period-form parameters determine period type, period, frequency type, frequency and the extended-hours flag |
| PriceHistory.DateFormDetermines | TDAmeritradeAPI/PriceHistory.cs:89-113 | date-form parameters determine the whole object |
| PriceHistory.EmptyOnlyAfterSettingPeriod | TDAmeritradeAPI/PriceHistory.cs:36-113 | a constructed object always yields parameters; a date-built one yields none exactly after its period is set to something other than -1 |
| OptionChain.NewSearchOptions | TDAmeritradeAPI/OptionChain.cs:147-150 | only the symbol is set |
| OptionChain.Fields | TDAmeritradeAPI/OptionChain.cs:244-258 | one optional field per search property, keyed by the fixed query names in the source's order, none of them `symbol` |
| OptionChain.StrategyTextInjective | TDAmeritradeAPI/OptionChain.cs:247 | different strategies have different names, so the corrected `strategy` value identifies the strategy |
| OptionChain.ToDictionary | TDAmeritradeAPI/OptionChain.cs:236-261 | `symbol` comes first with the symbol. An analytical input forces the strategy to ANALYTICAL on the object; otherwise the object is unchanged |
| OptionChain.ToDictionaryLookup | TDAmeritradeAPI/OptionChain.cs:236-261 | keys are distinct, so no `Add` throws; each optional key holds exactly its field's text, and is absent when the field is null |
| OptionChain.ToDictionaryParameters | TDAmeritradeAPI/OptionChain.cs:242-250 | contract type, strike count, upper-cased include-quotes, interval, strike and range appear iff set, with their text. `strategy` appears iff a strategy is set or forced, carrying the IncludeQuotes text |
| OptionChain.ToDictionaryParametersRest | TDAmeritradeAPI/OptionChain.cs:251-258 | the dates, volatility, underlying price, interest rate, days to expiration, month and option type appear iff set, with their text |
| OptionChain.StrategyParameterIsIncludeQuotes | TDAmeritradeAPI/OptionChain.cs:247 | with strategy VERTICAL and IncludeQuotes true the `strategy` value is `True`; with only a volatility it is the empty string |
| OptionChain.FieldsIntended | TDAmeritradeAPI/OptionChain.cs:244-258 | the corrected fields: the same as the written ones but for `strategy`, which carries the strategy's name |
| OptionChain.ToDictionaryIntended | TDAmeritradeAPI/OptionChain.cs:236-261 | the corrected dictionary: the same strategy update and leading symbol |
| OptionChain.IntendedStrategyParameter | TDAmeritradeAPI/OptionChain.cs:242-247 | in the corrected dictionary `strategy` names the strategy, and is ANALYTICAL whenever an analytical input is set; keys stay distinct |
| Quote.ParseName | TDAmeritradeAPI/DataModels/Quote.cs:30 | the asset type whose name equals the text, ignoring case; an error exactly when no name matches |
| Quote.ParseNameRoundTrip | TDAmeritradeAPI/DataModels/Quote.cs:30 | every asset type's name parses back to it, in upper or lower case |
| Quote.NextLetter | TDAmeritradeAPI/DataModels/Quote.cs:25 | the first letter at or after the start, or none when no letter follows |
| Quote.NextQuote | TDAmeritradeAPI/DataModels/Quote.cs:28 | the first `"` at or after the start, or none |
| Quote.GetAssetType | TDAmeritradeAPI/DataModels/Quote.cs:16-31 | UNKNOWN when `assetMainType` does not occur. Running off the end is an index error, exactly when no letter or no closing `"` follows. Otherwise the parsed text starts at the first letter after the name, runs up to the next `"` without containing one, and is parsed by name |
| Quote.SkipToLetter | TDAmeritradeAPI/DataModels/Quote.cs:25 | the first loop stops at the first letter at or after its start, or at the end of the text when there is none |
| Quote.SkipToQuote | TDAmeritradeAPI/DataModels/Quote.cs:28 | the second loop stops at the first `"` at or after its start, or at the end of the text when there is none |
| Quote.ExampleScan | TDAmeritradeAPI/DataModels/Quote.cs:16-31 | `{"assetMainType":"equity"}` gives EQUITY |
| Naming.SnakeCaseLength | TDAmeritradeAPI/JsonSerializationHelpers.cs:13-18 | the output has length \|name\| - 1 plus the number of upper-case letters before the last character |
| Naming.SnakeCaseAt | TDAmeritradeAPI/JsonSerializationHelpers.cs:13-18 | name[i] (i >= 1) sits at i - 1 plus the upper-case letters in name[..i], right after a `_` when name[i-1] is upper case |
| Naming.SnakeCaseLayout | TDAmeritradeAPI/JsonSerializationHelpers.cs:9-21 | names of length 0 or 1 give ""; every later character is kept, unchanged and in order; a `_` is inserted exactly before the characters following an upper-case letter |
| Naming.SnakeCaseConvertName | TDAmeritradeAPI/JsonSerializationHelpers.cs:9-21 | the source's loop computes the snake-case name, with the length and the character positions above |
| Naming.SnakeCaseOfLowerName | TDAmeritradeAPI/JsonSerializationHelpers.cs:13-18 | a name with no upper-case letter only loses its first character |
| Naming.LowerCaseConvertName | TDAmeritradeAPI/Serializers/JsonSerializationHelpers.cs:211-215 | the length is kept, no upper-case letter remains, and every other character is unchanged |
| Naming.LowerCaseIdempotent | TDAmeritradeAPI/Serializers/JsonSerializationHelpers.cs:213-214 | lower-casing twice equals once, and it changes only case: upper-casing the result gives the upper-cased name |
| InstrumentWriter.Prop | TDAmeritradeAPI/JsonSerializationHelpers.cs:171-176 | a property is written iff its value is not null |
| InstrumentWriter.Write | TDAmeritradeAPI/JsonSerializationHelpers.cs:166-225 | the output is one object, opened first and closed last |
| InstrumentWriter.WriteKeys | TDAmeritradeAPI/JsonSerializationHelpers.cs:166-225 | the names written are the head keys (assetType, symbol, description, each iff set, in that order) followed by the keys of the run-time class |
| InstrumentWriter.WriteKeysByClass | TDAmeritradeAPI/JsonSerializationHelpers.cs:171-222 | cusip is never written. Base and equity instruments write only the head keys. maturityDate only for fixed income, putCall only for options, type only for mutual funds, cash equivalents and options. optionDeliverables iff an option has a non-null, non-empty list |
| InstrumentWriter.ClassKeysAmong | TDAmeritradeAPI/JsonSerializationHelpers.cs:178-222 | each run-time class writes only its own properties, in the fixed order |
| InstrumentWriter.DeliverableKeysAmong | TDAmeritradeAPI/JsonSerializationHelpers.cs:209-219 | a deliverable writes only symbol, deliverableUnits, currencyType and assetType |
| InstrumentWriter.WriteWellFormedIff | TDAmeritradeAPI/JsonSerializationHelpers.cs:166-225 | the tokens are accepted by a JSON writer that requires properties inside objects, exactly when no option writes a deliverable with a set field |
| InstrumentWriter.OneDeliverableRejected | TDAmeritradeAPI/JsonSerializationHelpers.cs:207-222 | an option with one deliverable whose symbol is set writes a property directly inside the array |
| InstrumentWriter.DeliverableArray | TDAmeritradeAPI/JsonSerializationHelpers.cs:207-222 | nothing is written for a null or empty deliverable list |
| InstrumentWriter.WriteIntended | TDAmeritradeAPI/Serializers/JsonSerializationHelpers.cs:149-208 | the corrected writer also writes one object, opened first and closed last |
| InstrumentWriter.WriteIntendedWellFormed | TDAmeritradeAPI/Serializers/JsonSerializationHelpers.cs:190-205 | with each deliverable wrapped in its own object the output is always accepted |
| InstrumentWriter.WriteIntendedKeys | TDAmeritradeAPI/Serializers/JsonSerializationHelpers.cs:149-208 | the corrected writer writes the same names in the same order as the written one |
| Streaming.QosValue | TDAmeritradeAPI/TDAmeritradeStreamingClient.cs:22 | a quality-of-service level's value is 0..5 |
| Streaming.New | TDAmeritradeAPI/TDAmeritradeStreamingClient.cs:34-47 | a null client throws ArgumentNullException and a logged-out one NullReferenceException; otherwise a disconnected client with no principals |
| Streaming.Connect | TDAmeritradeAPI/TDAmeritradeStreamingClient.cs:49-58 | the fetched principals are kept; the connection flag is untouched |
| Streaming.DictionaryToQueryString | TDAmeritradeAPI/TDAmeritradeStreamingClient.cs:103-113 | the empty dictionary fails with ArgumentOutOfRange. Otherwise the result is `encode` applied once to `k=v` pairs joined by `&` |
| Streaming.Credential | TDAmeritradeAPI/TDAmeritradeStreamingClient.cs:67-80 | the eleven credential keys in order, `authorized` being `Y` |
| Streaming.Admin | TDAmeritradeAPI/TDAmeritradeStreamingClient.cs:115-124 | an ADMIN request for the account of the principals, or a null-reference error without them |
| Streaming.Login | TDAmeritradeAPI/TDAmeritradeStreamingClient.cs:61-89 | an ADMIN request for the connected account, or the null-reference failure without principals: request 0, LOGIN, with the encoded credential query, the token and version 1.0 |
| Streaming.LogOut | TDAmeritradeAPI/TDAmeritradeStreamingClient.cs:91-95 | request 1, LOGOUT, no parameters, and the client is disconnected afterwards; without principals nothing changes |
| Streaming.SetQualityOfService | TDAmeritradeAPI/TDAmeritradeStreamingClient.cs:97-100 | request 2, QOS, one `qoslevel` parameter of one decimal digit |
| Streaming.QosTextIdentifiesLevel | TDAmeritradeAPI/TDAmeritradeStreamingClient.cs:99 | the `qoslevel` text reads back as the level's value, and different levels give different requests |
| Streaming.AdminRequestsDistinct | TDAmeritradeAPI/TDAmeritradeStreamingClient.cs:88-99 | LOGOUT and QOS carry different ids and commands, neither that of LOGIN |

## Left out

- HTTP transport (`HttpRequest` and the endpoint wrappers), JSON (de)serialisation, the converters' `Read` methods and the `AsJson`/`ToJson` methods. They are I/O or library internals; only the parameters and bodies they are given are modelled.
- Client.PostAccessToken: the reply is a map from keys to strings, so a reply whose token value is JSON `null` (stored by the source as a null token) is not modelled.
- The interactive bootstrap of `FirstTimeTokens`: the browser login, the driver download and the console prompts. The login is the value `user`, holding the typed-in credentials and the authorization code.
- Reading and saving the authorization file (`SaveChanges`, its retry loop, encryption in Cryptography.cs). Loading is "stored record or defaults"; saving has no effect in the model.
- `System.Timers`: a timer is the interval handed to its constructor. Disposal, `AutoReset` and concurrent ticks of the `async void` handler are not modelled. `now` is one value per call, where the source reads the clock anew at each `WriteTokenExpiration`.
- Web socket connect and send in the streaming client; a request is the value that would be sent. The principals a `Connect` fetches are a parameter. `IsConnected` is never set to true by the source, and the model keeps that.
- `Login`'s timestamp parsing (`DateTime.Parse`, UNIX milliseconds): the timestamp is taken as its text.
- The parsing constructor of `OrderGenerator.Option` (`DateTime.ParseExact`, `Convert.ToDouble`): an option contract is given already parsed.
- Floating point: prices, strikes and quantities are exact `real`s, and only comparisons occur on them. The text of a `double` and of a date is the parameter `num` or `date`.
- Culture: `ToUpper`, `ToLower`, `Trim`, `char.IsLetter` and `char.IsUpper` are their ASCII versions, and `IndexOf` is ordinal.
- `Enum.Parse` accepts only a name here; its numeric, comma-list and white-space forms are not modelled.
- `Quote.GetAssetType`: the enumeration is that of TDAmeritradeAPI/DataModels/Instrument.cs. Values of a C# enum outside its named members cannot be represented.
- Aliasing: `Clone` and `GetChildOrderStrategy` copy lists but share the leg objects. Legs are values here, so a later mutation through the shared reference is not modelled.
- `PlaceOrderHelper` clears the forbidden fields on the caller's own order object; the model returns the cleared order as a new value.
- `PlaceOrderHelper`'s PENDING_REPLACE check only prints a message and is left out.
- The JSON writer's own number formatting, and its checks beyond container nesting (for example, duplicate property names).
- `OptionChain`: `ExpirationMonth` has no NOV in the source, and neither does the model.
- TokenData.WriteTokenExpiration: the source adds 1800 and 7776000 to `int` seconds since the epoch, which wraps around in 32 bits from late 2037 on (and the cast of the clock to `int` fails from 2038); `now` and the expirations are unbounded here.
- TokenData.TokensExpirationsStatus: its `+ 180` and `+ 86400` are 32-bit `int` sums in the source; the same overflow after 2037 is not modelled.
- TokenData.SecondsUntilExpiration: the difference is a 32-bit `int` in the source; no overflow is modelled.
- TokenDataNullable.WriteTokenExpiration: the same 32-bit arithmetic on `int?` as its sentinel revision; no overflow is modelled.
- TokenDataNullable.TokensExpirationsStatus: its sums are 32-bit in the source; no overflow is modelled.
- TokenDataNullable.SecondsUntilExpiration: the difference is 32-bit in the source; no overflow is modelled.
- Client.PostAccessToken: a failed HTTP call or a reply that is not JSON throws in the source. The model has no such outcome of `server`; the closest is a `null` reply (`NullReply`), which likewise leaves the record unchanged and stops the run.
- Client.TimerElapsed: the handler is `async void`, so an exception in it ends the process in the source. The model returns the error beside the unchanged timer and does not model the crash.
- The data-transfer classes (quotes, transactions, accounts, market hours, movers, preferences, watchlists) hold no logic and are not modelled.

## Findings

| source | as written | input that shows it | evidently intended | confidence | as-written member | corrected member |
|---|---|---|---|---|---|---|
| TDAmeritradeAPI/TDAmeritradeAPI.cs:408-417 | for status 0 or 2 the timer gets the seconds left on the access token minus 120, but `System.Timers.Timer` counts milliseconds | an access token written at `now` (expiry now+1800) with a distant refresh expiry: status 0, interval 1680 ms instead of 1680 s | the same lead time in milliseconds, firing two minutes before the access token expires | not executed | Client.IntervalIsSecondsNotMilliseconds | Client.RefreshTokensIntended |
| TDAmeritradeAPI/Utils/OAuth2Data.cs:48-52 | every comparison with a null refresh expiry is false, so a record without one reports 0 to 3 | a record with all expiries null reports 0, "both tokens are OK" | 4 (re-authenticate) when the refresh expiry is missing, as the comment at line 25 says | not executed | TokenDataNullable.NullRefreshNeverReauthenticates | TokenDataNullable.DocumentedStatus |
| TDAmeritradeAPI/OrderGenerator.cs:395-411 | the trigger's child is `GetChildOrderStrategy` of the OCO order, which drops that order's children | any trigger and two orders: the child is an OCO order with no children | the OCO order with both children as the trigger's child | not executed | OrderGenerator.TriggerOcoLosesBothOrders | OrderGenerator.TriggerOneCancelsAnotherIntended |
| TDAmeritradeAPI/OptionChain.cs:247 | the `strategy` parameter is the text of `IncludeQuotes` | strategy VERTICAL with IncludeQuotes true gives `strategy=True` | the strategy's own name, e.g. `VERTICAL`, or `ANALYTICAL` when forced | not executed | OptionChain.StrategyParameterIsIncludeQuotes | OptionChain.IntendedStrategyParameter |
| TDAmeritradeAPI/JsonSerializationHelpers.cs:207-222 | the deliverables' properties are written straight into the `optionDeliverables` array, which is not well-formed JSON (a validating writer throws) | an option with one deliverable whose symbol is `AAPL` | one object per deliverable inside the array | not executed | InstrumentWriter.OneDeliverableRejected | InstrumentWriter.WriteIntendedWellFormed |

=== FILE: client_auth.dfy ===
/** The OAuth 2.0 life cycle of `Client` (TDAmeritradeAPI/TDAmeritradeAPI.cs):
    `Init`, `FirstTimeTokens`, `GetNewToken`, `PostAccessToken`,
    `RefreshTokens` and the refresh timer's `Elapsed` handler.

    The token endpoint is a function `server` from the request to the
    deserialised JSON reply (`None` for a `null` reply); the interactive
    login of `FirstTimeTokens` is the value `user` it produces. Timers are
    values: the interval handed to the timer constructor. Every operation
    returns the requests it sent, in order, beside the new state. */
module Client {
  import opened Common
  import Text
  import TokenData

  /** The client's private `Token` enumeration. */
  datatype Token = AccessToken | RefreshToken

  /** The form sent to the token endpoint (grant types of sections 4.1.3 and
      6 of RFC 6749; `access_type` is the vendor's own). A `null` value comes
      from a `!`-asserted field that is in fact null. */
  datatype TokenRequest = TokenRequest(
    grantType: string,
    refreshToken: Option<string>,
    accessType: string,
    code: string,
    clientId: Option<string>,
    redirectUri: Option<string>)

  /** The deserialised reply of the token endpoint. */
  type Reply = map<string, string>

  /** What the interactive login yields: the typed-in client id and redirect
      URI (read only when the stored ones are missing) and the authorization
      code taken from the redirect URL. */
  datatype Login = Login(clientId: string, redirectUri: string, code: string)

  /** The exceptions an exchange can end in. */
  datatype ClientError =
    | NullReply              // the reply deserialised to null
    | MissingKey(key: string) // the reply lacks the token the branch reads

  /** A running `System.Timers.Timer`, by its interval. */
  datatype Timer = Timer(intervalMs: int)

  datatype ClientState = ClientState(
    data: TokenData.TokenRecord,
    timer: Option<Timer>,
    firstTimer: bool)

  /** The state after an operation, the requests it sent, and the exception
      that ended it early, if one did. */
  datatype Step = Step(state: ClientState, sent: seq<TokenRequest>, error: Option<ClientError>)

  const TwentyEightMinutesMs: int := 1680000
  const TimerLeadSeconds: int := 120

  /** A fresh client, before `Init`. */
  const NewClient: ClientState := ClientState(TokenData.Defaults, None, true)

  // ---------------------------------------------------------------- requests

  /** The form `GetNewToken` sends for `token`. */
  function NewTokenRequest(rec: TokenData.TokenRecord, token: Token): (req: TokenRequest)
    ensures req.grantType == "refresh_token" && req.code == "" && req.redirectUri == Some("")
    ensures req.refreshToken == rec.refreshToken && req.clientId == rec.clientId
    ensures req.accessType == (if token.RefreshToken? then "offline" else "")
  {
    TokenRequest("refresh_token", rec.refreshToken,
                 if token == AccessToken then "" else "offline",
                 "", rec.clientId, Some(""))
  }

  /** The two forms of `GetNewToken` differ in `access_type` alone. */
  lemma NewTokenRequestsDifferOnlyInAccessType(rec: TokenData.TokenRecord)
    ensures NewTokenRequest(rec, AccessToken) == NewTokenRequest(rec, RefreshToken).(accessType := "")
    ensures NewTokenRequest(rec, AccessToken) != NewTokenRequest(rec, RefreshToken)
  {
  }

  /** The form `FirstTimeTokens` sends once the login has produced `code`. */
  function AuthorizationRequest(rec: TokenData.TokenRecord, code: string): (req: TokenRequest)
    ensures req.grantType == "authorization_code" && req.accessType == "offline"
    ensures req.refreshToken == Some("") && req.code == code
    ensures req.clientId == rec.clientId && req.redirectUri == rec.redirectUri
  {
    TokenRequest("authorization_code", Some(""), "offline", code, rec.clientId, rec.redirectUri)
  }

  // ---------------------------------------------------------------- exchange

  /** The token fields `PostAccessToken` sets, and its error if it throws.
      A missing key after the first update of the authorization-code branch
      leaves that update in place. */
  function PostAccessToken(rec: TokenData.TokenRecord, req: TokenRequest, reply: Option<Reply>, now: nat)
    : (r: (TokenData.TokenRecord, Option<ClientError>))
    ensures reply.None? ==> r == (rec, Some(NullReply))
    // a refresh-token grant with `offline` replaces the refresh token only
    ensures reply.Some? && req.grantType == "refresh_token" && req.accessType == "offline" ==>
      if "refresh_token" in reply.value then
        r == (rec.(refreshToken := Some(reply.value["refresh_token"]),
                   refreshTokenExpiration := now + TokenData.RefreshLifetime), None)
      else r == (rec, Some(MissingKey("refresh_token")))
    // a refresh-token grant with an empty `access_type` replaces the access token only
    ensures reply.Some? && req.grantType == "refresh_token" && req.accessType == "" ==>
      if "access_token" in reply.value then
        r == (rec.(accessToken := Some(reply.value["access_token"]),
                   accessTokenExpiration := now + TokenData.AccessLifetime), None)
      else r == (rec, Some(MissingKey("access_token")))
    // an authorization-code grant with `offline` replaces both, access first
    ensures reply.Some? && req.grantType == "authorization_code" && req.accessType == "offline" ==>
      if "access_token" !in reply.value then r == (rec, Some(MissingKey("access_token")))
      else if "refresh_token" !in reply.value then
        r == (rec.(accessToken := Some(reply.value["access_token"]),
                   accessTokenExpiration := now + TokenData.AccessLifetime), Some(MissingKey("refresh_token")))
      else
        r == (rec.(accessToken := Some(reply.value["access_token"]),
                   accessTokenExpiration := now + TokenData.AccessLifetime,
                   refreshToken := Some(reply.value["refresh_token"]),
                   refreshTokenExpiration := now + TokenData.RefreshLifetime), None)
    // any other combination is accepted and changes nothing
    ensures (reply.Some? && !(req.grantType == "refresh_token" && (req.accessType == "offline" || req.accessType == "")) &&
             !(req.grantType == "authorization_code" && req.accessType == "offline")) ==> r == (rec, None)
    // the client id and redirect URI are never touched
    ensures r.0.clientId == rec.clientId && r.0.redirectUri == rec.redirectUri
  {
    match reply
    case None => (rec, Some(NullReply))
    case Some(json) =>
      if req.grantType == "refresh_token" then
        if req.accessType == "offline" then
          if "refresh_token" !in json then (rec, Some(MissingKey("refresh_token")))
          else
            var r1 := rec.(refreshToken := Some(json["refresh_token"]));
            (TokenData.WriteTokenExpiration(r1, TokenData.RefreshToken, now), None)
        else if req.accessType == "" then
          if "access_token" !in json then (rec, Some(MissingKey("access_token")))
          else
            var r1 := rec.(accessToken := Some(json["access_token"]));
            (TokenData.WriteTokenExpiration(r1, TokenData.AccessToken, now), None)
        else (rec, None)
      else if req.grantType == "authorization_code" && req.accessType == "offline" then
        if "access_token" !in json then (rec, Some(MissingKey("access_token")))
        else
          var r1 := TokenData.WriteTokenExpiration(rec.(accessToken := Some(json["access_token"])),
                                                   TokenData.AccessToken, now);
          if "refresh_token" !in json then (r1, Some(MissingKey("refresh_token")))
          else
            (TokenData.WriteTokenExpiration(r1.(refreshToken := Some(json["refresh_token"])),
                                            TokenData.RefreshToken, now), None)
      else (rec, None)
  }

  function ExpiryOf(token: Token): TokenData.TokenType {
    if token == AccessToken then TokenData.AccessToken else TokenData.RefreshToken
  }

  /** `GetNewToken`: one refresh-token exchange for `token`, then its expiry
      written again. */
  function GetNewToken(rec: TokenData.TokenRecord, token: Token, server: TokenRequest -> Option<Reply>, now: nat)
    : (r: (TokenData.TokenRecord, Option<ClientError>))
  {
    var (r1, err) := PostAccessToken(rec, NewTokenRequest(rec, token), server(NewTokenRequest(rec, token)), now);
    if err.Some? then (r1, err)
    else (TokenData.WriteTokenExpiration(r1, ExpiryOf(token), now), None)
  }

  /** A successful access-token exchange changes exactly the access token
      and its expiry; a failed one changes nothing. */
  lemma GetNewAccessTokenEffect(rec: TokenData.TokenRecord, server: TokenRequest -> Option<Reply>, now: nat)
    ensures var reply := server(NewTokenRequest(rec, AccessToken));
      GetNewToken(rec, AccessToken, server, now) ==
        if reply.None? then (rec, Some(NullReply))
        else if "access_token" !in reply.value then (rec, Some(MissingKey("access_token")))
        else (rec.(accessToken := Some(reply.value["access_token"]),
                   accessTokenExpiration := now + TokenData.AccessLifetime), None)
  {
    var req := NewTokenRequest(rec, AccessToken);
    var (r1, err) := PostAccessToken(rec, req, server(req), now);
    if err.None? {
      TokenData.WriteTokenExpirationIdempotent(rec.(accessToken := r1.accessToken), TokenData.AccessToken, now);
    }
  }

  /** A successful refresh-token exchange changes exactly the refresh token
      and its expiry; a failed one changes nothing. */
  lemma GetNewRefreshTokenEffect(rec: TokenData.TokenRecord, server: TokenRequest -> Option<Reply>, now: nat)
    ensures var reply := server(NewTokenRequest(rec, RefreshToken));
      GetNewToken(rec, RefreshToken, server, now) ==
        if reply.None? then (rec, Some(NullReply))
        else if "refresh_token" !in reply.value then (rec, Some(MissingKey("refresh_token")))
        else (rec.(refreshToken := Some(reply.value["refresh_token"]),
                   refreshTokenExpiration := now + TokenData.RefreshLifetime), None)
  {
    var req := NewTokenRequest(rec, RefreshToken);
    var (r1, err) := PostAccessToken(rec, req, server(req), now);
    if err.None? {
      TokenData.WriteTokenExpirationIdempotent(rec.(refreshToken := r1.refreshToken), TokenData.RefreshToken, now);
    }
  }

  /** Whether a stored credential is missing or empty, as `FirstTimeTokens` tests it. */
  predicate Blank(s: Option<string>) {
    s.None? || |s.value| == 0
  }

  /** The first half of `FirstTimeTokens`: a missing or empty client id or
      redirect URI is replaced by the trimmed value the user typed in. */
  function FillCredentials(rec: TokenData.TokenRecord, user: Login): (r: TokenData.TokenRecord)
    ensures r.clientId == if Blank(rec.clientId) then Some(Text.Trim(user.clientId)) else rec.clientId
    ensures r.redirectUri == if Blank(rec.redirectUri) then Some(Text.Trim(user.redirectUri)) else rec.redirectUri
    ensures r.(clientId := rec.clientId, redirectUri := rec.redirectUri) == rec
  {
    var withId := if Blank(rec.clientId) then rec.(clientId := Some(Text.Trim(user.clientId))) else rec;
    if Blank(withId.redirectUri) then withId.(redirectUri := Some(Text.Trim(user.redirectUri))) else withId
  }

  /** `FirstTimeTokens`: fill in the missing credentials, send the
      authorization-code request, then write both expiries. */
  function FirstTimeTokens(rec: TokenData.TokenRecord, user: Login, server: TokenRequest -> Option<Reply>, now: nat)
    : (r: (TokenData.TokenRecord, TokenRequest, Option<ClientError>))
    ensures r.1 == AuthorizationRequest(FillCredentials(rec, user), user.code)
    ensures r.0.clientId == r.1.clientId && r.0.redirectUri == r.1.redirectUri
    ensures r.2.None? ==> (&& r.0.accessTokenExpiration == now + TokenData.AccessLifetime
                           && r.0.refreshTokenExpiration == now + TokenData.RefreshLifetime
                           && r.0.accessToken.Some? && r.0.refreshToken.Some?)
  {
    var filled := FillCredentials(rec, user);
    var req := AuthorizationRequest(filled, user.code);
    var (r1, err) := PostAccessToken(filled, req, server(req), now);
    if err.Some? then (r1, req, err)
    else (TokenData.WriteTokenExpiration(r1, TokenData.Both, now), req, None)
  }

  // ---------------------------------------------------------------- dispatch

  /** One action of `RefreshTokens`. */
  datatype Action = Renew(token: Token) | Bootstrap

  /** The `switch` of `RefreshTokens`: what each status code asks for, in order. */
  function Plan(code: int): seq<Action> {
    if code == 1 then [Renew(AccessToken)]
    else if code == 2 then [Renew(RefreshToken)]
    else if code == 3 then [Renew(RefreshToken), Renew(AccessToken)]
    else if code == 4 then [Bootstrap]
    else []
  }

  /** The actions follow the classification: a re-bootstrap exactly when the
      refresh token is unusable, otherwise one exchange per token that is
      due, the refresh token first. */
  lemma PlanFollowsStatus(rec: TokenData.TokenRecord, now: nat)
    ensures var p := Plan(TokenData.TokensExpirationsStatus(rec, now));
      && (Bootstrap in p <==> TokenData.RefreshUnusable(rec, now))
      && (Bootstrap in p ==> p == [Bootstrap])
      && (!TokenData.RefreshUnusable(rec, now) ==>
            && (Renew(AccessToken) in p <==> TokenData.AccessDue(rec, now))
            && (Renew(RefreshToken) in p <==> TokenData.RefreshDueSoon(rec, now))
            && (|p| == 2 ==> p[0] == Renew(RefreshToken)))
      && |p| <= 2
  {
    var code := TokenData.TokensExpirationsStatus(rec, now);
    assert code == 0 || code == 1 || code == 2 || code == 3 || code == 4;
  }

  /** The kind of request an action sends: an exchange is a refresh-token
      grant, `offline` exactly for the refresh token; a bootstrap is an
      authorization-code grant. */
  predicate Sends(a: Action, req: TokenRequest) {
    match a
    case Renew(t) => req.grantType == "refresh_token" && req.accessType == (if t.RefreshToken? then "offline" else "")
    case Bootstrap => req.grantType == "authorization_code"
  }

  /** What running a plan yields: the record afterwards, the requests sent
      and the exception that stopped it, if any. */
  type RunResult = (TokenData.TokenRecord, seq<TokenRequest>, Option<ClientError>)

  /** One action: an exchange for one token, or the first-time bootstrap.
      The result is the record afterwards, the request sent and the error. */
  function Act(rec: TokenData.TokenRecord, a: Action, user: Login,
               server: TokenRequest -> Option<Reply>, now: nat)
    : (r: (TokenData.TokenRecord, TokenRequest, Option<ClientError>))
    ensures Sends(a, r.1)
  {
    match a
    case Renew(token) =>
      var (r1, err) := GetNewToken(rec, token, server, now);
      (r1, NewTokenRequest(rec, token), err)
    case Bootstrap => FirstTimeTokens(rec, user, server, now)
  }

  /** Carry out the actions in order; the first exception stops the rest. */
  function Run(rec: TokenData.TokenRecord, plan: seq<Action>, user: Login,
               server: TokenRequest -> Option<Reply>, now: nat)
    : (r: RunResult)
    ensures |r.1| <= |plan|
    ensures |plan| > 0 ==> |r.1| >= 1
    ensures r.2.None? ==> |r.1| == |plan|
    // the k-th request is the one the k-th action sends
    ensures forall k :: 0 <= k < |r.1| ==> Sends(plan[k], r.1[k])
    // the first goes out with the record as it was
    ensures |plan| > 0 && plan[0].Renew? ==> r.1[0] == NewTokenRequest(rec, plan[0].token)
    // a request that is not the last was answered without an exception
    ensures |r.1| < |plan| ==> r.2.Some?
    // an empty plan changes nothing; a plan of one action ends where that
    // action ends
    ensures |plan| == 0 ==> r == (rec, [], None)
    ensures |plan| == 1 && plan[0].Renew? ==> (r.0, r.2) == GetNewToken(rec, plan[0].token, server, now)
    ensures |plan| == 1 && plan[0].Bootstrap? ==>
      var b := FirstTimeTokens(rec, user, server, now);
      r.0 == b.0 && r.1[0] == b.1 && r.2 == b.2
    decreases |plan|
  {
    if |plan| == 0 then (rec, [], None)
    else
      var (r1, req, err) := Act(rec, plan[0], user, server, now);
      if err.Some? then (r1, [req], err)
      else
        var (r2, sent, err2) := Run(r1, plan[1..], user, server, now);
        (r2, [req] + sent, err2)
  }

  /** Running two plans one after the other is running their concatenation:
      the second starts from the record the first left, and an exception in
      the first means the second never starts. */
  lemma {:induction false} RunAppend(rec: TokenData.TokenRecord, p: seq<Action>, q: seq<Action>, user: Login,
                                     server: TokenRequest -> Option<Reply>, now: nat)
    ensures var a := Run(rec, p, user, server, now);
      var b := Run(a.0, q, user, server, now);
      Run(rec, p + q, user, server, now) == if a.2.Some? then a else (b.0, a.1 + b.1, b.2)
    decreases |p|, 1
  {
    if |p| == 0 {
      assert p + q == q;
      RunNil(rec, user, server, now);
      var b := Run(rec, q, user, server, now);
      assert [] + b.1 == b.1;
    } else {
      RunAppendCons(rec, p, q, user, server, now);
    }
  }

  /** The step of `RunAppend` for a non-empty first plan. */
  lemma {:induction false} RunAppendCons(rec: TokenData.TokenRecord, p: seq<Action>, q: seq<Action>, user: Login,
                                         server: TokenRequest -> Option<Reply>, now: nat)
    requires |p| > 0
    ensures var a := Run(rec, p, user, server, now);
      var b := Run(a.0, q, user, server, now);
      Run(rec, p + q, user, server, now) == if a.2.Some? then a else (b.0, a.1 + b.1, b.2)
    decreases |p|, 0
  {
    assert (p + q)[0] == p[0];
    assert (p + q)[1..] == p[1..] + q;
    RunCons(rec, p, user, server, now);
    RunCons(rec, p + q, user, server, now);
    var (r1, req, err) := Act(rec, p[0], user, server, now);
    if err.None? {
      RunAppend(r1, p[1..], q, user, server, now);
      var a := Run(r1, p[1..], user, server, now);
      var x := Run(rec, p, user, server, now);
      PrependStep(x, Run(rec, p + q, user, server, now), a, Run(r1, p[1..] + q, user, server, now),
                  Run(x.0, q, user, server, now), req);
    }
  }

  /** The bookkeeping of `RunAppendCons`: prepending one request to both
      sides of the concatenation law keeps it. */
  lemma PrependStep(x: RunResult, y: RunResult, a: RunResult, t: RunResult, b: RunResult, req: TokenRequest)
    requires x == (a.0, [req] + a.1, a.2)
    requires y == (t.0, [req] + t.1, t.2)
    requires t == if a.2.Some? then a else (b.0, a.1 + b.1, b.2)
    ensures y == if x.2.Some? then x else (b.0, x.1 + b.1, b.2)
  {
    if a.2.None? {
      assert [req] + (a.1 + b.1) == ([req] + a.1) + b.1;
    }
  }

  /** The empty plan, as `RunAppend` uses it. */
  lemma RunNil(rec: TokenData.TokenRecord, user: Login, server: TokenRequest -> Option<Reply>, now: nat)
    ensures Run(rec, [], user, server, now) == (rec, [], None)
  {
  }

  /** The first step of a non-empty plan, as `RunAppend` uses it. */
  lemma RunCons(rec: TokenData.TokenRecord, plan: seq<Action>, user: Login,
                server: TokenRequest -> Option<Reply>, now: nat)
    requires |plan| > 0
    ensures var (r1, req, err) := Act(rec, plan[0], user, server, now);
      var rest := Run(r1, plan[1..], user, server, now);
      Run(rec, plan, user, server, now) == if err.Some? then (r1, [req], err) else (rest.0, [req] + rest.1, rest.2)
  {
  }

  /** A plan of one exchange ends where that exchange ends. */
  lemma RunOneRenew(rec: TokenData.TokenRecord, token: Token, user: Login,
                    server: TokenRequest -> Option<Reply>, now: nat)
    ensures var (r1, err) := GetNewToken(rec, token, server, now);
      var r := Run(rec, [Renew(token)], user, server, now);
      r.0 == r1 && r.2 == err
  {
  }

  /** The interval `RefreshTokens` gives the new timer, as written: for
      status 0 or 2 the seconds left on the access token less two minutes,
      handed to a constructor that counts milliseconds. */
  function NextIntervalMs(rec: TokenData.TokenRecord, code: int, now: nat): int {
    if code == 0 || code == 2 then
      TokenData.SecondsUntilExpiration(rec, TokenData.AccessToken, now) - TimerLeadSeconds
    else TwentyEightMinutesMs
  }

  /** `RefreshTokens`: classify, act, then replace the timer. An exception
      leaves the old timer in place. */
  function RefreshTokens(st: ClientState, user: Login, server: TokenRequest -> Option<Reply>, now: nat)
    : (r: Step)
    ensures var code := TokenData.TokensExpirationsStatus(st.data, now);
      r.error.None? ==>
        && |r.sent| == |Plan(code)|
        && r.state.timer == Some(Timer(NextIntervalMs(r.state.data, code, now)))
    // the k-th request is the one the k-th planned action sends, and an
    // exception stops the plan after the request that drew it
    ensures var code := TokenData.TokensExpirationsStatus(st.data, now);
      && |r.sent| <= |Plan(code)|
      && (|Plan(code)| > 0 ==> |r.sent| >= 1)
      && (forall k :: 0 <= k < |r.sent| ==> Sends(Plan(code)[k], r.sent[k]))
    ensures r.error.Some? ==> r.state.timer == st.timer
    ensures r.state.firstTimer == st.firstTimer
    // the record and the error each status leaves: status 3 renews the
    // access token on the record the refresh exchange produced, status 4
    // keeps what the bootstrap fetched
    ensures var code := TokenData.TokensExpirationsStatus(st.data, now);
      && (code == 0 ==> r.state.data == st.data && r.error.None?)
      && (code == 1 ==> (r.state.data, r.error) == GetNewToken(st.data, AccessToken, server, now))
      && (code == 2 ==> (r.state.data, r.error) == GetNewToken(st.data, RefreshToken, server, now))
      && (code == 3 ==>
            var (r1, e1) := GetNewToken(st.data, RefreshToken, server, now);
            (r.state.data, r.error) == if e1.Some? then (r1, e1) else GetNewToken(r1, AccessToken, server, now))
      && (code == 4 ==>
            var b := FirstTimeTokens(st.data, user, server, now);
            r.state.data == b.0 && r.error == b.2)
  {
    var code := TokenData.TokensExpirationsStatus(st.data, now);
    RunAppend(st.data, [Renew(RefreshToken)], [Renew(AccessToken)], user, server, now);
    var (rec, sent, err) := Run(st.data, Plan(code), user, server, now);
    if err.Some? then Step(st.(data := rec), sent, err)
    else Step(ClientState(rec, Some(Timer(NextIntervalMs(rec, code, now))), st.firstTimer), sent, None)
  }

  /** The requests per status code, in full: nothing for 0, the access
      exchange for 1, the refresh exchange for 2, the refresh exchange and
      then (unless it failed) the access exchange on the refreshed record for
      3, the authorization-code request for 4. */
  lemma RefreshTokensSends(st: ClientState, user: Login, server: TokenRequest -> Option<Reply>, now: nat)
    ensures var code := TokenData.TokensExpirationsStatus(st.data, now);
      var sent := RefreshTokens(st, user, server, now).sent;
      && (code == 0 ==> sent == [])
      && (code == 1 ==> sent == [NewTokenRequest(st.data, AccessToken)])
      && (code == 2 ==> sent == [NewTokenRequest(st.data, RefreshToken)])
      && (code == 3 ==>
            var (r1, err) := GetNewToken(st.data, RefreshToken, server, now);
            sent == [NewTokenRequest(st.data, RefreshToken)] + (if err.None? then [NewTokenRequest(r1, AccessToken)] else []))
      && (code == 4 ==> sent == [FirstTimeTokens(st.data, user, server, now).1])
  {
    var code := TokenData.TokensExpirationsStatus(st.data, now);
    var p := Plan(code);
    if code == 3 {
      var (r1, err) := GetNewToken(st.data, RefreshToken, server, now);
      assert p[1..] == [Renew(AccessToken)];
      if err.None? {
        RunOneRenew(r1, AccessToken, user, server, now);
      }
    }
  }

  /** Status 0 or 2 means the access token has more than 180 seconds left,
      and no exchange touches it, so the new interval is positive (the timer
      constructor rejects zero and negative intervals) and is at least 61. */
  lemma RefreshIntervalPositive(st: ClientState, user: Login, server: TokenRequest -> Option<Reply>, now: nat)
    ensures var r := RefreshTokens(st, user, server, now);
      r.error.None? ==> r.state.timer.value.intervalMs >= 61
  {
    var code := TokenData.TokensExpirationsStatus(st.data, now);
    var r := RefreshTokens(st, user, server, now);
    if code == 2 {
      GetNewRefreshTokenEffect(st.data, server, now);
      var (r1, err) := GetNewToken(st.data, RefreshToken, server, now);
      RunOneRenew(st.data, RefreshToken, user, server, now);
      if err.None? {
        assert Run(st.data, Plan(code), user, server, now).0 == r1;
        assert r1.accessTokenExpiration == st.data.accessTokenExpiration;
      }
    }
  }

  /** For a token written by `WriteTokenExpiration` at `now`, the interval
      is 1680: the timer fires after 1.68 seconds instead of 28 minutes. */
  lemma IntervalIsSecondsNotMilliseconds(rec: TokenData.TokenRecord, now: nat)
    requires rec.accessTokenExpiration == now + TokenData.AccessLifetime
    requires !TokenData.RefreshDueSoon(rec, now)
    ensures TokenData.TokensExpirationsStatus(rec, now) == 0
    ensures NextIntervalMs(rec, 0, now) == 1680
    ensures NextIntervalMs(rec, 0, now) * 1000 == TwentyEightMinutesMs
  {
  }

  /** The interval meant: the same lead time, in milliseconds. */
  function IntendedIntervalMs(rec: TokenData.TokenRecord, code: int, now: nat): (ms: int)
    ensures (code == 0 || code == 2) && !TokenData.AccessDue(rec, now) ==>
      && ms == NextIntervalMs(rec, code, now) * 1000
      && now * 1000 + ms + TimerLeadSeconds * 1000 == rec.accessTokenExpiration * 1000
      && ms > 60 * 1000
    ensures !(code == 0 || code == 2) ==> ms == TwentyEightMinutesMs
  {
    if code == 0 || code == 2 then
      (TokenData.SecondsUntilExpiration(rec, TokenData.AccessToken, now) - TimerLeadSeconds) * 1000
    else TwentyEightMinutesMs
  }

  /** `RefreshTokens` with the intended interval. */
  function RefreshTokensIntended(st: ClientState, user: Login, server: TokenRequest -> Option<Reply>, now: nat)
    : (r: Step)
    ensures var w := RefreshTokens(st, user, server, now);
      r.sent == w.sent && r.error == w.error && r.state.data == w.state.data
    ensures r.error.None? ==> r.state.timer.Some?
    ensures var code := TokenData.TokensExpirationsStatus(st.data, now);
      r.error.None? && (code == 0 || code == 2) ==>
        // the timer fires two minutes before the access token expires
        now * 1000 + r.state.timer.value.intervalMs + TimerLeadSeconds * 1000 ==
          r.state.data.accessTokenExpiration * 1000
  {
    var code := TokenData.TokensExpirationsStatus(st.data, now);
    var (rec, sent, err) := Run(st.data, Plan(code), user, server, now);
    GetNewRefreshTokenEffect(st.data, server, now);
    RunOneRenew(st.data, RefreshToken, user, server, now);
    if err.Some? then Step(st.(data := rec), sent, err)
    else Step(ClientState(rec, Some(Timer(IntendedIntervalMs(rec, code, now))), st.firstTimer), sent, None)
  }

  // ---------------------------------------------------------------- life cycle

  /** The four stored values without which the client cannot connect. */
  predicate MissingCredentials(rec: TokenData.TokenRecord) {
    rec.accessToken.None? || rec.clientId.None? || rec.redirectUri.None? || rec.refreshToken.None?
  }

  /** `Init`: load the record, then bootstrap with a 28-minute timer when a
      credential is missing, and run `RefreshTokens` otherwise. */
  function Init(st: ClientState, stored: Option<TokenData.TokenRecord>, user: Login,
                server: TokenRequest -> Option<Reply>, now: nat): (r: Step)
    ensures var rec := TokenData.Load(stored);
      MissingCredentials(rec) ==>
        && |r.sent| == 1 && r.sent[0].grantType == "authorization_code"
        && (r.error.None? ==> r.state.timer == Some(Timer(TwentyEightMinutesMs)))
    ensures var rec := TokenData.Load(stored);
      !MissingCredentials(rec) && TokenData.TokensExpirationsStatus(rec, now) != 4 ==>
        forall i :: 0 <= i < |r.sent| ==> r.sent[i].grantType == "refresh_token"
    ensures r.state.firstTimer == st.firstTimer
    // the loaded record is what the bootstrap or the refresh starts from
    ensures var rec := TokenData.Load(stored);
      MissingCredentials(rec) ==>
        var b := FirstTimeTokens(rec, user, server, now);
        && r.state.data == b.0 && r.sent == [b.1] && r.error == b.2
        && (r.error.Some? ==> r.state.timer == st.timer)
    ensures var rec := TokenData.Load(stored);
      !MissingCredentials(rec) ==> r == RefreshTokens(st.(data := rec), user, server, now)
  {
    var rec := TokenData.Load(stored);
    if MissingCredentials(rec) then
      var (r1, req, err) := FirstTimeTokens(rec, user, server, now);
      if err.Some? then Step(st.(data := r1), [req], err)
      else Step(st.(data := r1, timer := Some(Timer(TwentyEightMinutesMs))), [req], None)
    else
      var r := RefreshTokens(st.(data := rec), user, server, now);
      RefreshSendsRefreshGrants(st.(data := rec), user, server, now);
      r
  }

  /** Unless the status is 4, every request `RefreshTokens` sends is a
      refresh-token grant. */
  lemma RefreshSendsRefreshGrants(st: ClientState, user: Login, server: TokenRequest -> Option<Reply>, now: nat)
    ensures TokenData.TokensExpirationsStatus(st.data, now) != 4 ==>
      var r := RefreshTokens(st, user, server, now);
      forall i :: 0 <= i < |r.sent| ==> r.sent[i].grantType == "refresh_token"
  {
    var code := TokenData.TokensExpirationsStatus(st.data, now);
    if code != 4 {
      var p := Plan(code);
      assert code == 0 || code == 1 || code == 2 || code == 3;
      if code == 3 {
        var (r1, err) := GetNewToken(st.data, RefreshToken, server, now);
        var rest := Run(r1, p[1..], user, server, now);
        assert p[1..] == [Renew(AccessToken)];
      }
    }
  }

  /** The timer's `Elapsed` handler: always an access-token exchange; on the
      first run the interval becomes 28 minutes and the flag is cleared. The
      handler only runs on a live timer. */
  function TimerElapsed(st: ClientState, server: TokenRequest -> Option<Reply>, now: nat): (r: Step)
    requires st.timer.Some?
    ensures r.sent == [NewTokenRequest(st.data, AccessToken)]
    ensures r.error.None? && st.firstTimer ==>
      !r.state.firstTimer && r.state.timer == Some(Timer(TwentyEightMinutesMs))
    ensures r.error.Some? || !st.firstTimer ==> r.state.firstTimer == st.firstTimer && r.state.timer == st.timer
    // every tick renews the access token, whatever the flag
    ensures var (rec, err) := GetNewToken(st.data, AccessToken, server, now);
      r.state.data == rec && r.error == err
  {
    var (rec, err) := GetNewToken(st.data, AccessToken, server, now);
    if err.Some? then Step(st.(data := rec), [NewTokenRequest(st.data, AccessToken)], err)
    else if st.firstTimer then
      Step(ClientState(rec, Some(Timer(TwentyEightMinutesMs)), false), [NewTokenRequest(st.data, AccessToken)], None)
    else Step(st.(data := rec), [NewTokenRequest(st.data, AccessToken)], None)
  }

  /** From the second run on, the handler leaves the timer and flag alone. */
  lemma TimerSettlesAfterFirstRun(st: ClientState, server: TokenRequest -> Option<Reply>, now1: nat, now2: nat)
    requires st.timer.Some?
    requires TimerElapsed(st, server, now1).error.None?
    ensures var s1 := TimerElapsed(st, server, now1).state;
      && s1.timer.Some? && !s1.firstTimer
      && (TimerElapsed(s1, server, now2).state.timer == s1.timer)
      && (st.firstTimer ==> s1.timer == Some(Timer(TwentyEightMinutesMs)))
  {
  }
}

=== FILE: common.dfy ===
/** Failure-compatible wrappers shared by every module: `Option` stands for a
    C# nullable or a missing value, `Result` for an operation that either
    yields a value or throws, `Outcome` for a validator that either passes or
    throws. */
module Common {

  datatype Option<+T> = None | Some(value: T) {
    function GetOr(default: T): T {
      match this
      case Some(v) => v
      case None => default
    }
  }

  datatype Result<+T, +E> = Ok(value: T) | Err(error: E) {
    predicate IsFailure() {
      Err?
    }

    function PropagateFailure<U>(): Result<U, E>
      requires Err?
    {
      Err(error)
    }

    function Extract(): T
      requires Ok?
    {
      value
    }
  }

  datatype Outcome<+E> = Pass | Fail(error: E) {
    predicate IsFailure() {
      Fail?
    }

    function PropagateFailure<U>(): Result<U, E>
      requires Fail?
    {
      Err(error)
    }
  }

  /** A check that throws `error` when `condition` does not hold. */
  function Need<E>(condition: bool, error: E): (o: Outcome<E>)
    ensures o.Pass? <==> condition
    ensures o.Fail? ==> o.error == error
  {
    if condition then Pass else Fail(error)
  }
}

=== FILE: dict.dfy ===
/** A `Dictionary<string, string>` as the library uses it: entries are only
    ever added or overwritten, never removed, so enumeration follows
    insertion order and the dictionary is a sequence of key/value pairs with
    distinct keys. */
module Dict {
  import opened Common

  type Entry = (string, string)
  type Dict = seq<Entry>

  /** The keys of a sequence of pairs, in order. */
  function Keys<V>(d: seq<(string, V)>): (ks: seq<string>)
    ensures |ks| == |d|
    ensures forall i :: 0 <= i < |d| ==> ks[i] == d[i].0
  {
    seq(|d|, i requires 0 <= i < |d| => d[i].0)
  }

  predicate DistinctKeys<V>(d: seq<(string, V)>) {
    forall i, j :: 0 <= i < j < |d| ==> d[i].0 != d[j].0
  }

  predicate HasKey(d: Dict, k: string) {
    exists i :: 0 <= i < |d| && d[i].0 == k
  }

  /** The value stored under `k`, if any. */
  function Get(d: Dict, k: string): (r: Option<string>)
    ensures r.None? <==> !HasKey(d, k)
    ensures r.Some? ==> exists i :: 0 <= i < |d| && d[i] == (k, r.value)
  {
    if |d| == 0 then None
    else if d[0].0 == k then Some(d[0].1)
    else
      var r := Get(d[1..], k);
      assert HasKey(d[1..], k) ==> HasKey(d, k);
      assert HasKey(d, k) && d[0].0 != k ==> HasKey(d[1..], k) by {
        if HasKey(d, k) && d[0].0 != k {
          var i :| 0 <= i < |d| && d[i].0 == k;
          assert d[1..][i - 1].0 == k;
        }
      }
      r
  }

  /** With distinct keys, each entry is what its key looks up. */
  lemma {:induction false} GetAt(d: Dict, i: nat)
    requires DistinctKeys(d) && i < |d|
    ensures Get(d, d[i].0) == Some(d[i].1)
    decreases i
  {
    if i > 0 {
      assert d[1..][i - 1] == d[i];
      GetAt(d[1..], i - 1);
    }
  }

  /** A key is present exactly when it is among the keys. */
  lemma HasKeyIffInKeys(d: Dict, k: string)
    ensures HasKey(d, k) <==> k in Keys(d)
  {
    if k in Keys(d) {
      var i :| 0 <= i < |d| && Keys(d)[i] == k;
      assert d[i].0 == k;
    }
  }

  /** A parameter that is emitted only when it is set: its key and, if
      set, its text. */
  type Field = (string, Option<string>)

  /** A run of `if (field != null) result.Add(key, text)`: the set fields,
      in order. */
  function Collect(fs: seq<Field>): (d: Dict)
    ensures |d| <= |fs|
    ensures forall i :: 0 <= i < |d| ==> d[i].0 in Keys(fs)
  {
    if |fs| == 0 then []
    else
      var rest := Collect(fs[1..]);
      assert forall i :: 0 <= i < |rest| ==> rest[i].0 in Keys(fs) by {
        assert Keys(fs) == [fs[0].0] + Keys(fs[1..]);
      }
      match fs[0].1
      case None => rest
      case Some(v) => [(fs[0].0, v)] + rest
  }

  /** Looking up in front of a dictionary. */
  lemma GetCons(e: Entry, d: Dict, k: string)
    ensures Get([e] + d, k) == if e.0 == k then Some(e.1) else Get(d, k)
  {
  }

  /** With distinct keys, no `Add` throws, and a key is present exactly when
      its field is set, holding that field's text. */
  lemma {:induction false} CollectLookup(fs: seq<Field>)
    requires DistinctKeys(fs)
    ensures DistinctKeys(Collect(fs))
    ensures forall i :: 0 <= i < |fs| ==> Get(Collect(fs), fs[i].0) == fs[i].1
    ensures forall k :: k !in Keys(fs) ==> !HasKey(Collect(fs), k)
  {
    if |fs| > 0 {
      var head, tail := fs[0], fs[1..];
      var rest := Collect(tail);
      CollectLookup(tail);
      assert Keys(fs) == [head.0] + Keys(tail);
      assert head.0 !in Keys(tail);
      assert !HasKey(rest, head.0);
      forall i | 0 <= i < |fs|
        ensures Get(Collect(fs), fs[i].0) == fs[i].1
      {
        if head.1.Some? {
          GetCons((head.0, head.1.value), rest, fs[i].0);
        }
        if i > 0 {
          assert tail[i - 1] == fs[i];
        }
      }
    }
  }
}

=== FILE: instrument_writer.dfy ===
/** `Write` of `InstrumentConverter` (TDAmeritradeAPI/JsonSerializationHelpers.cs)
    and of `OrderInstrumentConverter`
    (TDAmeritradeAPI/Serializers/JsonSerializationHelpers.cs), whose bodies
    are the same: the tokens handed to the JSON writer, in order. Numbers are
    kept as values; their text form belongs to the JSON writer. */
module InstrumentWriter {
  import opened Common
  import opened Orders

  datatype Value = Str(text: string) | Num(number: real) | Int(integer: int)

  /** The property names the writer uses. */
  datatype Key =
    | AssetTypeKey | CusipKey | SymbolKey | DescriptionKey
    | MaturityDateKey | VariableRateKey | FactorKey
    | TypeKey | PutCallKey | UnderlyingSymbolKey | OptionMultiplierKey | OptionDeliverablesKey
    | DeliverableUnitsKey | CurrencyTypeKey

  /** A key's text in the JSON. */
  function KeyText(k: Key): string {
    match k
    case AssetTypeKey => "assetType" case CusipKey => "cusip" case SymbolKey => "symbol"
    case DescriptionKey => "description" case MaturityDateKey => "maturityDate"
    case VariableRateKey => "variableRate" case FactorKey => "factor" case TypeKey => "type"
    case PutCallKey => "putCall" case UnderlyingSymbolKey => "underlyingSymbol"
    case OptionMultiplierKey => "optionMultiplier" case OptionDeliverablesKey => "optionDeliverables"
    case DeliverableUnitsKey => "deliverableUnits" case CurrencyTypeKey => "currencyType"
  }

  /** A call on the JSON writer. */
  datatype Token =
    | StartObject
    | EndObject
    | StartArray(arrayName: Key)
    | EndArray
    | Property(name: Key, value: Value)

  function AssetTypeText(a: AssetType): string {
    match a
    case EQUITY => "EQUITY" case OPTION => "OPTION" case INDEX => "INDEX" case MUTUAL_FUND => "MUTUAL_FUND"
    case CASH_EQUIVALENT => "CASH_EQUIVALENT" case FIXED_INCOME => "FIXED_INCOME" case CURRENCY => "CURRENCY"
  }

  function MutualFundTypeText(t: MutualFundType): string {
    match t
    case NOT_APPLICABLE => "NOT_APPLICABLE" case OPEN_END_NON_TAXABLE => "OPEN_END_NON_TAXABLE"
    case OPEN_END_TAXABLE => "OPEN_END_TAXABLE" case NO_LOAD_NON_TAXABLE => "NO_LOAD_NON_TAXABLE"
    case NO_LOAD_TAXABLE => "NO_LOAD_TAXABLE"
  }

  function CashEquivalentTypeText(t: CashEquivalentType): string {
    match t
    case SAVINGS => "SAVINGS" case MONEY_MARKET_FUND => "MONEY_MARKET_FUND"
  }

  function OptionKindTypeText(t: OptionKindType): string {
    match t
    case VANILLA => "VANILLA" case BINARY => "BINARY" case BARRIER => "BARRIER"
  }

  function PutCallText(p: PutCall): string {
    match p
    case PUT => "PUT" case CALL => "CALL"
  }

  function CurrencyTypeText(c: CurrencyType): string {
    match c
    case USD => "USD" case CAD => "CAD" case EUR => "EUR" case JPY => "JPY"
  }

  /** One property, written only when the value is not null. */
  function Prop<T>(name: Key, v: Option<T>, toValue: T -> Value): (ts: seq<Token>)
    ensures v.None? ==> ts == []
    ensures v.Some? ==> ts == [Property(name, toValue(v.value))]
  {
    match v
    case None => []
    case Some(x) => [Property(name, toValue(x))]
  }

  /** The three properties every instrument may have; `cusip` is not among them. */
  function Head(i: Instrument): seq<Token> {
    Prop(AssetTypeKey, i.assetType, a => Str(AssetTypeText(a)))
    + Prop(SymbolKey, i.symbol, s => Str(s))
    + Prop(DescriptionKey, i.description, s => Str(s))
  }

  /** The properties of one option deliverable. */
  function DeliverableProps(d: OptionDeliverable): seq<Token> {
    Prop(SymbolKey, d.symbol, s => Str(s))
    + Prop(DeliverableUnitsKey, d.deliverableUnits, u => Num(u))
    + Prop(CurrencyTypeKey, d.currencyType, c => Str(CurrencyTypeText(c)))
    + Prop(AssetTypeKey, d.assetType, a => Str(AssetTypeText(a)))
  }

  /** The deliverables as the `foreach` writes them: their properties one
      after the other, with nothing around each deliverable. */
  function Deliverables(ds: seq<OptionDeliverable>): seq<Token> {
    if |ds| == 0 then [] else DeliverableProps(ds[0]) + Deliverables(ds[1..])
  }

  /** The `optionDeliverables` array, written only for a non-null, non-empty list. */
  function DeliverableArray(ds: Option<seq<OptionDeliverable>>, items: seq<OptionDeliverable> -> seq<Token>)
    : (ts: seq<Token>)
    ensures ds.None? || |ds.value| == 0 ==> ts == []
  {
    if ds.Some? && |ds.value| > 0 then [StartArray(OptionDeliverablesKey)] + items(ds.value) + [EndArray] else []
  }

  /** The properties an option adds, before its deliverables. */
  function OptionProps(k: InstrumentClass): seq<Token>
    requires k.OptionClass?
  {
    Prop(TypeKey, k.optionType, t => Str(OptionKindTypeText(t)))
    + Prop(PutCallKey, k.putCall, p => Str(PutCallText(p)))
    + Prop(UnderlyingSymbolKey, k.underlyingSymbol, s => Str(s))
    + Prop(OptionMultiplierKey, k.optionMultiplier, n => Int(n))
  }

  /** What the run-time class adds, given how the deliverables are written. */
  function ClassTokens(k: InstrumentClass, items: seq<OptionDeliverable> -> seq<Token>): seq<Token> {
    match k
    case BaseInstrument => []
    case EquityClass => []
    case FixedIncomeClass(maturityDate, variableRate, factor) =>
      Prop(MaturityDateKey, maturityDate, s => Str(s))
      + Prop(VariableRateKey, variableRate, r => Num(r))
      + Prop(FactorKey, factor, r => Num(r))
    case MutualFundClass(t) => Prop(TypeKey, t, t => Str(MutualFundTypeText(t)))
    case CashEquivalentClass(t) => Prop(TypeKey, t, t => Str(CashEquivalentTypeText(t)))
    case OptionClass(_, _, _, _, ds) => OptionProps(k) + DeliverableArray(ds, items)
  }

  /** The tokens of one object around `body`. */
  function Wrap(body: seq<Token>): seq<Token> {
    [StartObject] + body + [EndObject]
  }

  /** `Write` as written. */
  function Write(i: Instrument): (ts: seq<Token>)
    ensures |ts| >= 2 && ts[0] == StartObject && ts[|ts| - 1] == EndObject
  {
    Wrap(Head(i) + ClassTokens(i.kind, Deliverables))
  }

  // ---------------------------------------------------------------- emitted keys

  /** The names in a token stream, in order: property names and array names. */
  function Names(ts: seq<Token>): seq<Key> {
    if |ts| == 0 then []
    else (match ts[0] case Property(n, _) => [n] case StartArray(n) => [n] case _ => []) + Names(ts[1..])
  }

  /** The name of a single token. */
  lemma NamesOne(t: Token)
    ensures Names([t]) == (match t case Property(n, _) => [n] case StartArray(n) => [n] case _ => [])
  {
  }

  lemma {:induction false} NamesAppend(a: seq<Token>, b: seq<Token>)
    ensures Names(a + b) == Names(a) + Names(b)
    decreases |a|
  {
    if |a| > 0 {
      assert (a + b)[1..] == a[1..] + b;
      assert (a + b)[0] == a[0];
      NamesAppend(a[1..], b);
      assert Names(a + b) == Names([a[0]]) + Names(a[1..] + b);
      assert Names(a) == Names([a[0]]) + Names(a[1..]);
    } else {
      assert a + b == b;
    }
  }

  /** `[name]` when the property is present, nothing otherwise. */
  function Present<T>(name: Key, v: Option<T>): seq<Key> {
    if v.Some? then [name] else []
  }

  /** The keys a deliverable contributes, in the order the writer uses. */
  function DeliverableKeys(d: OptionDeliverable): seq<Key> {
    Present(SymbolKey, d.symbol) + Present(DeliverableUnitsKey, d.deliverableUnits)
    + Present(CurrencyTypeKey, d.currencyType) + Present(AssetTypeKey, d.assetType)
  }

  function AllDeliverableKeys(ds: seq<OptionDeliverable>): seq<Key> {
    if |ds| == 0 then [] else DeliverableKeys(ds[0]) + AllDeliverableKeys(ds[1..])
  }

  /** The keys every instrument may have, in order. */
  function HeadKeys(i: Instrument): seq<Key> {
    Present(AssetTypeKey, i.assetType) + Present(SymbolKey, i.symbol) + Present(DescriptionKey, i.description)
  }

  /** The keys a run-time class adds, in order. */
  function ClassKeys(k: InstrumentClass): seq<Key> {
    match k
    case BaseInstrument => []
    case EquityClass => []
    case FixedIncomeClass(m, v, f) => Present(MaturityDateKey, m) + Present(VariableRateKey, v) + Present(FactorKey, f)
    case MutualFundClass(t) => Present(TypeKey, t)
    case CashEquivalentClass(t) => Present(TypeKey, t)
    case OptionClass(t, p, u, m, ds) =>
      Present(TypeKey, t) + Present(PutCallKey, p) + Present(UnderlyingSymbolKey, u) + Present(OptionMultiplierKey, m)
      + (if ds.Some? && |ds.value| > 0 then [OptionDeliverablesKey] + AllDeliverableKeys(ds.value) else [])
  }

  /** The keys of an instrument, as the class hierarchy lays them out. */
  function ExpectedKeys(i: Instrument): seq<Key> {
    HeadKeys(i) + ClassKeys(i.kind)
  }

  lemma PropNames<T>(name: Key, v: Option<T>, toValue: T -> Value)
    ensures Names(Prop(name, v, toValue)) == Present(name, v)
  {
    if v.Some? {
      NamesOne(Property(name, toValue(v.value)));
    }
  }

  lemma DeliverablePropsNames(d: OptionDeliverable)
    ensures Names(DeliverableProps(d)) == DeliverableKeys(d)
  {
    var p1 := Prop(SymbolKey, d.symbol, s => Str(s));
    var p2 := Prop(DeliverableUnitsKey, d.deliverableUnits, u => Num(u));
    var p3 := Prop(CurrencyTypeKey, d.currencyType, c => Str(CurrencyTypeText(c)));
    var p4 := Prop(AssetTypeKey, d.assetType, a => Str(AssetTypeText(a)));
    PropNames(SymbolKey, d.symbol, s => Str(s));
    PropNames(DeliverableUnitsKey, d.deliverableUnits, u => Num(u));
    PropNames(CurrencyTypeKey, d.currencyType, c => Str(CurrencyTypeText(c)));
    PropNames(AssetTypeKey, d.assetType, a => Str(AssetTypeText(a)));
    NamesAppend(p1, p2);
    NamesAppend(p1 + p2, p3);
    NamesAppend(p1 + p2 + p3, p4);
  }

  lemma {:induction false} DeliverablesNames(ds: seq<OptionDeliverable>)
    ensures Names(Deliverables(ds)) == AllDeliverableKeys(ds)
    decreases |ds|
  {
    if |ds| > 0 {
      DeliverablesNames(ds[1..]);
      DeliverablePropsNames(ds[0]);
      NamesAppend(DeliverableProps(ds[0]), Deliverables(ds[1..]));
    }
  }

  lemma HeadNames(i: Instrument)
    ensures Names(Head(i)) == Present(AssetTypeKey, i.assetType) + Present(SymbolKey, i.symbol) + Present(DescriptionKey, i.description)
  {
    var p1 := Prop(AssetTypeKey, i.assetType, a => Str(AssetTypeText(a)));
    var p2 := Prop(SymbolKey, i.symbol, s => Str(s));
    var p3 := Prop(DescriptionKey, i.description, s => Str(s));
    PropNames(AssetTypeKey, i.assetType, a => Str(AssetTypeText(a)));
    PropNames(SymbolKey, i.symbol, s => Str(s));
    PropNames(DescriptionKey, i.description, s => Str(s));
    NamesAppend(p1, p2);
    NamesAppend(p1 + p2, p3);
  }

  lemma OptionPropsNames(k: InstrumentClass)
    requires k.OptionClass?
    ensures Names(OptionProps(k)) ==
      Present(TypeKey, k.optionType) + Present(PutCallKey, k.putCall)
      + Present(UnderlyingSymbolKey, k.underlyingSymbol) + Present(OptionMultiplierKey, k.optionMultiplier)
  {
    var p1 := Prop(TypeKey, k.optionType, t => Str(OptionKindTypeText(t)));
    var p2 := Prop(PutCallKey, k.putCall, p => Str(PutCallText(p)));
    var p3 := Prop(UnderlyingSymbolKey, k.underlyingSymbol, s => Str(s));
    var p4 := Prop(OptionMultiplierKey, k.optionMultiplier, n => Int(n));
    PropNames(TypeKey, k.optionType, t => Str(OptionKindTypeText(t)));
    PropNames(PutCallKey, k.putCall, p => Str(PutCallText(p)));
    PropNames(UnderlyingSymbolKey, k.underlyingSymbol, s => Str(s));
    PropNames(OptionMultiplierKey, k.optionMultiplier, n => Int(n));
    NamesAppend(p1, p2);
    NamesAppend(p1 + p2, p3);
    NamesAppend(p1 + p2 + p3, p4);
  }

  /** The names of the array: its own, then those of its items. */
  lemma ArrayNames(ds: Option<seq<OptionDeliverable>>, items: seq<OptionDeliverable> -> seq<Token>)
    requires ds.Some? && |ds.value| > 0
    ensures Names(DeliverableArray(ds, items)) == [OptionDeliverablesKey] + Names(items(ds.value))
  {
    var open, body := [StartArray(OptionDeliverablesKey)], items(ds.value);
    NamesAppend(open, body);
    NamesAppend(open + body, [EndArray]);
    NamesOne(EndArray);
    NamesOne(StartArray(OptionDeliverablesKey));
  }

  /** The keys of the class-specific part, for items written without brackets. */
  lemma ClassNames(i: Instrument, items: seq<OptionDeliverable> -> seq<Token>)
    requires i.kind.OptionClass? && i.kind.optionDeliverables.Some? ==>
      Names(items(i.kind.optionDeliverables.value)) == AllDeliverableKeys(i.kind.optionDeliverables.value)
    ensures Names(Head(i) + ClassTokens(i.kind, items)) == ExpectedKeys(i)
  {
    HeadNames(i);
    NamesAppend(Head(i), ClassTokens(i.kind, items));
    match i.kind {
      case BaseInstrument =>
      case EquityClass =>
      case FixedIncomeClass(m, v, f) =>
        var p1 := Prop(MaturityDateKey, m, s => Str(s));
        var p2 := Prop(VariableRateKey, v, r => Num(r));
        var p3 := Prop(FactorKey, f, r => Num(r));
        PropNames(MaturityDateKey, m, s => Str(s));
        PropNames(VariableRateKey, v, r => Num(r));
        PropNames(FactorKey, f, r => Num(r));
        NamesAppend(p1, p2);
        NamesAppend(p1 + p2, p3);
      case MutualFundClass(t) =>
        PropNames(TypeKey, t, t => Str(MutualFundTypeText(t)));
      case CashEquivalentClass(t) =>
        PropNames(TypeKey, t, t => Str(CashEquivalentTypeText(t)));
      case OptionClass(_, _, _, _, ds) =>
        OptionPropsNames(i.kind);
        NamesAppend(OptionProps(i.kind), DeliverableArray(ds, items));
        if ds.Some? && |ds.value| > 0 {
          ArrayNames(ds, items);
        }
    }
  }

  /** The names `Write` emits are the expected keys in order: `assetType`,
      `symbol`, `description` when set, then the fields of the run-time
      class when set, deliverables only for a non-empty list. */
  lemma WriteKeys(i: Instrument)
    ensures Names(Write(i)) == ExpectedKeys(i)
  {
    if i.kind.OptionClass? && i.kind.optionDeliverables.Some? {
      DeliverablesNames(i.kind.optionDeliverables.value);
    }
    ClassNames(i, Deliverables);
    var body := Head(i) + ClassTokens(i.kind, Deliverables);
    assert Write(i) == [StartObject] + body + [EndObject];
    BracketNames(body);
  }

  /** The brackets of an object carry no name. */
  lemma BracketNames(body: seq<Token>)
    ensures Names([StartObject] + body + [EndObject]) == Names(body)
  {
    NamesAppend([StartObject], body);
    NamesAppend([StartObject] + body, [EndObject]);
    NamesOne(StartObject);
    NamesOne(EndObject);
  }

  /** Consequences of the key layout: `cusip` is never written; the
      class-specific keys appear only for the matching class; the array
      appears exactly for a non-empty deliverable list. */
  lemma WriteKeysByClass(i: Instrument)
    ensures CusipKey !in Names(Write(i))
    ensures i.kind.BaseInstrument? || i.kind.EquityClass? ==> Names(Write(i)) == HeadKeys(i)
    ensures MaturityDateKey in Names(Write(i)) ==> i.kind.FixedIncomeClass?
    ensures PutCallKey in Names(Write(i)) ==> i.kind.OptionClass?
    ensures TypeKey in Names(Write(i)) ==> i.kind.MutualFundClass? || i.kind.CashEquivalentClass? || i.kind.OptionClass?
    ensures OptionDeliverablesKey in Names(Write(i)) <==>
      i.kind.OptionClass? && i.kind.optionDeliverables.Some? && |i.kind.optionDeliverables.value| > 0
  {
    WriteKeys(i);
    var head := HeadKeys(i);
    assert forall k :: k in head ==> k in [AssetTypeKey, SymbolKey, DescriptionKey];
    ClassKeysAmong(i.kind);
  }

  /** Which keys each class can contribute. */
  lemma ClassKeysAmong(k: InstrumentClass)
    ensures CusipKey !in ClassKeys(k)
    ensures forall n :: n in ClassKeys(k) && k.FixedIncomeClass? ==> n in [MaturityDateKey, VariableRateKey, FactorKey]
    ensures forall n :: n in ClassKeys(k) && (k.MutualFundClass? || k.CashEquivalentClass?) ==> n == TypeKey
    ensures k.BaseInstrument? || k.EquityClass? ==> ClassKeys(k) == []
    ensures k.OptionClass? ==>
      (OptionDeliverablesKey in ClassKeys(k) <==> k.optionDeliverables.Some? && |k.optionDeliverables.value| > 0)
    ensures k.OptionClass? ==> MaturityDateKey !in ClassKeys(k)
  {
    match k {
      case BaseInstrument =>
      case EquityClass =>
      case FixedIncomeClass(_, _, _) =>
      case MutualFundClass(_) =>
      case CashEquivalentClass(_) =>
      case OptionClass(_, _, _, _, _) =>
        OptionKeysAmong(k);
    }
  }

  /** The keys an option writes: its own four, then the deliverable array
      exactly when there are deliverables. */
  lemma OptionKeysAmong(k: InstrumentClass)
    requires k.OptionClass?
    ensures CusipKey !in ClassKeys(k) && MaturityDateKey !in ClassKeys(k)
    ensures OptionDeliverablesKey in ClassKeys(k) <==> k.optionDeliverables.Some? && |k.optionDeliverables.value| > 0
  {
    var ds := k.optionDeliverables;
    var pre := Present(TypeKey, k.optionType) + Present(PutCallKey, k.putCall)
      + Present(UnderlyingSymbolKey, k.underlyingSymbol) + Present(OptionMultiplierKey, k.optionMultiplier);
    assert forall n :: n in pre ==> n in [TypeKey, PutCallKey, UnderlyingSymbolKey, OptionMultiplierKey];
    if ds.Some? && |ds.value| > 0 {
      DeliverableKeysAmong(ds.value);
      assert ClassKeys(k) == pre + ([OptionDeliverablesKey] + AllDeliverableKeys(ds.value));
    } else {
      assert ClassKeys(k) == pre;
    }
  }

  /** A deliverable contributes only its four keys. */
  lemma {:induction false} DeliverableKeysAmong(ds: seq<OptionDeliverable>)
    ensures forall k :: k in AllDeliverableKeys(ds) ==> k in [SymbolKey, DeliverableUnitsKey, CurrencyTypeKey, AssetTypeKey]
    decreases |ds|
  {
    if |ds| > 0 {
      DeliverableKeysAmong(ds[1..]);
    }
  }

  // ---------------------------------------------------------------- writer state

  /** What the JSON writer checks before each call: the stack of open
      containers (`true` for an object, `false` for an array); a property or
      a named array only inside an object, an unnamed object only at the top
      or inside an array, and each container closed by its own end. */
  function Step(t: Token, s: seq<bool>): Option<seq<bool>> {
    var inObject := |s| > 0 && s[|s| - 1];
    var inArray := |s| > 0 && !s[|s| - 1];
    match t
    case StartObject => if |s| == 0 || inArray then Some(s + [true]) else None
    case EndObject => if inObject then Some(s[..|s| - 1]) else None
    case StartArray(_) => if inObject then Some(s + [false]) else None
    case EndArray => if inArray then Some(s[..|s| - 1]) else None
    case Property(_, _) => if inObject then Some(s) else None
  }

  /** The stack after the tokens, or `None` where the writer would throw. */
  function Run(ts: seq<Token>, s: seq<bool>): Option<seq<bool>> {
    if |ts| == 0 then Some(s)
    else match Step(ts[0], s)
      case None => None
      case Some(s') => Run(ts[1..], s')
  }

  /** An array opened inside an object and closed again. */
  lemma ArrayBrackets(n: Key, s: seq<bool>)
    requires |s| > 0 && s[|s| - 1]
    ensures Run([StartArray(n)], s) == Some(s + [false])
    ensures Run([EndArray], s + [false]) == Some(s)
  {
  }

  /** An object opened at the top or inside an array and closed again. */
  lemma ObjectBrackets(s: seq<bool>)
    requires |s| == 0 || !s[|s| - 1]
    ensures Run([StartObject], s) == Some(s + [true])
    ensures Run([EndObject], s + [true]) == Some(s)
  {
  }

  /** A stream the writer accepts and that closes everything it opens. */
  predicate WellFormed(ts: seq<Token>) {
    Run(ts, []) == Some([])
  }

  lemma {:induction false} RunAppend(a: seq<Token>, b: seq<Token>, s: seq<bool>)
    ensures Run(a + b, s) == (match Run(a, s) case None => None case Some(s') => Run(b, s'))
    decreases |a|
  {
    if |a| > 0 {
      assert (a + b)[1..] == a[1..] + b;
      assert (a + b)[0] == a[0];
      match Step(a[0], s) {
        case None =>
        case Some(s') => RunAppend(a[1..], b, s');
      }
    } else {
      assert a + b == b;
    }
  }

  predicate AllProperties(ts: seq<Token>) {
    forall k :: 0 <= k < |ts| ==> ts[k].Property?
  }

  /** Properties keep the stack inside an object and fail anywhere else. */
  lemma {:induction false} RunProperties(ts: seq<Token>, s: seq<bool>)
    requires AllProperties(ts)
    ensures |s| > 0 && s[|s| - 1] ==> Run(ts, s) == Some(s)
    ensures |ts| > 0 && !(|s| > 0 && s[|s| - 1]) ==> Run(ts, s) == None
    decreases |ts|
  {
    if |ts| > 0 {
      assert AllProperties(ts[1..]) by {
        assert forall k :: 0 <= k < |ts| - 1 ==> ts[1..][k] == ts[k + 1];
      }
      RunProperties(ts[1..], s);
    }
  }

  lemma AppendProperties(a: seq<Token>, b: seq<Token>)
    requires AllProperties(a) && AllProperties(b)
    ensures AllProperties(a + b)
  {
    assert forall k :: 0 <= k < |a + b| ==> (a + b)[k] == (if k < |a| then a[k] else b[k - |a|]);
  }

  /** A deliverable writes at least one token exactly when one of its fields is set. */
  lemma DeliverablePropsShape(d: OptionDeliverable)
    ensures AllProperties(DeliverableProps(d))
    ensures DeliverableProps(d) == [] <==> d == OptionDeliverable(None, None, None, None)
  {
    var p1 := Prop(SymbolKey, d.symbol, s => Str(s));
    var p2 := Prop(DeliverableUnitsKey, d.deliverableUnits, u => Num(u));
    var p3 := Prop(CurrencyTypeKey, d.currencyType, c => Str(CurrencyTypeText(c)));
    var p4 := Prop(AssetTypeKey, d.assetType, a => Str(AssetTypeText(a)));
    AppendProperties(p1, p2);
    AppendProperties(p1 + p2, p3);
    AppendProperties(p1 + p2 + p3, p4);
  }

  /** Some deliverable has a field set. */
  predicate SomeFieldSet(ds: seq<OptionDeliverable>) {
    exists k :: 0 <= k < |ds| && ds[k] != OptionDeliverable(None, None, None, None)
  }

  lemma {:induction false} DeliverablesShape(ds: seq<OptionDeliverable>)
    ensures AllProperties(Deliverables(ds))
    ensures Deliverables(ds) == [] <==> !SomeFieldSet(ds)
    decreases |ds|
  {
    if |ds| > 0 {
      DeliverablesShape(ds[1..]);
      DeliverablePropsShape(ds[0]);
      AppendProperties(DeliverableProps(ds[0]), Deliverables(ds[1..]));
      if SomeFieldSet(ds[1..]) {
        var k :| 0 <= k < |ds[1..]| && ds[1..][k] != OptionDeliverable(None, None, None, None);
        assert ds[k + 1] == ds[1..][k];
      }
      if SomeFieldSet(ds) && ds[0] == OptionDeliverable(None, None, None, None) {
        var k :| 0 <= k < |ds| && ds[k] != OptionDeliverable(None, None, None, None);
        assert ds[1..][k - 1] == ds[k];
      }
    }
  }

  /** The instrument whose stream carries a property inside the deliverable array. */
  predicate BareDeliverable(i: Instrument) {
    && i.kind.OptionClass? && i.kind.optionDeliverables.Some?
    && SomeFieldSet(i.kind.optionDeliverables.value)
  }

  /** The part of a stream that sits inside the instrument's object. */
  lemma {:induction false} ClassRun(i: Instrument, items: seq<OptionDeliverable> -> seq<Token>, s: seq<bool>)
    requires |s| > 0 && s[|s| - 1]
    requires i.kind.OptionClass? && i.kind.optionDeliverables.Some? ==>
      var ds := i.kind.optionDeliverables.value;
      Run(items(ds), s + [false]) == Some(s + [false]) || Run(items(ds), s + [false]) == None
    ensures Run(Head(i) + ClassTokens(i.kind, items), s) == Some(s) <==>
      !(i.kind.OptionClass? && i.kind.optionDeliverables.Some? && |i.kind.optionDeliverables.value| > 0
        && Run(items(i.kind.optionDeliverables.value), s + [false]) == None)
    ensures Run(Head(i) + ClassTokens(i.kind, items), s) == Some(s) ||
      Run(Head(i) + ClassTokens(i.kind, items), s) == None
  {
    var p1 := Prop(AssetTypeKey, i.assetType, a => Str(AssetTypeText(a)));
    var p2 := Prop(SymbolKey, i.symbol, s => Str(s));
    var p3 := Prop(DescriptionKey, i.description, s => Str(s));
    AppendProperties(p1, p2);
    AppendProperties(p1 + p2, p3);
    RunProperties(Head(i), s);
    RunAppend(Head(i), ClassTokens(i.kind, items), s);
    match i.kind {
      case BaseInstrument =>
      case EquityClass =>
      case FixedIncomeClass(m, v, f) =>
        var q1 := Prop(MaturityDateKey, m, s => Str(s));
        var q2 := Prop(VariableRateKey, v, r => Num(r));
        var q3 := Prop(FactorKey, f, r => Num(r));
        AppendProperties(q1, q2);
        AppendProperties(q1 + q2, q3);
        RunProperties(ClassTokens(i.kind, items), s);
      case MutualFundClass(t) =>
        RunProperties(ClassTokens(i.kind, items), s);
      case CashEquivalentClass(t) =>
        RunProperties(ClassTokens(i.kind, items), s);
      case OptionClass(_, _, _, _, ds) =>
        OptionClassRun(i.kind, items, s);
    }
  }

  /** An option's own part is properties only. */
  lemma OptionPropsShape(k: InstrumentClass)
    requires k.OptionClass?
    ensures AllProperties(OptionProps(k))
  {
    var q1 := Prop(TypeKey, k.optionType, t => Str(OptionKindTypeText(t)));
    var q2 := Prop(PutCallKey, k.putCall, p => Str(PutCallText(p)));
    var q3 := Prop(UnderlyingSymbolKey, k.underlyingSymbol, u => Str(u));
    var q4 := Prop(OptionMultiplierKey, k.optionMultiplier, n => Int(n));
    AppendProperties(q1, q2);
    AppendProperties(q1 + q2, q3);
    AppendProperties(q1 + q2 + q3, q4);
  }

  /** The part an option adds: its properties, then the deliverable array. */
  lemma OptionClassRun(k: InstrumentClass, items: seq<OptionDeliverable> -> seq<Token>, s: seq<bool>)
    requires k.OptionClass?
    requires |s| > 0 && s[|s| - 1]
    requires k.optionDeliverables.Some? ==>
      Run(items(k.optionDeliverables.value), s + [false]) == Some(s + [false]) ||
      Run(items(k.optionDeliverables.value), s + [false]) == None
    ensures Run(ClassTokens(k, items), s) == Some(s) <==>
      !(k.optionDeliverables.Some? && |k.optionDeliverables.value| > 0
        && Run(items(k.optionDeliverables.value), s + [false]) == None)
    ensures Run(ClassTokens(k, items), s) == Some(s) || Run(ClassTokens(k, items), s) == None
  {
    var ds := k.optionDeliverables;
    OptionPropsShape(k);
    RunProperties(OptionProps(k), s);
    RunAppend(OptionProps(k), DeliverableArray(ds, items), s);
    if ds.Some? && |ds.value| > 0 {
      var open, body := [StartArray(OptionDeliverablesKey)], items(ds.value);
      RunAppend(open, body, s);
      RunAppend(open + body, [EndArray], s);
      ArrayBrackets(OptionDeliverablesKey, s);
    }
  }

  /** Wrapping a body that keeps the stack in one object. */
  lemma WrapRun(body: seq<Token>, s: seq<bool>)
    requires |s| == 0 || !s[|s| - 1]
    requires Run(body, s + [true]) == Some(s + [true]) || Run(body, s + [true]) == None
    ensures Run([StartObject] + body + [EndObject], s) == Some(s) <==> Run(body, s + [true]) == Some(s + [true])
    ensures Run([StartObject] + body + [EndObject], s) == Some(s) || Run([StartObject] + body + [EndObject], s) == None
  {
    RunAppend([StartObject], body, s);
    RunAppend([StartObject] + body, [EndObject], s);
    ObjectBrackets(s);
  }

  /** The deliverable array is refused exactly for a bare deliverable, and
      otherwise leaves the writer inside the array. */
  lemma ArrayRefusedIffBare(i: Instrument)
    requires i.kind.OptionClass? && i.kind.optionDeliverables.Some?
    ensures var ds := i.kind.optionDeliverables.value;
      && (Run(Deliverables(ds), [true, false]) == Some([true, false]) || Run(Deliverables(ds), [true, false]) == None)
      && (|ds| > 0 && Run(Deliverables(ds), [true, false]) == None <==> BareDeliverable(i))
  {
    var ds := i.kind.optionDeliverables.value;
    DeliverablesShape(ds);
    RunProperties(Deliverables(ds), [true, false]);
    if SomeFieldSet(ds) {
      assert |ds| > 0;
    }
  }

  /** The writer accepts what `Write` emits exactly when no deliverable has
      a field set: a deliverable's properties land directly in the array,
      where the JSON writer refuses a property. */
  lemma WriteWellFormedIff(i: Instrument)
    ensures WellFormed(Write(i)) <==> !BareDeliverable(i)
  {
    if i.kind.OptionClass? && i.kind.optionDeliverables.Some? {
      ArrayRefusedIffBare(i);
    }
    WrappedClassRun(i, Deliverables);
  }

  /** An option with one deliverable that names its symbol. */
  lemma OneDeliverableRejected()
    ensures !WellFormed(Write(Instrument(Some(OPTION), None, Some("AAPL_052821C126"), None,
      OptionClass(None, None, None, None, Some([OptionDeliverable(Some("AAPL"), None, None, None)])))))
  {
    var i := Instrument(Some(OPTION), None, Some("AAPL_052821C126"), None,
      OptionClass(None, None, None, None, Some([OptionDeliverable(Some("AAPL"), None, None, None)])));
    assert SomeFieldSet(i.kind.optionDeliverables.value) by {
      assert i.kind.optionDeliverables.value[0] != OptionDeliverable(None, None, None, None);
    }
    WriteWellFormedIff(i);
  }

  // ---------------------------------------------------------------- intended writer

  /** Each deliverable as an object of its own inside the array. */
  function DeliverableObjects(ds: seq<OptionDeliverable>): seq<Token> {
    if |ds| == 0 then [] else [StartObject] + DeliverableProps(ds[0]) + [EndObject] + DeliverableObjects(ds[1..])
  }

  /** `Write` with every deliverable wrapped in an object. */
  function WriteIntended(i: Instrument): (ts: seq<Token>)
    ensures |ts| >= 2 && ts[0] == StartObject && ts[|ts| - 1] == EndObject
  {
    Wrap(Head(i) + ClassTokens(i.kind, DeliverableObjects))
  }

  lemma {:induction false} DeliverableObjectsNames(ds: seq<OptionDeliverable>)
    ensures Names(DeliverableObjects(ds)) == AllDeliverableKeys(ds)
    decreases |ds|
  {
    if |ds| > 0 {
      var item := [StartObject] + DeliverableProps(ds[0]) + [EndObject];
      DeliverableObjectsNames(ds[1..]);
      DeliverablePropsNames(ds[0]);
      BracketNames(DeliverableProps(ds[0]));
      NamesAppend(item, DeliverableObjects(ds[1..]));
    }
  }

  lemma {:induction false} DeliverableObjectsRun(ds: seq<OptionDeliverable>, s: seq<bool>)
    requires |s| > 0 && !s[|s| - 1]
    ensures Run(DeliverableObjects(ds), s) == Some(s)
    decreases |ds|
  {
    if |ds| > 0 {
      var props := DeliverableProps(ds[0]);
      DeliverablePropsShape(ds[0]);
      RunProperties(props, s + [true]);
      WrapRun(props, s);
      RunAppend([StartObject] + props + [EndObject], DeliverableObjects(ds[1..]), s);
      DeliverableObjectsRun(ds[1..], s);
    }
  }

  /** An instrument's object is accepted unless its deliverable array,
      written as `items` says, is refused. */
  lemma WrappedClassRun(i: Instrument, items: seq<OptionDeliverable> -> seq<Token>)
    requires i.kind.OptionClass? && i.kind.optionDeliverables.Some? ==>
      var ds := i.kind.optionDeliverables.value;
      Run(items(ds), [true, false]) == Some([true, false]) || Run(items(ds), [true, false]) == None
    ensures WellFormed(Wrap(Head(i) + ClassTokens(i.kind, items))) <==>
      !(i.kind.OptionClass? && i.kind.optionDeliverables.Some? && |i.kind.optionDeliverables.value| > 0
        && Run(items(i.kind.optionDeliverables.value), [true, false]) == None)
  {
    assert [] + [true] == [true] && [true] + [false] == [true, false];
    ClassRun(i, items, [true]);
    WrapRun(Head(i) + ClassTokens(i.kind, items), []);
  }

  /** The intended writer is accepted for every instrument. */
  lemma WriteIntendedWellFormed(i: Instrument)
    ensures WellFormed(WriteIntended(i))
  {
    if i.kind.OptionClass? && i.kind.optionDeliverables.Some? {
      DeliverableObjectsRun(i.kind.optionDeliverables.value, [true, false]);
    }
    WrappedClassRun(i, DeliverableObjects);
  }

  /** The intended writer emits the same keys in the same order as `Write`. */
  lemma WriteIntendedKeys(i: Instrument)
    ensures Names(WriteIntended(i)) == Names(Write(i)) == ExpectedKeys(i)
  {
    if i.kind.OptionClass? && i.kind.optionDeliverables.Some? {
      DeliverableObjectsNames(i.kind.optionDeliverables.value);
    }
    ClassNames(i, DeliverableObjects);
    var body := Head(i) + ClassTokens(i.kind, DeliverableObjects);
    assert WriteIntended(i) == [StartObject] + body + [EndObject];
    BracketNames(body);
    WriteKeys(i);
  }
}

=== FILE: naming.dfy ===
/** The two JSON naming policies: `SnakeCaseNamingPolicy` of
    TDAmeritradeAPI/JsonSerializationHelpers.cs and `LowerCaseNamingPolicy`
    of TDAmeritradeAPI/Serializers/JsonSerializationHelpers.cs. Upper and
    lower case are the ASCII ones of `Text`. */
module Naming {
  import opened Text

  /** How many upper-case letters `s` holds. */
  function CountUpper(s: string): nat {
    if |s| == 0 then 0 else CountUpper(s[..|s| - 1]) + (if IsUpper(s[|s| - 1]) then 1 else 0)
  }

  /** What the snake-case policy emits for `name[i]`, `1 <= i`: the
      character, preceded by `_` when the character before it is upper case. */
  function Piece(name: string, i: nat): string
    requires 1 <= i < |name|
  {
    (if IsUpper(name[i - 1]) then "_" else "") + [name[i]]
  }

  /** The snake-case name as the pieces of `name[1]`, ..., `name[|name| - 1]`
      in order; names shorter than two characters give the empty name. */
  function SnakeCase(name: string): string
    decreases |name|
  {
    if |name| <= 1 then "" else SnakeCase(name[..|name| - 1]) + Piece(name, |name| - 1)
  }

  /** Where `name[i]` lands in the snake-case name: after the `i - 1`
      characters before it (the first is dropped) and after one `_` for every
      upper-case letter in `name[..i]`. */
  function Position(name: string, i: nat): int
    requires 1 <= i <= |name|
  {
    i - 1 + CountUpper(name[..i])
  }

  /** One more character counts one more upper-case letter when it is one. */
  lemma CountUpperSnoc(name: string, i: nat)
    requires 1 <= i <= |name|
    ensures CountUpper(name[..i]) == CountUpper(name[..i - 1]) + (if IsUpper(name[i - 1]) then 1 else 0)
  {
    assert name[..i][..i - 1] == name[..i - 1];
  }

  /** The snake-case name is one character shorter than the name plus one
      `_` for every upper-case letter before the last character. */
  lemma {:induction false} SnakeCaseLength(name: string)
    requires |name| >= 1
    ensures |SnakeCase(name)| == |name| - 1 + CountUpper(name[..|name| - 1])
    ensures |name| >= 2 ==> |SnakeCase(name)| == Position(name, |name| - 1) + 1
    decreases |name|
  {
    var n := |name|;
    if n >= 2 {
      var init := name[..n - 1];
      SnakeCaseLength(init);
      assert init[..n - 2] == name[..n - 2];
      CountUpperSnoc(name, n - 1);
    }
  }

  /** `name[i]` sits at `Position(name, i)`, right behind its `_` when the
      character before it is upper case. */
  lemma {:induction false} SnakeCaseAt(name: string, i: nat)
    requires 1 <= i < |name|
    ensures 0 <= Position(name, i) < |SnakeCase(name)|
    ensures SnakeCase(name)[Position(name, i)] == name[i]
    ensures IsUpper(name[i - 1]) ==> 1 <= Position(name, i) && SnakeCase(name)[Position(name, i) - 1] == '_'
    decreases |name|
  {
    var n := |name|;
    var init := name[..n - 1];
    SnakeCaseLength(name);
    CountUpperSnoc(name, i);
    if i < n - 1 {
      SnakeCaseAt(init, i);
      assert init[..i] == name[..i];
      assert init[i - 1] == name[i - 1];
    }
  }

  /** The snake-case name, character by character: it drops `name[0]`,
      keeps every other character unchanged and in order, and inserts one
      `_` exactly before the characters that follow an upper-case letter. */
  lemma SnakeCaseLayout(name: string)
    ensures |name| <= 1 ==> SnakeCase(name) == ""
    ensures |name| >= 1 ==> |SnakeCase(name)| == |name| - 1 + CountUpper(name[..|name| - 1])
    ensures forall i :: 1 <= i < |name| ==>
      && 0 <= Position(name, i) < |SnakeCase(name)|
      && SnakeCase(name)[Position(name, i)] == name[i]
      && (IsUpper(name[i - 1]) ==> 1 <= Position(name, i) && SnakeCase(name)[Position(name, i) - 1] == '_')
    ensures forall i :: 2 <= i < |name| ==>
      (Position(name, i) == Position(name, i - 1) + 1 <==> !IsUpper(name[i - 1]))
  {
    if |name| >= 1 {
      SnakeCaseLength(name);
    }
    forall i | 1 <= i < |name|
      ensures 0 <= Position(name, i) < |SnakeCase(name)|
      ensures SnakeCase(name)[Position(name, i)] == name[i]
      ensures IsUpper(name[i - 1]) ==> 1 <= Position(name, i) && SnakeCase(name)[Position(name, i) - 1] == '_'
    {
      SnakeCaseAt(name, i);
    }
    forall i | 2 <= i < |name|
      ensures Position(name, i) == Position(name, i - 1) + 1 <==> !IsUpper(name[i - 1])
    {
      CountUpperSnoc(name, i);
    }
  }

  /** `SnakeCaseNamingPolicy.ConvertName`, with the source's loop. */
  method SnakeCaseConvertName(name: string) returns (newName: string)
    ensures newName == SnakeCase(name)
    ensures |name| <= 1 ==> newName == ""
    ensures |name| >= 1 ==> |newName| == |name| - 1 + CountUpper(name[..|name| - 1])
    ensures forall i :: 1 <= i < |name| ==>
      && 0 <= Position(name, i) < |newName|
      && newName[Position(name, i)] == name[i]
      && (IsUpper(name[i - 1]) ==> 1 <= Position(name, i) && newName[Position(name, i) - 1] == '_')
  {
    newName := "";
    var i := 1;
    while i < |name|
      invariant 1 <= i
      invariant i <= |name| ==> newName == SnakeCase(name[..i])
      invariant i > |name| ==> newName == "" && |name| == 0
    {
      assert name[..i + 1][..i] == name[..i];
      if IsUpper(name[i - 1]) {
        newName := newName + "_";
      }
      newName := newName + [name[i]];
      i := i + 1;
    }
    if i <= |name| {
      assert name[..i] == name;
    }
    SnakeCaseLayout(name);
  }

  /** A name without upper-case letters only loses its first character. */
  lemma {:induction false} SnakeCaseOfLowerName(name: string)
    requires forall k :: 0 <= k < |name| ==> !IsUpper(name[k])
    ensures |name| >= 1 ==> SnakeCase(name) == name[1..]
    decreases |name|
  {
    if |name| >= 2 {
      var init := name[..|name| - 1];
      SnakeCaseOfLowerName(init);
      assert init[1..] + [name[|name| - 1]] == name[1..];
    }
  }

  /** `LowerCaseNamingPolicy.ConvertName`: `name.ToLower()`. */
  function LowerCaseConvertName(name: string): (r: string)
    ensures |r| == |name|
    ensures forall i :: 0 <= i < |r| ==> !IsUpper(r[i])
    ensures forall i :: 0 <= i < |r| ==> !IsUpper(name[i]) ==> r[i] == name[i]
  {
    ToLower(name)
  }

  /** Lower-casing twice is lower-casing once, and it only changes case:
      the result names the same letters, ignoring case. */
  lemma LowerCaseIdempotent(name: string)
    ensures LowerCaseConvertName(LowerCaseConvertName(name)) == LowerCaseConvertName(name)
    ensures ToUpper(LowerCaseConvertName(name)) == ToUpper(name)
  {
    var r := LowerCaseConvertName(name);
    assert forall i :: 0 <= i < |name| ==> UpperChar(r[i]) == UpperChar(name[i]);
  }
}

=== FILE: option_chain.dfy ===
/** `OptionChainSearchOptions.ToDictionary` of TDAmeritradeAPI/OptionChain.cs:
    the query parameters of an option-chain request. The symbol always comes
    first; every other parameter is added only when its property is set.
    Setting any analytical input switches the strategy to ANALYTICAL, on the
    object itself. The text of a `double` and of a `DateOnly` is produced by
    the `num` and `date` parameters. */
module OptionChain {
  import opened Common
  import opened Text
  import opened Dict
  import Orders

  datatype Strategy =
    | SINGLE | ANALYTICAL | COVERED | VERTICAL | CALENDAR
    | STRANGLE | STRADDLE | BUTTERFLY | CONDOR | DIAGONAL | COLLAR | ROLL
  datatype Range = ITM | NTM | OTM | SAK | SBK | SNK | AllRange
  /** `Enums.ExpirationMonth`, which has no NOV. */
  datatype ExpirationMonth = JAN | FEB | MAR | APR | MAY | JUN | JUL | AUG | SEP | OCT | DEC | AllMonths
  datatype OptionType = S | NS | AllTypes

  datatype DateOnly = DateOnly(year: int, month: int, day: int)

  /** A `ushort`. */
  type UShort = x: int | 0 <= x < 0x1_0000

  datatype SearchOptions = SearchOptions(
    symbol: string,
    contractType: Option<Orders.PutCall>,
    strikeCount: Option<UShort>,
    includeQuotes: Option<bool>,
    strategy: Option<Strategy>,
    interval: Option<real>,
    strike: Option<real>,
    range: Option<Range>,
    fromDate: Option<DateOnly>,
    toDate: Option<DateOnly>,
    volatility: Option<real>,
    underlyingPrice: Option<real>,
    interestRate: Option<real>,
    daysToExpiration: Option<UShort>,
    expMonth: Option<ExpirationMonth>,
    optionType: Option<OptionType>)

  /** The constructor: only the symbol is set. */
  function NewSearchOptions(symbol: string): (o: SearchOptions)
    ensures o.symbol == symbol
    ensures o.(symbol := "") == SearchOptions("", None, None, None, None, None, None, None, None, None, None, None, None, None, None, None)
  {
    SearchOptions(symbol, None, None, None, None, None, None, None, None, None, None, None, None, None, None, None)
  }

  function PutCallText(p: Orders.PutCall): string {
    match p
    case PUT => "PUT"
    case CALL => "CALL"
  }

  function StrategyText(s: Strategy): string {
    match s
    case SINGLE => "SINGLE" case ANALYTICAL => "ANALYTICAL" case COVERED => "COVERED"
    case VERTICAL => "VERTICAL" case CALENDAR => "CALENDAR" case STRANGLE => "STRANGLE"
    case STRADDLE => "STRADDLE" case BUTTERFLY => "BUTTERFLY" case CONDOR => "CONDOR"
    case DIAGONAL => "DIAGONAL" case COLLAR => "COLLAR" case ROLL => "ROLL"
  }

  function RangeText(r: Range): string {
    match r
    case ITM => "ITM" case NTM => "NTM" case OTM => "OTM" case SAK => "SAK"
    case SBK => "SBK" case SNK => "SNK" case AllRange => "ALL"
  }

  function MonthText(m: ExpirationMonth): string {
    match m
    case JAN => "JAN" case FEB => "FEB" case MAR => "MAR" case APR => "APR"
    case MAY => "MAY" case JUN => "JUN" case JUL => "JUL" case AUG => "AUG"
    case SEP => "SEP" case OCT => "OCT" case DEC => "DEC" case AllMonths => "ALL"
  }

  function OptionTypeText(t: OptionType): string {
    match t
    case S => "S" case NS => "NS" case AllTypes => "ALL"
  }

  /** The text of an optional property, null staying null. */
  function TextOf<T>(x: Option<T>, f: T -> string): (r: Option<string>)
    ensures r.Some? <==> x.Some?
    ensures r.Some? ==> r.value == f(x.value)
  {
    match x
    case None => None
    case Some(v) => Some(f(v))
  }

  /** Any of the inputs of an analytical chain is set. */
  predicate Analytical(o: SearchOptions) {
    o.volatility.Some? || o.underlyingPrice.Some? || o.interestRate.Some? || o.daysToExpiration.Some?
  }

  /** The keys after `symbol`, in the order they are added. */
  const SearchKeys: seq<string> := [
    "contractType", "strikeCount", "includeQuotes", "strategy", "interval", "strike", "range",
    "fromDate", "toDate", "volatility", "underlyingPrice", "interestRate", "daysToExpiration",
    "expMonth", "optionType"]

  lemma SearchKeysDistinct()
    ensures forall i, j :: 0 <= i < j < |SearchKeys| ==> SearchKeys[i] != SearchKeys[j]
    ensures "symbol" !in SearchKeys
  {
  }

  /** The optional parameters of `o`. The `strategy` parameter carries the
      text of `IncludeQuotes`, as written. */
  function Fields(o: SearchOptions, num: real -> string, date: DateOnly -> string): (fs: seq<Field>)
    ensures Keys(fs) == SearchKeys
  {
    [("contractType", TextOf(o.contractType, PutCallText)),
     ("strikeCount", TextOf(o.strikeCount, (n: UShort) => NatToString(n))),
     ("includeQuotes", TextOf(o.includeQuotes, (b: bool) => ToUpper(NullableBoolToString(Some(b))))),
     ("strategy", if o.strategy.Some? then Some(NullableBoolToString(o.includeQuotes)) else None),
     ("interval", TextOf(o.interval, num)),
     ("strike", TextOf(o.strike, num)),
     ("range", TextOf(o.range, RangeText)),
     ("fromDate", TextOf(o.fromDate, date)),
     ("toDate", TextOf(o.toDate, date)),
     ("volatility", TextOf(o.volatility, num)),
     ("underlyingPrice", TextOf(o.underlyingPrice, num)),
     ("interestRate", TextOf(o.interestRate, num)),
     ("daysToExpiration", TextOf(o.daysToExpiration, (n: UShort) => NatToString(n))),
     ("expMonth", TextOf(o.expMonth, MonthText)),
     ("optionType", TextOf(o.optionType, OptionTypeText))]
  }

  /** `ToDictionary`: the options after the strategy update, and the parameters. */
  function ToDictionary(o: SearchOptions, num: real -> string, date: DateOnly -> string)
    : (r: (SearchOptions, Dict))
    ensures Analytical(o) ==> r.0.strategy == Some(ANALYTICAL)
    ensures !Analytical(o) ==> r.0 == o
    ensures r.0.(strategy := o.strategy) == o
    ensures |r.1| >= 1 && r.1[0] == ("symbol", o.symbol)
  {
    var updated := if Analytical(o) then o.(strategy := Some(ANALYTICAL)) else o;
    (updated, [("symbol", o.symbol)] + Collect(Fields(updated, num, date)))
  }

  /** `Get` on a dictionary that starts with the symbol. */
  lemma GetAfterSymbol(symbol: string, rest: Dict, k: string)
    requires k != "symbol"
    ensures Get([("symbol", symbol)] + rest, k) == Get(rest, k)
  {
    GetCons(("symbol", symbol), rest, k);
  }

  /** Under each optional key the dictionary holds exactly what `Fields`
      gives for it, and no key occurs twice. */
  lemma ToDictionaryLookup(o: SearchOptions, num: real -> string, date: DateOnly -> string)
    ensures var r := ToDictionary(o, num, date);
      && DistinctKeys(r.1)
      && Get(r.1, "symbol") == Some(o.symbol)
      && forall i :: 0 <= i < |SearchKeys| ==> Get(r.1, SearchKeys[i]) == Fields(r.0, num, date)[i].1
  {
    var updated := ToDictionary(o, num, date).0;
    var fs := Fields(updated, num, date);
    var d := ToDictionary(o, num, date).1;
    SearchKeysDistinct();
    CollectLookup(fs);
    assert d == [("symbol", o.symbol)] + Collect(fs);
    forall i | 0 <= i < |fs|
      ensures Get(d, SearchKeys[i]) == fs[i].1
    {
      assert fs[i].0 == SearchKeys[i];
      GetAfterSymbol(o.symbol, Collect(fs), fs[i].0);
    }
    assert DistinctKeys(d) by {
      forall j | 0 <= j < |Collect(fs)|
        ensures Collect(fs)[j].0 != "symbol"
      {
        assert Collect(fs)[j].0 in Keys(fs);
      }
    }
  }

  /** Every parameter is present exactly when its property is set (for the
      strategy: set, or forced by an analytical input), and carries that
      property's text. */
  lemma ToDictionaryParameters(o: SearchOptions, num: real -> string, date: DateOnly -> string)
    ensures var d := ToDictionary(o, num, date).1;
      && Get(d, "contractType") == TextOf(o.contractType, PutCallText)
      && Get(d, "strikeCount") == TextOf(o.strikeCount, (n: UShort) => NatToString(n))
      && Get(d, "includeQuotes") == TextOf(o.includeQuotes, (b: bool) => ToUpper(NullableBoolToString(Some(b))))
      && (HasKey(d, "strategy") <==> o.strategy.Some? || Analytical(o))
      && (HasKey(d, "strategy") ==> Get(d, "strategy") == Some(NullableBoolToString(o.includeQuotes)))
      && Get(d, "interval") == TextOf(o.interval, num)
      && Get(d, "strike") == TextOf(o.strike, num)
      && Get(d, "range") == TextOf(o.range, RangeText)
  {
    ToDictionaryFilters(o, num, date);
    ToDictionaryStrategy(o, num, date);
  }

  /** The filters before the strategy. */
  lemma ToDictionaryFilters(o: SearchOptions, num: real -> string, date: DateOnly -> string)
    ensures var d := ToDictionary(o, num, date).1;
      && Get(d, "contractType") == TextOf(o.contractType, PutCallText)
      && Get(d, "strikeCount") == TextOf(o.strikeCount, (n: UShort) => NatToString(n))
      && Get(d, "includeQuotes") == TextOf(o.includeQuotes, (b: bool) => ToUpper(NullableBoolToString(Some(b))))
  {
    ToDictionaryLookup(o, num, date);
    assert SearchKeys[0] == "contractType" && SearchKeys[1] == "strikeCount" && SearchKeys[2] == "includeQuotes";
  }

  /** The strategy and the parameters after it. */
  lemma ToDictionaryStrategy(o: SearchOptions, num: real -> string, date: DateOnly -> string)
    ensures var d := ToDictionary(o, num, date).1;
      && (HasKey(d, "strategy") <==> o.strategy.Some? || Analytical(o))
      && (HasKey(d, "strategy") ==> Get(d, "strategy") == Some(NullableBoolToString(o.includeQuotes)))
      && Get(d, "interval") == TextOf(o.interval, num)
      && Get(d, "strike") == TextOf(o.strike, num)
      && Get(d, "range") == TextOf(o.range, RangeText)
  {
    ToDictionaryLookup(o, num, date);
    assert SearchKeys[3] == "strategy" && SearchKeys[4] == "interval" && SearchKeys[5] == "strike";
    assert SearchKeys[6] == "range";
  }

  /** The dates and the first analytical inputs. */
  lemma ToDictionaryDatesAndInputs(o: SearchOptions, num: real -> string, date: DateOnly -> string)
    ensures var d := ToDictionary(o, num, date).1;
      && Get(d, "fromDate") == TextOf(o.fromDate, date)
      && Get(d, "toDate") == TextOf(o.toDate, date)
      && Get(d, "volatility") == TextOf(o.volatility, num)
      && Get(d, "underlyingPrice") == TextOf(o.underlyingPrice, num)
  {
    ToDictionaryLookup(o, num, date);
    assert SearchKeys[7] == "fromDate" && SearchKeys[8] == "toDate";
    assert SearchKeys[9] == "volatility" && SearchKeys[10] == "underlyingPrice";
  }

  /** The last analytical inputs and the expiration filters. */
  lemma ToDictionaryExpirations(o: SearchOptions, num: real -> string, date: DateOnly -> string)
    ensures var d := ToDictionary(o, num, date).1;
      && Get(d, "interestRate") == TextOf(o.interestRate, num)
      && Get(d, "daysToExpiration") == TextOf(o.daysToExpiration, (n: UShort) => NatToString(n))
      && Get(d, "expMonth") == TextOf(o.expMonth, MonthText)
      && Get(d, "optionType") == TextOf(o.optionType, OptionTypeText)
  {
    ToDictionaryLookup(o, num, date);
    assert SearchKeys[11] == "interestRate" && SearchKeys[12] == "daysToExpiration";
    assert SearchKeys[13] == "expMonth" && SearchKeys[14] == "optionType";
  }

  /** The same for the remaining parameters. */
  lemma ToDictionaryParametersRest(o: SearchOptions, num: real -> string, date: DateOnly -> string)
    ensures var d := ToDictionary(o, num, date).1;
      && Get(d, "fromDate") == TextOf(o.fromDate, date)
      && Get(d, "toDate") == TextOf(o.toDate, date)
      && Get(d, "volatility") == TextOf(o.volatility, num)
      && Get(d, "underlyingPrice") == TextOf(o.underlyingPrice, num)
      && Get(d, "interestRate") == TextOf(o.interestRate, num)
      && Get(d, "daysToExpiration") == TextOf(o.daysToExpiration, (n: UShort) => NatToString(n))
      && Get(d, "expMonth") == TextOf(o.expMonth, MonthText)
      && Get(d, "optionType") == TextOf(o.optionType, OptionTypeText)
  {
    ToDictionaryDatesAndInputs(o, num, date);
    ToDictionaryExpirations(o, num, date);
  }

  /** The `strategy` parameter never names the strategy: it is the text of
      `IncludeQuotes`, empty when that is null. */
  lemma StrategyParameterIsIncludeQuotes(num: real -> string, date: DateOnly -> string)
    ensures var o := NewSearchOptions("AAPL").(strategy := Some(VERTICAL), includeQuotes := Some(true));
      Get(ToDictionary(o, num, date).1, "strategy") == Some("True")
    ensures var o := NewSearchOptions("AAPL").(volatility := Some(0.3));
      Get(ToDictionary(o, num, date).1, "strategy") == Some("")
  {
    ToDictionaryParameters(NewSearchOptions("AAPL").(strategy := Some(VERTICAL), includeQuotes := Some(true)), num, date);
    ToDictionaryParameters(NewSearchOptions("AAPL").(volatility := Some(0.3)), num, date);
  }

  /** The optional parameters with the strategy's own name under `strategy`. */
  function FieldsIntended(o: SearchOptions, num: real -> string, date: DateOnly -> string): (fs: seq<Field>)
    ensures Keys(fs) == SearchKeys
    ensures fs[3] == ("strategy", TextOf(o.strategy, StrategyText))
    ensures forall i :: 0 <= i < |fs| && i != 3 ==> fs[i] == Fields(o, num, date)[i]
  {
    Fields(o, num, date)[3 := ("strategy", TextOf(o.strategy, StrategyText))]
  }

  /** `ToDictionary` as intended: the `strategy` parameter names the strategy. */
  function ToDictionaryIntended(o: SearchOptions, num: real -> string, date: DateOnly -> string)
    : (r: (SearchOptions, Dict))
    ensures r.0 == ToDictionary(o, num, date).0
    ensures |r.1| >= 1 && r.1[0] == ("symbol", o.symbol)
  {
    var updated := if Analytical(o) then o.(strategy := Some(ANALYTICAL)) else o;
    (updated, [("symbol", o.symbol)] + Collect(FieldsIntended(updated, num, date)))
  }

  /** The intended `strategy` parameter is the strategy's name, ANALYTICAL
      whenever an analytical input is set, and different strategies give
      different parameters. */
  lemma IntendedStrategyParameter(o: SearchOptions, num: real -> string, date: DateOnly -> string)
    ensures var d := ToDictionaryIntended(o, num, date).1;
      && DistinctKeys(d)
      && Get(d, "strategy") == TextOf(ToDictionaryIntended(o, num, date).0.strategy, StrategyText)
      && (Analytical(o) ==> Get(d, "strategy") == Some("ANALYTICAL"))
  {
    var updated := ToDictionaryIntended(o, num, date).0;
    var fs := FieldsIntended(updated, num, date);
    var d := ToDictionaryIntended(o, num, date).1;
    SearchKeysDistinct();
    CollectLookup(fs);
    assert fs[3].0 == "strategy";
    GetAfterSymbol(o.symbol, Collect(fs), "strategy");
    assert DistinctKeys(d) by {
      forall j | 0 <= j < |Collect(fs)|
        ensures Collect(fs)[j].0 != "symbol"
      {
        assert Collect(fs)[j].0 in Keys(fs);
      }
    }
  }

  lemma StrategyTextInjective(a: Strategy, b: Strategy)
    ensures StrategyText(a) == StrategyText(b) ==> a == b
  {
  }
}

=== FILE: order_generator.dfy ===
/** The order builders of TDAmeritradeAPI/OrderGenerator.cs. Each validator
    returns an `Outcome` instead of throwing; each builder returns a `Result`
    whose error names the validator that threw. The validators keep the
    dangling `else` of the source: only equity instructions are ever checked,
    and the horizontal-spread check is never reached. */
module OrderGenerator {
  import opened Common
  import opened Orders
  import opened Symbols

  /** `OrderGenerator.OptionType`. */
  datatype OptionRight = Call | Put
  /** `OrderGenerator.PositionEffect`. */
  datatype Effect = ToOpen | ToClose
  datatype NetEffect = NetDebit | NetCredit | NetZero
  datatype SpreadType = Vertical | Horizontal | Custom

  /** Why a builder threw: the index error of `ParseSymbol`, or the
      validator that rejected its argument. */
  datatype OrderError =
    | SymbolIndex(cause: SymbolError)
    | InvalidSymbol
    | InvalidInstruction
    | InvalidPrice
    | InvalidQuantity
    | InvalidVerticalSpread
    | UnmatchedUnderlying
    | PriceWithoutNetEffect

  /** The calendar date of an expiration (`DateTime.Date`). */
  datatype Date = Date(year: int, month: int, day: int)

  /** `OrderGenerator.Option`, a parsed option contract. */
  datatype OptionContract = OptionContract(
    underlying: string,
    expiration: Date,
    right: OptionRight,
    strike: real,
    symbol: string)

  predicate ValidEquityInstruction(i: Instruction) {
    i in {BUY, SELL, BUY_TO_COVER, SELL_SHORT}
  }

  /** The option list of the source, which names SELL_TO_CLOSE twice and
      SELL_TO_OPEN not at all. */
  predicate ValidOptionInstruction(i: Instruction) {
    i in {BUY_TO_OPEN, SELL_TO_CLOSE, BUY_TO_CLOSE, SELL_TO_CLOSE}
  }

  /** `ValidateInstruction` as written: the `else if` for options belongs to
      the inner `if` of the equity branch, where it can never hold. */
  function ValidateInstruction(t: SecurityType, i: Instruction): (o: Outcome<OrderError>)
    ensures o.Fail? <==> t == Equity && !ValidEquityInstruction(i)
    ensures o.Fail? ==> o.error == InvalidInstruction
  {
    if t == Equity then
      if !ValidEquityInstruction(i) then Fail(InvalidInstruction)
      else if t == SecurityType.Option then
        if !ValidOptionInstruction(i) then Fail(InvalidInstruction) else Pass
      else Pass
    else Pass
  }

  /** No instruction is ever rejected for an option. */
  lemma OptionInstructionsNeverRejected(i: Instruction)
    ensures ValidateInstruction(SecurityType.Option, i) == Pass
  {
  }

  /** The equity instructions that pass are exactly four. */
  lemma EquityInstructionsAccepted()
    ensures forall i: Instruction :: ValidateInstruction(Equity, i).Pass? <==> i in {BUY, SELL, BUY_TO_COVER, SELL_SHORT}
  {
  }

  /** `ValidatePrice`: a null price passes, a negative one does not. */
  function ValidatePrice(price: Option<real>): (o: Outcome<OrderError>)
    ensures o.Pass? <==> price.None? || price.value >= 0.0
    ensures o.Fail? ==> o.error == InvalidPrice
  {
    if price.Some? && price.value < 0.0 then Fail(InvalidPrice) else Pass
  }

  /** `ValidateQuantity` on the unsigned quantity. */
  function ValidateQuantity(quantity: nat): (o: Outcome<OrderError>)
    ensures o.Pass? <==> quantity > 0
    ensures o.Fail? ==> o.error == InvalidQuantity
  {
    if quantity < 1 then Fail(InvalidQuantity) else Pass
  }

  /** `ValidateSpread` as written: the horizontal check is the `else` of the
      inner vertical `if`, reached only for vertical spreads. */
  function ValidateSpread(long: OptionContract, short: OptionContract, spreadType: SpreadType): (o: Outcome<OrderError>)
    ensures o.Pass? <==>
      && long.underlying == short.underlying
      && (spreadType == Vertical ==> long.strike != short.strike && long.expiration == short.expiration)
    ensures o.Fail? && long.underlying != short.underlying ==> o.error == UnmatchedUnderlying
    ensures o.Fail? && long.underlying == short.underlying ==> o.error == InvalidVerticalSpread
  {
    if long.underlying != short.underlying then Fail(UnmatchedUnderlying)
    else if spreadType == Vertical then
      if long.strike == short.strike || long.expiration != short.expiration then Fail(InvalidVerticalSpread)
      else if spreadType == Horizontal then
        if long.strike != short.strike || long.expiration == short.expiration then Fail(InvalidVerticalSpread) else Pass
      else Pass
    else Pass
  }

  /** A horizontal spread is checked for its underlyings only. */
  lemma HorizontalSpreadUnchecked(long: OptionContract, short: OptionContract)
    ensures ValidateSpread(long, short, Horizontal).Pass? <==> long.underlying == short.underlying
    ensures ValidateSpread(long, short, Horizontal) == ValidateSpread(long, short, Custom)
  {
  }

  /** The symbol is one of the expected kind. */
  predicate SymbolIs(symbol: string, t: SecurityType) {
    ParseSymbol(symbol).Ok? && ParseSymbol(symbol).value.kind == t
  }

  /** `ValidateSymbol`: the symbol rewritten to its wire form by `ParseSymbol`
      (the `ref` argument), provided it has the expected type. */
  function ValidateSymbol(symbol: string, expected: SecurityType): (r: Result<string, OrderError>)
    ensures r.Ok? <==> SymbolIs(symbol, expected)
    ensures r.Ok? ==> r.value == ParseSymbol(symbol).value.wire
    ensures ParseSymbol(symbol).Err? ==> r == Err(SymbolIndex(ParseSymbol(symbol).error))
    ensures ParseSymbol(symbol).Ok? && !SymbolIs(symbol, expected) ==> r == Err(InvalidSymbol)
  {
    match ParseSymbol(symbol)
    case Err(e) => Err(SymbolIndex(e))
    case Ok(p) => if p.kind != expected then Err(InvalidSymbol) else Ok(p.wire)
  }

  /** `BasicOrder`: after the four validations, in the source's order, an
      order with one leg for the rewritten symbol. */
  function BasicOrder(symbol: string, securityType: SecurityType, quantity: nat, instruction: Instruction,
                      price: Option<real>, duration: Duration): (r: Result<Order, OrderError>)
    ensures r.Ok? <==>
      && SymbolIs(symbol, securityType) && quantity > 0
      && ValidateInstruction(securityType, instruction).Pass? && ValidatePrice(price).Pass?
    // the first validation to fail decides the error
    ensures !SymbolIs(symbol, securityType) ==> r == ValidateSymbol(symbol, securityType).PropagateFailure()
    ensures SymbolIs(symbol, securityType) && quantity == 0 ==> r == Err(InvalidQuantity)
    ensures (SymbolIs(symbol, securityType) && quantity > 0 && ValidateInstruction(securityType, instruction).Fail?
             ==> r == Err(InvalidInstruction))
    ensures (SymbolIs(symbol, securityType) && quantity > 0 && ValidateInstruction(securityType, instruction).Pass?
             && ValidatePrice(price).Fail?
             ==> r == Err(InvalidPrice))
    ensures r.Ok? ==>
      var o := r.value;
      && (price.None? ==> o.orderType == Some(MARKET) && o.price.None?)
      && (price.Some? ==> o.orderType == Some(LIMIT) && o.price == price)
      && o.session == Some(NORMAL) && o.duration == Some(duration) && o.orderStrategyType == Some(SINGLE)
      && o.orderLegCollection.Some? && |o.orderLegCollection.value| == 1
      && o.(orderType := None, price := None, session := None, duration := None,
            orderStrategyType := None, orderLegCollection := None) == EmptyOrder
    ensures r.Ok? ==>
      var leg := r.value.orderLegCollection.value[0];
      && leg.instruction == Some(instruction) && leg.quantity == Some(quantity as real)
      && leg.instrument.Some? && leg.instrument.value.symbol == Some(ParseSymbol(symbol).value.wire)
      && (leg.instrument.value.assetType == Some(EQUITY) <==> securityType == Equity)
      && (leg.instrument.value.assetType == Some(OPTION) <==> securityType != Equity)
  {
    var wire :- ValidateSymbol(symbol, securityType);
    :- ValidateQuantity(quantity);
    :- ValidateInstruction(securityType, instruction);
    :- ValidatePrice(price);
    var assetType := if securityType == Equity then EQUITY else OPTION;
    Ok(EmptyOrder.(
      orderType := Some(if price.None? then MARKET else LIMIT),
      price := price,
      session := Some(NORMAL),
      duration := Some(duration),
      orderStrategyType := Some(SINGLE),
      orderLegCollection := Some([NewLeg(instruction, quantity as real, NewInstrument(wire, assetType))])))
  }

  function BuyEquity(symbol: string, quantity: nat, effect: Effect, price: Option<real>, duration: Duration)
    : (r: Result<Order, OrderError>)
    // both instructions are valid for equities, so only the symbol, quantity and price can fail
    ensures r.Ok? <==> SymbolIs(symbol, Equity) && quantity > 0 && ValidatePrice(price).Pass?
    ensures r.Ok? ==> LegInstructions(r.value) == [Some(if effect == ToOpen then BUY else BUY_TO_COVER)]
  {
    BasicOrder(symbol, Equity, quantity, if effect == ToOpen then BUY else BUY_TO_COVER, price, duration)
  }

  function SellEquity(symbol: string, quantity: nat, effect: Effect, price: Option<real>, duration: Duration)
    : (r: Result<Order, OrderError>)
    ensures r.Ok? <==> SymbolIs(symbol, Equity) && quantity > 0 && ValidatePrice(price).Pass?
    ensures r.Ok? ==> LegInstructions(r.value) == [Some(if effect == ToOpen then SELL_SHORT else SELL)]
  {
    BasicOrder(symbol, Equity, quantity, if effect == ToOpen then SELL_SHORT else SELL, price, duration)
  }

  function BuyOption(symbol: string, quantity: nat, effect: Effect, price: Option<real>, duration: Duration)
    : (r: Result<Order, OrderError>)
    ensures r.Ok? <==> SymbolIs(symbol, SecurityType.Option) && quantity > 0 && ValidatePrice(price).Pass?
    ensures r.Ok? ==> LegInstructions(r.value) == [Some(if effect == ToOpen then BUY_TO_OPEN else BUY_TO_CLOSE)]
  {
    BasicOrder(symbol, SecurityType.Option, quantity, if effect == ToOpen then BUY_TO_OPEN else BUY_TO_CLOSE, price, duration)
  }

  function SellOption(symbol: string, quantity: nat, effect: Effect, price: Option<real>, duration: Duration)
    : (r: Result<Order, OrderError>)
    // SELL_TO_OPEN is missing from the option list, yet it passes: option instructions are never checked
    ensures r.Ok? <==> SymbolIs(symbol, SecurityType.Option) && quantity > 0 && ValidatePrice(price).Pass?
    ensures r.Ok? ==> LegInstructions(r.value) == [Some(if effect == ToOpen then SELL_TO_OPEN else SELL_TO_CLOSE)]
  {
    BasicOrder(symbol, SecurityType.Option, quantity, if effect == ToOpen then SELL_TO_OPEN else SELL_TO_CLOSE, price, duration)
  }

  /** Buying and selling the same equity give the same order but for the
      leg's instruction. */
  lemma BuySellEquityDifferOnlyInInstruction(symbol: string, quantity: nat, effect: Effect, price: Option<real>, duration: Duration)
    ensures BuyEquity(symbol, quantity, effect, price, duration).Ok? == SellEquity(symbol, quantity, effect, price, duration).Ok?
    ensures BuyEquity(symbol, quantity, effect, price, duration).Ok? ==>
      var b, s := BuyEquity(symbol, quantity, effect, price, duration).value,
                  SellEquity(symbol, quantity, effect, price, duration).value;
      b.orderLegCollection.value[0].(instruction := None) == s.orderLegCollection.value[0].(instruction := None) &&
      b.(orderLegCollection := None) == s.(orderLegCollection := None)
  {
  }

  /** The order type a net effect maps to, MARKET when there is none. */
  function NetOrderType(netEffect: Option<NetEffect>): OrderType {
    match netEffect
    case None => MARKET
    case Some(NetDebit) => NET_DEBIT
    case Some(NetCredit) => NET_CREDIT
    case Some(NetZero) => NET_ZERO
  }

  /** The instructions of the long and the short leg of a spread. */
  function SpreadInstructions(effect: Effect): (Instruction, Instruction) {
    if effect == ToOpen then (BUY_TO_OPEN, SELL_TO_OPEN) else (SELL_TO_CLOSE, BUY_TO_CLOSE)
  }

  /** The instruction that closes a position an instruction opened. */
  function Closing(i: Instruction): Option<Instruction> {
    match i
    case BUY_TO_OPEN => Some(SELL_TO_CLOSE)
    case SELL_TO_OPEN => Some(BUY_TO_CLOSE)
    case _ => None
  }

  /** `CreateSpread`: two option legs, the long one first. The price is not
      validated. */
  function CreateSpread(long: OptionContract, longQuantity: nat, short: OptionContract, shortQuantity: nat,
                        effect: Effect, spreadType: SpreadType, duration: Duration,
                        netEffect: Option<NetEffect>, price: Option<real>): (r: Result<Order, OrderError>)
    ensures r.Ok? <==>
      && (price.Some? ==> netEffect.Some?)
      && longQuantity > 0 && shortQuantity > 0
      && ValidateSpread(long, short, spreadType).Pass?
    ensures price.Some? && netEffect.None? ==> r == Err(PriceWithoutNetEffect)
    ensures r.Ok? ==>
      var o := r.value;
      && o.orderType == Some(NetOrderType(netEffect)) && o.price == price
      && o.orderStrategyType == Some(SINGLE) && o.session == Some(NORMAL) && o.duration == Some(duration)
      && (o.complexOrderStrategyType == Some(CUSTOM) <==> spreadType == Custom)
      && (o.complexOrderStrategyType.None? <==> spreadType != Custom)
      && o.orderLegCollection.Some? && |o.orderLegCollection.value| == 2
    ensures r.Ok? ==>
      var legs := r.value.orderLegCollection.value;
      && legs[0].instrument == Some(NewInstrument(long.symbol, OPTION))
      && legs[1].instrument == Some(NewInstrument(short.symbol, OPTION))
      && legs[0].quantity == Some(longQuantity as real) && legs[1].quantity == Some(shortQuantity as real)
      && (effect == ToOpen ==> legs[0].instruction == Some(BUY_TO_OPEN) && legs[1].instruction == Some(SELL_TO_OPEN))
      && (effect == ToClose ==> legs[0].instruction == Some(SELL_TO_CLOSE) && legs[1].instruction == Some(BUY_TO_CLOSE))
  {
    var priceCheck := Need(!(price.Some? && netEffect.None?), PriceWithoutNetEffect);
    :- priceCheck;
    :- ValidateQuantity(longQuantity);
    :- ValidateQuantity(shortQuantity);
    :- ValidateSpread(long, short, spreadType);
    var (i1, i2) := SpreadInstructions(effect);
    Ok(EmptyOrder.(
      orderType := Some(NetOrderType(netEffect)),
      price := price,
      orderStrategyType := Some(SINGLE),
      complexOrderStrategyType := if spreadType == Custom then Some(CUSTOM) else None,
      duration := Some(duration),
      session := Some(NORMAL),
      orderLegCollection := Some([
        NewLeg(i1, longQuantity as real, NewInstrument(long.symbol, OPTION)),
        NewLeg(i2, shortQuantity as real, NewInstrument(short.symbol, OPTION))])))
  }

  /** The closing spread undoes the opening one leg by leg, and otherwise
      the two orders agree. */
  lemma CloseSpreadUndoesOpen(long: OptionContract, longQuantity: nat, short: OptionContract, shortQuantity: nat,
                              spreadType: SpreadType, duration: Duration, netEffect: Option<NetEffect>, price: Option<real>)
    ensures
      var openSpread := CreateSpread(long, longQuantity, short, shortQuantity, ToOpen, spreadType, duration, netEffect, price);
      var closeSpread := CreateSpread(long, longQuantity, short, shortQuantity, ToClose, spreadType, duration, netEffect, price);
      && openSpread.Ok? == closeSpread.Ok?
      && (openSpread.Ok? ==>
            && (forall k :: 0 <= k < 2 ==>
                  Closing(openSpread.value.orderLegCollection.value[k].instruction.value) ==
                  closeSpread.value.orderLegCollection.value[k].instruction)
            && openSpread.value.(orderLegCollection := None) == closeSpread.value.(orderLegCollection := None))
  {
  }

  /** `TriggeredOrder`: a clone of the trigger order whose strategy becomes
      TRIGGER and whose only child is the child strategy of the second order. */
  function TriggeredOrder(trigger: Order, triggered: Order): (r: Order)
    ensures r.orderStrategyType == Some(TRIGGER)
    ensures r.childOrderStrategies.Some? && |r.childOrderStrategies.value| == 1
    ensures r.childOrderStrategies.value[0] == GetChildOrderStrategy(triggered)
    // the child carries the triggered order's type, session, price, duration,
    // strategy type and legs, and no children of its own
    ensures var c := r.childOrderStrategies.value[0];
      && c.orderType == triggered.orderType && c.session == triggered.session && c.price == triggered.price
      && c.duration == triggered.duration && c.orderStrategyType == triggered.orderStrategyType
      && c.orderLegCollection == triggered.orderLegCollection
      && c.childOrderStrategies.None?
    // every other property is the trigger order's
    ensures r.(orderStrategyType := trigger.orderStrategyType, childOrderStrategies := trigger.childOrderStrategies) == trigger
  {
    Clone(trigger).(orderStrategyType := Some(TRIGGER),
                    childOrderStrategies := Some([GetChildOrderStrategy(triggered)]))
  }

  /** `OneCancelsAnother`: a new OCO order with the two child strategies in
      argument order, and nothing else set. */
  function OneCancelsAnother(first: Order, second: Order): (r: Order)
    ensures r.orderStrategyType == Some(OCO)
    ensures r.childOrderStrategies.Some? && |r.childOrderStrategies.value| == 2
    ensures r.childOrderStrategies.value == [GetChildOrderStrategy(first), GetChildOrderStrategy(second)]
    // each child carries its order's type, session, price, duration,
    // strategy type and legs
    ensures forall k :: 0 <= k < 2 ==>
      var (c, src) := (r.childOrderStrategies.value[k], if k == 0 then first else second);
      && c.orderType == src.orderType && c.session == src.session && c.price == src.price
      && c.duration == src.duration && c.orderStrategyType == src.orderStrategyType
      && c.orderLegCollection == src.orderLegCollection
      && c.childOrderStrategies.None?
    ensures r.(orderStrategyType := None, childOrderStrategies := None) == EmptyOrder
  {
    EmptyOrder.(orderStrategyType := Some(OCO),
                childOrderStrategies := Some([GetChildOrderStrategy(first), GetChildOrderStrategy(second)]))
  }

  /** Two triggered orders with the same trigger are equal exactly when the
      triggered orders agree on the six properties a child strategy copies. */
  lemma TriggeredOrderDeterminedBySixFields(trigger: Order, a: Order, b: Order)
    ensures TriggeredOrder(trigger, a) == TriggeredOrder(trigger, b) <==>
      && a.orderType == b.orderType && a.session == b.session && a.price == b.price
      && a.duration == b.duration && a.orderStrategyType == b.orderStrategyType
      && a.orderLegCollection == b.orderLegCollection
  {
    ChildStrategyDeterminedBySixFields(a, b);
    if TriggeredOrder(trigger, a) == TriggeredOrder(trigger, b) {
      assert TriggeredOrder(trigger, a).childOrderStrategies.value[0] == TriggeredOrder(trigger, b).childOrderStrategies.value[0];
    }
  }

  /** Two OCO orders are equal exactly when their first orders agree and
      their second orders agree on the six copied properties. */
  lemma OneCancelsAnotherDeterminedBySixFields(a1: Order, a2: Order, b1: Order, b2: Order)
    ensures OneCancelsAnother(a1, a2) == OneCancelsAnother(b1, b2) <==>
      GetChildOrderStrategy(a1) == GetChildOrderStrategy(b1) && GetChildOrderStrategy(a2) == GetChildOrderStrategy(b2)
  {
    if OneCancelsAnother(a1, a2) == OneCancelsAnother(b1, b2) {
      assert OneCancelsAnother(a1, a2).childOrderStrategies.value[0] == OneCancelsAnother(b1, b2).childOrderStrategies.value[0];
      assert OneCancelsAnother(a1, a2).childOrderStrategies.value[1] == OneCancelsAnother(b1, b2).childOrderStrategies.value[1];
    }
  }

  /** Swapping the arguments swaps the children. */
  lemma OneCancelsAnotherSwap(first: Order, second: Order)
    ensures OneCancelsAnother(second, first).childOrderStrategies.value ==
            [OneCancelsAnother(first, second).childOrderStrategies.value[1],
             OneCancelsAnother(first, second).childOrderStrategies.value[0]]
  {
  }

  /** `TriggerOneCancelsAnother` as written: the trigger's child is the child
      strategy of the OCO order. */
  function TriggerOneCancelsAnother(trigger: Order, first: Order, second: Order): (r: Order)
    ensures r.orderStrategyType == Some(TRIGGER)
    ensures r.(orderStrategyType := trigger.orderStrategyType, childOrderStrategies := trigger.childOrderStrategies) == trigger
  {
    var oco := OneCancelsAnother(first, second);
    Clone(trigger).(orderStrategyType := Some(TRIGGER),
                    childOrderStrategies := Some([GetChildOrderStrategy(oco)]))
  }

  /** The child strategy keeps only six properties of the OCO order, its
      children not among them: the trigger's child is an empty OCO order and
      neither of the two orders survives. */
  lemma TriggerOcoLosesBothOrders(trigger: Order, first: Order, second: Order)
    ensures TriggerOneCancelsAnother(trigger, first, second).childOrderStrategies ==
            Some([EmptyOrder.(orderStrategyType := Some(OCO))])
  {
  }

  /** `TriggerOneCancelsAnother` as intended: the OCO order itself, with its
      two children, is the trigger's only child. */
  function TriggerOneCancelsAnotherIntended(trigger: Order, first: Order, second: Order): (r: Order)
    ensures r.orderStrategyType == Some(TRIGGER)
    ensures r.(orderStrategyType := trigger.orderStrategyType, childOrderStrategies := trigger.childOrderStrategies) == trigger
    ensures r.childOrderStrategies.Some? && |r.childOrderStrategies.value| == 1
    ensures var oco := r.childOrderStrategies.value[0];
      && oco.orderStrategyType == Some(OCO)
      && oco.childOrderStrategies == Some([GetChildOrderStrategy(first), GetChildOrderStrategy(second)])
  {
    Clone(trigger).(orderStrategyType := Some(TRIGGER),
                    childOrderStrategies := Some([OneCancelsAnother(first, second)]))
  }

  /** The intended builder is `TriggeredOrder` applied to the OCO order with
      its children kept. */
  lemma IntendedKeepsBothOrders(trigger: Order, first: Order, second: Order)
    ensures var r := TriggerOneCancelsAnotherIntended(trigger, first, second);
      r.childOrderStrategies.value[0].childOrderStrategies.value[0].orderLegCollection == first.orderLegCollection &&
      r.childOrderStrategies.value[0].childOrderStrategies.value[1].orderLegCollection == second.orderLegCollection
    ensures TriggerOneCancelsAnother(trigger, first, second) ==
            TriggeredOrder(trigger, OneCancelsAnother(first, second))
  {
  }

  // ---------------------------------------------------------------- setters

  /** `SetLimit`: a limit order at `limitPrice`; nothing else changes. */
  function SetLimit(o: Order, limitPrice: real): (r: Order)
    ensures r.orderType == Some(LIMIT) && r.price == Some(limitPrice)
    ensures r.(orderType := o.orderType, price := o.price) == o
  {
    o.(orderType := Some(LIMIT), price := Some(limitPrice))
  }

  /** `SetStop`: a stop order triggered at `stopPrice` of `basis`. */
  function SetStop(o: Order, stopPrice: real, basis: PriceLinkBasis): (r: Order)
    ensures r.orderType == Some(STOP) && r.stopPrice == Some(stopPrice) && r.stopPriceLinkBasis == Some(basis)
    ensures r.(orderType := o.orderType, stopPrice := o.stopPrice, stopPriceLinkBasis := o.stopPriceLinkBasis) == o
  {
    o.(orderType := Some(STOP), stopPrice := Some(stopPrice), stopPriceLinkBasis := Some(basis))
  }

  /** `SetStopLimit`: a stop order that places a limit order at `limitPrice`. */
  function SetStopLimit(o: Order, stopPrice: real, limitPrice: real, basis: PriceLinkBasis): (r: Order)
    ensures r.orderType == Some(STOP_LIMIT) && r.price == Some(limitPrice)
    ensures r.stopPrice == Some(stopPrice) && r.stopPriceLinkBasis == Some(basis)
    ensures r.(orderType := o.orderType, stopPrice := o.stopPrice, stopPriceLinkBasis := o.stopPriceLinkBasis,
               price := o.price) == o
  {
    o.(orderType := Some(STOP_LIMIT), stopPrice := Some(stopPrice), stopPriceLinkBasis := Some(basis),
       price := Some(limitPrice))
  }

  /** `SetTrailingStop`: a trailing stop, which also clears the complex strategy to NONE. */
  function SetTrailingStop(o: Order, basis: PriceLinkBasis, linkType: PriceLinkType, offset: real): (r: Order)
    ensures r.orderType == Some(TRAILING_STOP) && r.complexOrderStrategyType == Some(NONE)
    ensures r.stopPriceLinkBasis == Some(basis) && r.stopPriceLinkType == Some(linkType) && r.stopPriceOffset == Some(offset)
    ensures r.(orderType := o.orderType, complexOrderStrategyType := o.complexOrderStrategyType,
               stopPriceLinkBasis := o.stopPriceLinkBasis, stopPriceLinkType := o.stopPriceLinkType,
               stopPriceOffset := o.stopPriceOffset) == o
  {
    o.(complexOrderStrategyType := Some(NONE), orderType := Some(TRAILING_STOP), stopPriceLinkBasis := Some(basis),
       stopPriceLinkType := Some(linkType), stopPriceOffset := Some(offset))
  }

  /** `SetTrailingStopLimit`: a trailing stop that places a limit order at `limitPrice`. */
  function SetTrailingStopLimit(o: Order, basis: PriceLinkBasis, linkType: PriceLinkType, offset: real,
                                limitPrice: real): (r: Order)
    ensures r.orderType == Some(TRAILING_STOP_LIMIT) && r.complexOrderStrategyType == Some(NONE)
    ensures r.stopPriceLinkBasis == Some(basis) && r.stopPriceLinkType == Some(linkType) && r.stopPriceOffset == Some(offset)
    ensures r.price == Some(limitPrice)
    ensures r.(orderType := o.orderType, complexOrderStrategyType := o.complexOrderStrategyType,
               stopPriceLinkBasis := o.stopPriceLinkBasis, stopPriceLinkType := o.stopPriceLinkType,
               stopPriceOffset := o.stopPriceOffset, price := o.price) == o
  {
    o.(complexOrderStrategyType := Some(NONE), orderType := Some(TRAILING_STOP_LIMIT), stopPriceLinkBasis := Some(basis),
       stopPriceLinkType := Some(linkType), stopPriceOffset := Some(offset), price := Some(limitPrice))
  }

  /** The limit variants are the stop variants with a limit price set and
      the order type renamed; applying a setter twice is applying it once;
      the stop fields the plain stop leaves alone survive it, so a trailing
      stop followed by a stop keeps its link type and offset. */
  lemma SettersCompose(o: Order, stopPrice: real, limitPrice: real, basis: PriceLinkBasis,
                       linkType: PriceLinkType, offset: real)
    ensures SetStopLimit(o, stopPrice, limitPrice, basis) ==
            SetLimit(SetStop(o, stopPrice, basis), limitPrice).(orderType := Some(STOP_LIMIT))
    ensures SetTrailingStopLimit(o, basis, linkType, offset, limitPrice) ==
            SetLimit(SetTrailingStop(o, basis, linkType, offset), limitPrice).(orderType := Some(TRAILING_STOP_LIMIT))
    ensures SetLimit(SetLimit(o, limitPrice), limitPrice) == SetLimit(o, limitPrice)
    ensures SetStop(SetTrailingStop(o, basis, linkType, offset), stopPrice, basis).stopPriceOffset == Some(offset)
    ensures SetStop(SetTrailingStop(o, basis, linkType, offset), stopPrice, basis).orderType == Some(STOP)
  {
  }
}

=== FILE: orders.dfy ===
/** The order records of TDAmeritradeAPI/Orders.cs as immutable values:
    `Order`, `OrderLeg`, `Execution` and the `Instrument` hierarchy, with
    `Clone`, `GetChildOrderStrategy`, the three-argument `OrderLeg`
    constructor, and the field sanitising `Client.PlaceOrderHelper` applies
    before an order is sent. Every C# nullable property is an `Option`;
    prices and quantities (C# `double`) are `real`. */
module Orders {
  import opened Common

  datatype Session = NORMAL | AM | PM | SEAMLESS
  datatype Duration = DAY | GOOD_TILL_CANCEL | FILL_OR_KILL
  datatype OrderType =
    | MARKET | LIMIT | STOP | STOP_LIMIT | TRAILING_STOP | MARKET_ON_CLOSE
    | EXERCISE | TRAILING_STOP_LIMIT | NET_DEBIT | NET_CREDIT | NET_ZERO
  datatype ComplexOrderStrategyType =
    | NONE | COVERED | VERTICAL | BACK_RATIO | CALENDAR | DIAGONAL
    | STRADDLE | STRANGLE | COLLAR_SYNTHETIC | BUTTERFLY | CONDOR | IRON_CONDOR | VERTICAL_ROLL
    | COLLAR_WITH_STOCK | DOUBLE_DIAGONAL | UNBALANCED_BUTTERFLY | UNBALANCED_CONDOR
    | UNBALANCED_IRON_CONDOR | UNBALANCED_VERTICAL_ROLL | CUSTOM
  datatype RequestedDestination = INET | ECN_ARCA | CBOE | AMEX | PHLX | ISE | BOX | NYSE | NASDAQ | BATS | C2 | AUTO
  // `TRIGGER_PRICE`, the `STOP_` names and the `LEG_` names carry a prefix
  // only because their C# names (`TRIGGER`, `BID`, `ASK`, `LAST`, `MARK`,
  // `EQUITY`, `OPTION`, ...) would clash with other constructors of this
  // module; in the source they are the unprefixed names.
  datatype PriceLinkBasis = MANUAL | BASE | TRIGGER_PRICE | LAST | BID | ASK | ASK_BID | MARK | AVERAGE
  datatype PriceLinkType = VALUE | PERCENT | TICK
  datatype StopType = STANDARD | STOP_BID | STOP_ASK | STOP_LAST | STOP_MARK
  datatype TaxLotMethod = FIFO | LIFO | HIGH_COST | LOW_COST | AVERAGE_COST | SPECIFIC_LOT
  datatype OrderLegType = LEG_EQUITY | LEG_OPTION | LEG_INDEX | LEG_MUTUAL_FUND | LEG_CASH_EQUIVALENT | LEG_FIXED_INCOME | LEG_CURRENCY
  datatype Instruction =
    | BUY | SELL | BUY_TO_COVER | SELL_SHORT | BUY_TO_OPEN | BUY_TO_CLOSE | SELL_TO_OPEN
    | SELL_TO_CLOSE | EXCHANGE
  datatype PositionEffect = OPENING | CLOSING | AUTOMATIC
  datatype QuantityType = ALL_SHARES | DOLLARS | SHARES
  datatype SpecialInstruction = ALL_OR_NONE | DO_NOT_REDUCE | ALL_OR_NONE_DO_NOT_REDUCE
  datatype OrderStrategyType = SINGLE | OCO | TRIGGER
  datatype Status =
    | AWAITING_PARENT_ORDER | AWAITING_CONDITION | AWAITING_MANUAL_REVIEW | ACCEPTED
    | AWAITING_UR_OUT | PENDING_ACTIVATION | QUEUED | WORKING | REJECTED | PENDING_CANCEL | CANCELED
    | PENDING_REPLACE | REPLACED | FILLED | EXPIRED

  // ---------------------------------------------------------------- instruments

  /** `Instrument.AssetTypes`. */
  datatype AssetType = EQUITY | OPTION | INDEX | MUTUAL_FUND | CASH_EQUIVALENT | FIXED_INCOME | CURRENCY

  datatype MutualFundType = NOT_APPLICABLE | OPEN_END_NON_TAXABLE | OPEN_END_TAXABLE | NO_LOAD_NON_TAXABLE | NO_LOAD_TAXABLE
  datatype CashEquivalentType = SAVINGS | MONEY_MARKET_FUND
  datatype OptionKindType = VANILLA | BINARY | BARRIER
  datatype PutCall = PUT | CALL
  datatype CurrencyType = USD | CAD | EUR | JPY

  datatype OptionDeliverable = OptionDeliverable(
    symbol: Option<string>,
    deliverableUnits: Option<real>,
    currencyType: Option<CurrencyType>,
    assetType: Option<AssetType>)

  /** The run-time class of an instrument, with the properties that class adds. */
  datatype InstrumentClass =
    | BaseInstrument
    | EquityClass
    | FixedIncomeClass(maturityDate: Option<string>, variableRate: Option<real>, factor: Option<real>)
    | MutualFundClass(mutualFundType: Option<MutualFundType>)
    | CashEquivalentClass(cashEquivalentType: Option<CashEquivalentType>)
    | OptionClass(optionType: Option<OptionKindType>, putCall: Option<PutCall>, underlyingSymbol: Option<string>,
                  optionMultiplier: Option<int>, optionDeliverables: Option<seq<OptionDeliverable>>)

  datatype Instrument = Instrument(
    assetType: Option<AssetType>,
    cusip: Option<string>,
    symbol: Option<string>,
    description: Option<string>,
    kind: InstrumentClass)

  /** `new Instrument(symbol, assetType)`. */
  function NewInstrument(symbol: string, assetType: AssetType): (i: Instrument)
    ensures i.symbol == Some(symbol) && i.assetType == Some(assetType)
    ensures i.cusip.None? && i.description.None? && i.kind.BaseInstrument?
  {
    Instrument(Some(assetType), None, Some(symbol), None, BaseInstrument)
  }

  // ---------------------------------------------------------------- legs and orders

  datatype OrderLeg = OrderLeg(
    orderLegType: Option<OrderLegType>,
    legId: Option<int>,
    instrument: Option<Instrument>,
    instruction: Option<Instruction>,
    positionEffect: Option<PositionEffect>,
    quantity: Option<real>,
    quantityType: Option<QuantityType>)

  /** `new OrderLeg()`. */
  const EmptyLeg: OrderLeg := OrderLeg(None, None, None, None, None, None, None)

  /** `new OrderLeg(instruction, quantity, instrument)`. */
  function NewLeg(instruction: Instruction, quantity: real, instrument: Instrument): (leg: OrderLeg)
    ensures leg.instruction == Some(instruction) && leg.quantity == Some(quantity) && leg.instrument == Some(instrument)
    // nothing else is set
    ensures leg.(instruction := None, quantity := None, instrument := None) == EmptyLeg
  {
    EmptyLeg.(instruction := Some(instruction), quantity := Some(quantity), instrument := Some(instrument))
  }

  /** `Execution.Structs.ExecutionLeg`. */
  datatype ExecutionLeg = ExecutionLeg(
    legId: Option<int>,
    quantity: Option<real>,
    mismarkedQuantity: Option<real>,
    price: Option<real>,
    time: Option<string>)

  datatype ActivityType = EXECUTION | ORDER_ACTION
  datatype ExecutionType = FILL

  datatype Execution = Execution(
    activityType: Option<ActivityType>,
    executionType: Option<ExecutionType>,
    quantity: Option<real>,
    orderRemainingQuantity: Option<real>,
    executionLegs: Option<seq<ExecutionLeg>>)

  /** `Order`, its 36 properties in declaration order. The two `List<object>`
      properties only ever hold orders. */
  datatype Order = Order(
    session: Option<Session>,
    duration: Option<Duration>,
    orderType: Option<OrderType>,
    cancelTime: Option<string>,
    complexOrderStrategyType: Option<ComplexOrderStrategyType>,
    quantity: Option<real>,
    filledQuantity: Option<real>,
    remainingQuantity: Option<real>,
    requestedDestination: Option<RequestedDestination>,
    destinationLinkName: Option<string>,
    releaseTime: Option<string>,
    stopPrice: Option<real>,
    stopPriceLinkBasis: Option<PriceLinkBasis>,
    stopPriceLinkType: Option<PriceLinkType>,
    stopPriceOffset: Option<real>,
    stopType: Option<StopType>,
    priceLinkBasis: Option<PriceLinkBasis>,
    priceLinkType: Option<PriceLinkType>,
    price: Option<real>,
    taxLotMethod: Option<TaxLotMethod>,
    orderLegCollection: Option<seq<OrderLeg>>,
    activationPrice: Option<real>,
    specialInstruction: Option<SpecialInstruction>,
    orderStrategyType: Option<OrderStrategyType>,
    orderId: Option<int>,
    cancelable: Option<bool>,
    editable: Option<bool>,
    status: Option<Status>,
    enteredTime: Option<string>,
    closeTime: Option<string>,
    tag: Option<string>,
    accountId: Option<int>,
    orderActivityCollection: Option<seq<Execution>>,
    replacingOrderCollection: Option<seq<Order>>,
    childOrderStrategies: Option<seq<Order>>,
    statusDescription: Option<string>)

  /** The instructions of an order's legs, in leg order; none without legs. */
  function LegInstructions(o: Order): (r: seq<Option<Instruction>>)
    ensures o.orderLegCollection.Some? ==> |r| == |o.orderLegCollection.value|
    ensures o.orderLegCollection.None? ==> r == []
    ensures forall k :: 0 <= k < |r| ==> r[k] == o.orderLegCollection.value[k].instruction
  {
    match o.orderLegCollection
    case None => []
    case Some(legs) => seq(|legs|, k requires 0 <= k < |legs| => legs[k].instruction)
  }

  /** `new Order()`: every property null. */
  const EmptyOrder: Order := Order(
    None, None, None, None, None, None, None, None, None, None, None, None,
    None, None, None, None, None, None, None, None, None, None, None, None,
    None, None, None, None, None, None, None, None, None, None, None, None)

  /** `new List<T>(list)` on a nullable list: null stays null, otherwise a
      new list with the same elements in the same order. */
  function CopyList<T>(list: Option<seq<T>>): (r: Option<seq<T>>)
    ensures r == list
  {
    match list
    case None => None
    case Some(xs) =>
      var ys := seq(|xs|, i requires 0 <= i < |xs| => xs[i]);
      assert ys == xs;
      Some(ys)
  }

  /** `Clone`: a member-wise copy whose four lists are copied afresh. */
  function Clone(o: Order): (c: Order)
    // as a value the clone is indistinguishable from the original
    ensures c == o
  {
    o.(orderLegCollection := CopyList(o.orderLegCollection),
       orderActivityCollection := CopyList(o.orderActivityCollection),
       replacingOrderCollection := CopyList(o.replacingOrderCollection),
       childOrderStrategies := CopyList(o.childOrderStrategies))
  }

  /** `GetChildOrderStrategy`: a new order carrying the order type, session,
      price, duration, strategy type and a copy of the legs. */
  function GetChildOrderStrategy(o: Order): (c: Order)
    ensures c.orderType == o.orderType && c.session == o.session && c.price == o.price
    ensures c.duration == o.duration && c.orderStrategyType == o.orderStrategyType
    ensures c.orderLegCollection == o.orderLegCollection
    // every other property is unset, the child strategies among them
    ensures c.(orderType := None, session := None, price := None, duration := None,
               orderStrategyType := None, orderLegCollection := None) == EmptyOrder
  {
    EmptyOrder.(orderType := o.orderType, session := o.session, price := o.price,
                duration := o.duration, orderStrategyType := o.orderStrategyType,
                orderLegCollection := CopyList(o.orderLegCollection))
  }

  /** Two orders have the same child strategy exactly when they agree on
      the six copied properties. */
  lemma ChildStrategyDeterminedBySixFields(a: Order, b: Order)
    ensures GetChildOrderStrategy(a) == GetChildOrderStrategy(b) <==>
      && a.orderType == b.orderType && a.session == b.session && a.price == b.price
      && a.duration == b.duration && a.orderStrategyType == b.orderStrategyType
      && a.orderLegCollection == b.orderLegCollection
  {
    if GetChildOrderStrategy(a) == GetChildOrderStrategy(b) {
      assert GetChildOrderStrategy(a).orderLegCollection == GetChildOrderStrategy(b).orderLegCollection;
    }
  }

  /** Taking the child strategy of a child strategy changes nothing, and any
      nesting below the order is gone. */
  lemma ChildStrategyIdempotent(o: Order)
    ensures GetChildOrderStrategy(GetChildOrderStrategy(o)) == GetChildOrderStrategy(o)
    ensures GetChildOrderStrategy(o).childOrderStrategies.None?
  {
    ChildStrategyDeterminedBySixFields(GetChildOrderStrategy(o), o);
  }

  // ---------------------------------------------------------------- sending

  /** A leg as `PlaceOrderHelper` sends it: no leg id, no position effect, no CUSIP. */
  function SanitizeLeg(leg: OrderLeg): (r: OrderLeg)
    ensures r.legId.None? && r.positionEffect.None?
    ensures r.instrument.None? <==> leg.instrument.None?
    ensures r.instrument.Some? ==> r.instrument.value == leg.instrument.value.(cusip := None)
    ensures r.(legId := leg.legId, positionEffect := leg.positionEffect, instrument := leg.instrument) == leg
  {
    leg.(legId := None, positionEffect := None,
         instrument := if leg.instrument.None? then None else Some(leg.instrument.value.(cusip := None)))
  }

  function SanitizeLegs(legs: seq<OrderLeg>): (r: seq<OrderLeg>)
    ensures |r| == |legs|
    ensures forall i :: 0 <= i < |legs| ==> r[i] == SanitizeLeg(legs[i])
  {
    seq(|legs|, i requires 0 <= i < |legs| => SanitizeLeg(legs[i]))
  }

  /** The properties the order endpoints refuse, cleared; nothing else changes. */
  function Sanitize(o: Order): (r: Order)
    ensures r.orderId.None? && r.cancelable.None? && r.editable.None? && r.status.None?
    ensures r.enteredTime.None? && r.accountId.None? && r.filledQuantity.None?
    ensures r.remainingQuantity.None? && r.destinationLinkName.None?
    ensures r.orderLegCollection.None? <==> o.orderLegCollection.None?
    ensures r.orderLegCollection.Some? ==>
      |r.orderLegCollection.value| == |o.orderLegCollection.value| &&
      forall i :: 0 <= i < |o.orderLegCollection.value| ==>
        var leg := r.orderLegCollection.value[i];
        leg.legId.None? && leg.positionEffect.None? && (leg.instrument.Some? ==> leg.instrument.value.cusip.None?)
    // each leg is the input's leg at the same place, with only those three cleared
    ensures r.orderLegCollection.Some? ==>
      forall i :: 0 <= i < |o.orderLegCollection.value| ==>
        var leg, src := r.orderLegCollection.value[i], o.orderLegCollection.value[i];
        && leg.(legId := src.legId, positionEffect := src.positionEffect, instrument := src.instrument) == src
        && (leg.instrument.None? <==> src.instrument.None?)
        && (leg.instrument.Some? ==> leg.instrument.value.(cusip := src.instrument.value.cusip) == src.instrument.value)
    ensures r.(orderId := o.orderId, cancelable := o.cancelable, editable := o.editable, status := o.status,
               enteredTime := o.enteredTime, accountId := o.accountId, filledQuantity := o.filledQuantity,
               remainingQuantity := o.remainingQuantity, destinationLinkName := o.destinationLinkName,
               orderLegCollection := o.orderLegCollection) == o
  {
    o.(orderId := None, cancelable := None, editable := None, status := None, enteredTime := None,
       accountId := None, filledQuantity := None, remainingQuantity := None, destinationLinkName := None,
       orderLegCollection := if o.orderLegCollection.None? then None else Some(SanitizeLegs(o.orderLegCollection.value)))
  }

  /** Sanitising twice is sanitising once. */
  lemma SanitizeIdempotent(o: Order)
    ensures Sanitize(Sanitize(o)) == Sanitize(o)
  {
    if o.orderLegCollection.Some? {
      var legs := o.orderLegCollection.value;
      assert SanitizeLegs(SanitizeLegs(legs)) == SanitizeLegs(legs);
    }
  }

  datatype HttpMethod = Post | Put

  /** The request `PlaceOrderHelper` sends: a new order is posted to the
      account's orders, a replacement is put to the order's own address. The
      PENDING_REPLACE status check only prints a message. */
  function PlaceOrderRequest(accountId: string, orderId: Option<string>, o: Order)
    : (r: (HttpMethod, string, Order))
    ensures r.0 == Post <==> orderId.None?
    ensures r.1 == "https://api.tdameritrade.com/v1/accounts/" + accountId + "/orders" +
                   (if orderId.None? then "" else "/" + orderId.value)
    ensures r.2 == Sanitize(o)
  {
    var base := "https://api.tdameritrade.com/v1/accounts/" + accountId + "/orders";
    match orderId
    case None => (Post, base, Sanitize(o))
    case Some(id) => (Put, base + "/" + id, Sanitize(o))
  }
}

=== FILE: price_history.dfy ===
/** `PriceHistoryOptions` of TDAmeritradeAPI/PriceHistory.cs: the two
    constructors with their validators, the `Period` setter, and the query
    parameters `ToDictionary` produces. The validators keep the source's
    dangling `else` and its always-true disjunction, so that every
    successfully built object asks for minute candles over days. */
module PriceHistory {
  import opened Common
  import opened Text
  import opened Dict

  datatype FrequencyType = Minute | Daily | Weekly | Monthly
  datatype PeriodType = Day | Month | Year | YTD

  datatype Options = Options(
    endDate: int,
    frequency: int,
    frequencyType: FrequencyType,
    needExtendedHoursData: bool,
    period: int,
    periodType: PeriodType,
    startDate: int)

  /** The exceptions of the validators. */
  datatype HistoryError =
    | PeriodCombination              // ValidatePeriod
    | FrequencyTypeCombination       // ValidateFrequencyType
    | FrequencyCombination           // ValidateFrequency, the amount is wrong
    | FrequencyTypeNotValid          // ValidateFrequency, a non-minute type with amount 1
    | NegativeDate                   // ValidateDates
    | DatesOutOfOrder                // ValidateDates

  /** `ValidatePeriod`: the accepted amounts of each period type. */
  function ValidatePeriod(periodType: PeriodType, period: int): (o: Outcome<HistoryError>)
    ensures periodType == Day ==> (o.Pass? <==> period in {1, 2, 3, 4, 5, 10})
    ensures periodType == Month ==> (o.Pass? <==> period in {1, 2, 3, 6})
    ensures periodType == Year ==> (o.Pass? <==> period in {1, 2, 3, 5, 10, 15, 20})
    ensures periodType == YTD ==> (o.Pass? <==> period == 1)
    ensures o.Fail? ==> o.error == PeriodCombination
  {
    var valid := match periodType
      case Day => [1, 2, 3, 4, 5, 10]
      case Month => [1, 2, 3, 6]
      case Year => [1, 2, 3, 5, 10, 15, 20]
      case YTD => [1];
    Need(period in valid, PeriodCombination)
  }

  /** `ValidateFrequency` as written: the `else` throwing "not valid" belongs
      to `if (frequency != 1)`, so a daily, weekly or monthly type fails
      whatever its amount. */
  function ValidateFrequency(frequencyType: FrequencyType, frequency: int): (o: Outcome<HistoryError>)
    ensures o.Pass? <==> frequencyType == Minute && frequency in {1, 5, 10, 15, 30}
    ensures frequencyType != Minute && frequency == 1 ==> o == Fail(FrequencyTypeNotValid)
  {
    if frequencyType == Minute then
      Need(frequency in [1, 5, 10, 15, 30], FrequencyCombination)
    else if frequency != 1 then Fail(FrequencyCombination)
    else Fail(FrequencyTypeNotValid)
  }

  /** `ValidateFrequencyType` as written: the year branch tests
      "not daily or not weekly or not monthly", which always holds. */
  function ValidateFrequencyType(periodType: PeriodType, frequencyType: FrequencyType): (o: Outcome<HistoryError>)
    ensures o.Pass? <==>
      || (periodType == Day && frequencyType == Minute)
      || (periodType in {Month, YTD} && frequencyType in {Daily, Weekly})
    ensures o.Fail? ==> o.error == FrequencyTypeCombination
  {
    var invalid := match periodType
      case Day => frequencyType != Minute
      case Month => frequencyType != Daily && frequencyType != Weekly
      case YTD => frequencyType != Daily && frequencyType != Weekly
      case Year => frequencyType != Daily || frequencyType != Weekly || frequencyType != Monthly;
    Need(!invalid, FrequencyTypeCombination)
  }

  /** `ValidateDates`: both dates non-negative, the start before the end. */
  function ValidateDates(startDate: int, endDate: int): (o: Outcome<HistoryError>)
    ensures o.Pass? <==> 0 <= startDate < endDate
    ensures o.Fail? && (startDate < 0 || endDate < 0) ==> o.error == NegativeDate
    ensures o.Fail? && startDate >= 0 && endDate >= 0 ==> o.error == DatesOutOfOrder
  {
    if startDate < 0 || endDate < 0 then Fail(NegativeDate)
    else if startDate >= endDate then Fail(DatesOutOfOrder)
    else Pass
  }

  /** No frequency type but minutes is ever accepted, and no frequency type
      at all together with a year period. */
  lemma EmptyAcceptedSets(periodType: PeriodType, frequencyType: FrequencyType, frequency: int)
    ensures frequencyType != Minute ==> ValidateFrequency(frequencyType, frequency).Fail?
    ensures ValidateFrequencyType(Year, frequencyType).Fail?
  {
  }

  /** The constructor taking a period; the dates are left at -1. */
  function WithPeriod(periodType: PeriodType, period: int, frequencyType: FrequencyType, frequency: int,
                      needExtendedHoursData: bool): (r: Result<Options, HistoryError>)
    ensures r.Ok? <==>
      && ValidatePeriod(periodType, period).Pass?
      && ValidateFrequencyType(periodType, frequencyType).Pass?
      && ValidateFrequency(frequencyType, frequency).Pass?
    ensures r.Ok? ==> r.value.startDate == -1 && r.value.endDate == -1
    ensures r.Ok? ==> r.value.period == period && r.value.frequency == frequency
    ensures r.Ok? ==> r.value.needExtendedHoursData == needExtendedHoursData
    ensures r.Ok? ==> r.value.periodType == periodType && r.value.frequencyType == frequencyType
  {
    var periodCheck := ValidatePeriod(periodType, period);
    :- periodCheck;
    :- ValidateFrequencyType(periodType, frequencyType);
    :- ValidateFrequency(frequencyType, frequency);
    Ok(Options(-1, frequency, frequencyType, needExtendedHoursData, period, periodType, -1))
  }

  /** The constructor taking dates; the period is left at -1 and is not validated. */
  function WithDates(periodType: PeriodType, frequencyType: FrequencyType, frequency: int,
                     startDate: int, endDate: int, needExtendedHoursData: bool): (r: Result<Options, HistoryError>)
    ensures r.Ok? <==>
      && ValidateFrequencyType(periodType, frequencyType).Pass?
      && ValidateFrequency(frequencyType, frequency).Pass?
      && ValidateDates(startDate, endDate).Pass?
    ensures r.Ok? ==> r.value.period == -1
    ensures r.Ok? ==> r.value.startDate == startDate && r.value.endDate == endDate
    ensures r.Ok? ==> r.value.frequency == frequency && r.value.needExtendedHoursData == needExtendedHoursData
    ensures r.Ok? ==> r.value.periodType == periodType && r.value.frequencyType == frequencyType
  {
    var frequencyTypeCheck := ValidateFrequencyType(periodType, frequencyType);
    :- frequencyTypeCheck;
    :- ValidateFrequency(frequencyType, frequency);
    :- ValidateDates(startDate, endDate);
    Ok(Options(endDate, frequency, frequencyType, needExtendedHoursData, -1, periodType, startDate))
  }

  /** Exactly which arguments the two constructors accept: minute candles
      over days, with a period of the day list or ordered dates. */
  lemma ConstructorsAccept(periodType: PeriodType, period: int, frequencyType: FrequencyType, frequency: int,
                           startDate: int, endDate: int, ext: bool)
    ensures WithPeriod(periodType, period, frequencyType, frequency, ext).Ok? <==>
      && periodType == Day && period in {1, 2, 3, 4, 5, 10}
      && frequencyType == Minute && frequency in {1, 5, 10, 15, 30}
    ensures WithDates(periodType, frequencyType, frequency, startDate, endDate, ext).Ok? <==>
      && periodType == Day && frequencyType == Minute && frequency in {1, 5, 10, 15, 30}
      && 0 <= startDate < endDate
  {
  }

  /** The public `Period` setter, which validates nothing. */
  function SetPeriod(o: Options, period: int): (r: Options)
    ensures r.period == period
    ensures r.(period := o.period) == o
  {
    o.(period := period)
  }

  function PeriodTypeText(t: PeriodType): string {
    match t
    case Day => "Day"
    case Month => "Month"
    case Year => "Year"
    case YTD => "YTD"
  }

  function FrequencyTypeText(t: FrequencyType): string {
    match t
    case Minute => "Minute"
    case Daily => "Daily"
    case Weekly => "Weekly"
    case Monthly => "Monthly"
  }

  /** The lower-cased enum names are the API's parameter values. */
  lemma EnumTextsLowered()
    ensures ToLower(PeriodTypeText(Day)) == "day" && ToLower(PeriodTypeText(Month)) == "month"
    ensures ToLower(PeriodTypeText(Year)) == "year" && ToLower(PeriodTypeText(YTD)) == "ytd"
    ensures ToLower(FrequencyTypeText(Minute)) == "minute" && ToLower(FrequencyTypeText(Daily)) == "daily"
    ensures ToLower(FrequencyTypeText(Weekly)) == "weekly" && ToLower(FrequencyTypeText(Monthly)) == "monthly"
  {
  }

  /** Different enum values have different parameter values. */
  lemma EnumTextsDistinct(a: PeriodType, b: PeriodType, x: FrequencyType, y: FrequencyType)
    ensures ToLower(PeriodTypeText(a)) == ToLower(PeriodTypeText(b)) ==> a == b
    ensures ToLower(FrequencyTypeText(x)) == ToLower(FrequencyTypeText(y)) ==> x == y
  {
    EnumTextsLowered();
  }

  /** `ToDictionary`: the period form when a date is unset, else the date
      form when the period is unset, else nothing. */
  function ToDictionary(o: Options): (d: Dict)
    ensures o.startDate == -1 || o.endDate == -1 ==>
      Keys(d) == ["periodType", "period", "frequencyType", "frequency", "needExtendedHoursData"]
    ensures o.startDate != -1 && o.endDate != -1 && o.period == -1 ==>
      Keys(d) == ["periodType", "frequencyType", "frequency", "endDate", "startDate", "needExtendedHoursData"]
    ensures d == [] <==> o.startDate != -1 && o.endDate != -1 && o.period != -1
    ensures DistinctKeys(d)
  {
    var periodType := ("periodType", ToLower(PeriodTypeText(o.periodType)));
    var frequencyType := ("frequencyType", ToLower(FrequencyTypeText(o.frequencyType)));
    var frequency := ("frequency", IntToString(o.frequency));
    var ext := ("needExtendedHoursData", BoolToLower(o.needExtendedHoursData));
    if o.startDate == -1 || o.endDate == -1 then
      [periodType, ("period", IntToString(o.period)), frequencyType, frequency, ext]
    else if o.period == -1 then
      [periodType, frequencyType, frequency,
       ("endDate", IntToString(o.endDate)), ("startDate", IntToString(o.startDate)), ext]
    else []
  }

  /** The values: enum names and the flag lower-cased, numbers in decimal;
      the period form has no dates and the date form no period. */
  lemma ToDictionaryValues(o: Options)
    ensures var d := ToDictionary(o);
      && (d != [] ==>
            && Get(d, "periodType") == Some(ToLower(PeriodTypeText(o.periodType)))
            && Get(d, "frequencyType") == Some(ToLower(FrequencyTypeText(o.frequencyType)))
            && Get(d, "frequency") == Some(IntToString(o.frequency))
            && Get(d, "needExtendedHoursData") == Some(BoolToLower(o.needExtendedHoursData)))
      && (o.startDate == -1 || o.endDate == -1 ==>
            && Get(d, "period") == Some(IntToString(o.period))
            && !HasKey(d, "startDate") && !HasKey(d, "endDate"))
      && (o.startDate != -1 && o.endDate != -1 && o.period == -1 ==>
            && Get(d, "startDate") == Some(IntToString(o.startDate))
            && Get(d, "endDate") == Some(IntToString(o.endDate))
            && !HasKey(d, "period"))
  {
    if o.startDate == -1 || o.endDate == -1 {
      SharedValues(o);
      PeriodFormValues(o);
    } else if o.period == -1 {
      SharedValues(o);
      DateFormValues(o);
    }
  }

  /** The entries both forms share. */
  lemma SharedValues(o: Options)
    requires o.startDate == -1 || o.endDate == -1 || o.period == -1
    ensures var d := ToDictionary(o);
      && Get(d, "periodType") == Some(ToLower(PeriodTypeText(o.periodType)))
      && Get(d, "frequencyType") == Some(ToLower(FrequencyTypeText(o.frequencyType)))
      && Get(d, "frequency") == Some(IntToString(o.frequency))
      && Get(d, "needExtendedHoursData") == Some(BoolToLower(o.needExtendedHoursData))
  {
    var d := ToDictionary(o);
    var period := o.startDate == -1 || o.endDate == -1;
    GetAt(d, 0);
    GetAt(d, if period then 2 else 1);
    GetAt(d, if period then 3 else 2);
    GetAt(d, if period then 4 else 5);
  }

  lemma PeriodFormValues(o: Options)
    requires o.startDate == -1 || o.endDate == -1
    ensures var d := ToDictionary(o);
      && Get(d, "period") == Some(IntToString(o.period))
      && !HasKey(d, "startDate") && !HasKey(d, "endDate")
  {
    var d := ToDictionary(o);
    HasKeyIffInKeys(d, "startDate");
    HasKeyIffInKeys(d, "endDate");
    GetAt(d, 1);
  }

  lemma DateFormValues(o: Options)
    requires o.startDate != -1 && o.endDate != -1 && o.period == -1
    ensures var d := ToDictionary(o);
      && Get(d, "endDate") == Some(IntToString(o.endDate))
      && Get(d, "startDate") == Some(IntToString(o.startDate))
      && !HasKey(d, "period")
  {
    var d := ToDictionary(o);
    HasKeyIffInKeys(d, "period");
    GetAt(d, 3);
    GetAt(d, 4);
  }

  /** Nothing is lost in the period form: two option objects in period form
      with the same parameters agree on every field the form carries. */
  lemma PeriodFormDetermines(a: Options, b: Options)
    requires a.startDate == -1 && b.startDate == -1
    requires ToDictionary(a) == ToDictionary(b)
    ensures a.periodType == b.periodType && a.period == b.period
    ensures a.frequencyType == b.frequencyType && a.frequency == b.frequency
    ensures a.needExtendedHoursData == b.needExtendedHoursData
  {
    var da, db := ToDictionary(a), ToDictionary(b);
    assert da[0] == db[0] && da[1] == db[1] && da[2] == db[2] && da[3] == db[3] && da[4] == db[4];
    EnumTextsDistinct(a.periodType, b.periodType, a.frequencyType, b.frequencyType);
    IntToStringInjective(a.period, b.period);
    IntToStringInjective(a.frequency, b.frequency);
  }

  /** The same in the date form, which carries both dates instead of the period. */
  lemma DateFormDetermines(a: Options, b: Options)
    requires a.startDate != -1 && a.endDate != -1 && a.period == -1
    requires b.startDate != -1 && b.endDate != -1 && b.period == -1
    requires ToDictionary(a) == ToDictionary(b)
    ensures a == b
  {
    var da, db := ToDictionary(a), ToDictionary(b);
    assert da[0] == db[0] && da[1] == db[1] && da[2] == db[2] && da[3] == db[3] && da[4] == db[4] && da[5] == db[5];
    EnumTextsDistinct(a.periodType, b.periodType, a.frequencyType, b.frequencyType);
    IntToStringInjective(a.frequency, b.frequency);
    IntToStringInjective(a.endDate, b.endDate);
    IntToStringInjective(a.startDate, b.startDate);
  }

  /** A constructed object always produces parameters; only setting the
      period of a date-built object empties them. */
  lemma EmptyOnlyAfterSettingPeriod(periodType: PeriodType, frequencyType: FrequencyType, frequency: int,
                                    startDate: int, endDate: int, ext: bool, period: int)
    requires WithDates(periodType, frequencyType, frequency, startDate, endDate, ext).Ok?
    ensures var o := WithDates(periodType, frequencyType, frequency, startDate, endDate, ext).value;
      ToDictionary(o) != [] && (ToDictionary(SetPeriod(o, period)) == [] <==> period != -1)
  {
  }
}

=== FILE: quote.dfy ===
/** `Quote.GetAssetType` of TDAmeritradeAPI/DataModels/Quote.cs: a hand-rolled
    scan of a quote's JSON text for the value of `assetMainType`, parsed
    case-insensitively as an asset type. Letters are the ASCII letters and
    the search for the property name is ordinal. */
module Quote {
  import opened Common
  import opened Text

  /** `Instrument.Enums.AssetType` of TDAmeritradeAPI/DataModels/Instrument.cs. */
  datatype AssetType = EQUITY | ETF | FOREX | FUTURE | FUTURE_OPTION | INDEX | INDICATOR | MUTUAL_FUND | OPTION | UNKNOWN

  /** Reading past the end of the text, or a value that names no asset type. */
  datatype QuoteError = IndexOutOfRange | UnknownName(text: string)

  const Key: string := "assetMainType"

  function Name(a: AssetType): string {
    match a
    case EQUITY => "EQUITY" case ETF => "ETF" case FOREX => "FOREX" case FUTURE => "FUTURE"
    case FUTURE_OPTION => "FUTURE_OPTION" case INDEX => "INDEX" case INDICATOR => "INDICATOR"
    case MUTUAL_FUND => "MUTUAL_FUND" case OPTION => "OPTION" case UNKNOWN => "UNKNOWN"
  }

  /** `Enum.Parse<AssetType>(text, true)` for a text that is a name: the
      asset type whose name it is, ignoring case. */
  function ParseName(text: string): (r: Result<AssetType, QuoteError>)
    ensures r.Ok? ==> Name(r.value) == ToUpper(text)
    ensures r.Err? <==> forall a: AssetType :: Name(a) != ToUpper(text)
    ensures r.Err? ==> r.error == UnknownName(text)
  {
    var u := ToUpper(text);
    if u == "EQUITY" then Ok(EQUITY)
    else if u == "ETF" then Ok(ETF)
    else if u == "FOREX" then Ok(FOREX)
    else if u == "FUTURE" then Ok(FUTURE)
    else if u == "FUTURE_OPTION" then Ok(FUTURE_OPTION)
    else if u == "INDEX" then Ok(INDEX)
    else if u == "INDICATOR" then Ok(INDICATOR)
    else if u == "MUTUAL_FUND" then Ok(MUTUAL_FUND)
    else if u == "OPTION" then Ok(OPTION)
    else if u == "UNKNOWN" then Ok(UNKNOWN)
    else Err(UnknownName(text))
  }

  /** Every name parses back, whatever its case. */
  lemma ParseNameRoundTrip(a: AssetType)
    ensures ParseName(Name(a)) == Ok(a)
    ensures ParseName(ToLower(Name(a))) == Ok(a)
  {
    NameIsUpper(a);
    UpperOfNoLower(Name(a));
    UpperOfLower(Name(a));
  }

  /** Names are written in capitals, digits and `_`. */
  lemma NameIsUpper(a: AssetType)
    ensures forall k :: 0 <= k < |Name(a)| ==> !IsLower(Name(a)[k])
  {
  }

  /** The first letter at or after `i`. */
  function NextLetter(s: string, i: nat): (r: Option<nat>)
    requires i <= |s|
    ensures r.None? ==> forall k :: i <= k < |s| ==> !IsLetter(s[k])
    ensures r.Some? ==> i <= r.value < |s| && IsLetter(s[r.value])
    ensures r.Some? ==> forall k :: i <= k < r.value ==> !IsLetter(s[k])
    decreases |s| - i
  {
    if i == |s| then None else if IsLetter(s[i]) then Some(i) else NextLetter(s, i + 1)
  }

  /** The first `"` at or after `i`. */
  function NextQuote(s: string, i: nat): (r: Option<nat>)
    requires i <= |s|
    ensures r.None? ==> forall k :: i <= k < |s| ==> s[k] != '"'
    ensures r.Some? ==> i <= r.value < |s| && s[r.value] == '"'
    ensures r.Some? ==> forall k :: i <= k < r.value ==> s[k] != '"'
    decreases |s| - i
  {
    if i == |s| then None else if s[i] == '"' then Some(i) else NextQuote(s, i + 1)
  }

  /** The first scanning loop: past everything that is not a letter. */
  method SkipToLetter(s: string, from: nat) returns (i: nat)
    requires from <= |s|
    ensures NextLetter(s, from).Some? ==> i == NextLetter(s, from).value
    ensures NextLetter(s, from).None? ==> i == |s|
  {
    i := from;
    while i < |s| && !IsLetter(s[i])
      invariant from <= i <= |s|
      invariant NextLetter(s, from) == NextLetter(s, i)
    {
      i := i + 1;
    }
  }

  /** The second scanning loop: up to the next quotation mark. */
  method SkipToQuote(s: string, from: nat) returns (i: nat)
    requires from <= |s|
    ensures NextQuote(s, from).Some? ==> i == NextQuote(s, from).value
    ensures NextQuote(s, from).None? ==> i == |s|
  {
    i := from;
    while i < |s| && s[i] != '"'
      invariant from <= i <= |s|
      invariant NextQuote(s, from) == NextQuote(s, i)
    {
      i := i + 1;
    }
  }

  /** `GetAssetType`, scanning with `SkipToLetter` and `SkipToQuote`. Besides the
      result it returns the span of the text it parsed, if it got that far. */
  method GetAssetType(json: string) returns (r: Result<AssetType, QuoteError>, span: Option<(nat, nat)>)
    ensures IndexOf(json, Key).None? ==> r == Ok(UNKNOWN) && span.None?
    ensures IndexOf(json, Key).Some? ==>
      var start := IndexOf(json, Key).value + |Key|;
      && (r == Err(IndexOutOfRange) <==> NextLetter(json, start).None? || NextQuote(json, NextLetter(json, start).value).None?)
      && (span.Some? <==> r != Err(IndexOutOfRange))
    ensures span.Some? ==>
      var (first, end) := span.value;
      && IndexOf(json, Key).Some? && IndexOf(json, Key).value + |Key| <= first < end < |json|
      // the parsed text starts with the first letter after the property name
      && IsLetter(json[first])
      && (forall k :: IndexOf(json, Key).value + |Key| <= k < first ==> !IsLetter(json[k]))
      // and runs up to the next quotation mark
      && json[end] == '"' && '"' !in json[first..end]
      && r == ParseName(json[first..end])
  {
    var found := IndexOf(json, Key);
    if found.None? {
      return Ok(UNKNOWN), None;
    }
    var start := found.value + |Key|;
    var i := SkipToLetter(json, start);
    if i == |json| {
      return Err(IndexOutOfRange), None;
    }
    var end := SkipToQuote(json, i);
    if end == |json| {
      return Err(IndexOutOfRange), None;
    }
    r := ParseName(json[i..end]);
    span := Some((i, end));
  }

  /** `{"assetMainType":"equity"}`. */
  function ExampleJson(): (json: string)
    ensures |json| == 26 && json[2..15] == Key
    ensures json[0] == '{' && json[1] == '"' && json[15] == '"' && json[16] == ':' && json[17] == '"'
    ensures json[18..24] == "equity" && json[24] == '"'
  {
    ['{', '"'] + Key + ['"', ':', '"'] + "equity" + ['"', '}']
  }

  lemma ExampleIndex()
    ensures IndexOf(ExampleJson(), Key) == Some(2)
  {
    var json := ExampleJson();
    assert Key[0] == 'a';
    assert forall i :: 0 <= i < 2 ==> !OccursAt(json, Key, i) by {
      assert json[0..13][0] == '{' && json[1..14][0] == '"';
    }
    FirstOccurrence(json, Key, 2);
  }

  lemma ExampleSpan()
    ensures NextLetter(ExampleJson(), 15) == Some(18)
    ensures NextQuote(ExampleJson(), 18) == Some(24)
  {
    var json := ExampleJson();
    assert json[18] == "equity"[0];
    assert forall k :: 18 <= k < 24 ==> json[k] == "equity"[k - 18];
  }

  /** A concrete scan: the value is found behind the colon and the quotation mark. */
  method ExampleScan() returns (r: Result<AssetType, QuoteError>)
    ensures r == Ok(EQUITY)
  {
    ExampleIndex();
    ExampleSpan();
    ExampleParse();
    var json := ExampleJson();
    var span;
    r, span := GetAssetType(json);
    assert json[18..24] == "equity";
  }

  lemma ExampleParse()
    ensures ParseName("equity") == Ok(EQUITY)
  {
    assert ToUpper("equity") == "EQUITY";
  }

  lemma FirstOccurrence(s: string, sub: string, i: nat)
    requires OccursAt(s, sub, i) && forall j :: 0 <= j < i ==> !OccursAt(s, sub, j)
    ensures IndexOf(s, sub) == Some(i)
  {
  }
}

=== FILE: requests.dfy ===
/** The pure request-building parts of `Client` in
    TDAmeritradeAPI/TDAmeritradeAPI.cs: the query string `BuildURL` appends
    to an endpoint, and the path and `fields` parameter of `GetAccount`.
    `HttpUtility.UrlEncode` is the parameter `encode`, about which nothing is
    assumed. */
module Requests {
  import opened Common
  import opened Text
  import opened Dict

  /** `key=value` for every entry, in enumeration order. */
  function Assignments(d: Dict, encode: string -> string): (ps: seq<string>)
    ensures |ps| == |d|
    ensures forall i :: 0 <= i < |d| ==> ps[i] == d[i].0 + "=" + encode(d[i].1)
  {
    seq(|d|, i requires 0 <= i < |d| => d[i].0 + "=" + encode(d[i].1))
  }

  /** The pieces each followed by `&`, as the loop accumulates them. */
  function Terminated(ps: seq<string>): string {
    if |ps| == 0 then "" else Terminated(ps[..|ps| - 1]) + ps[|ps| - 1] + "&"
  }

  /** Joining one more piece. */
  lemma {:induction false} JoinSnoc(ps: seq<string>, p: string, sep: string)
    requires |ps| > 0
    ensures Join(ps + [p], sep) == Join(ps, sep) + sep + p
    decreases |ps|
  {
    if |ps| == 1 {
      assert (ps + [p])[1..] == [p];
    } else {
      assert (ps + [p])[1..] == ps[1..] + [p];
      JoinSnoc(ps[1..], p, sep);
    }
  }

  /** Dropping the final `&` of the terminated pieces leaves their join. */
  lemma {:induction false} TerminatedIsJoin(ps: seq<string>)
    requires |ps| > 0
    ensures Terminated(ps) == Join(ps, "&") + "&"
    decreases |ps|
  {
    if |ps| > 1 {
      var init := ps[..|ps| - 1];
      TerminatedIsJoin(init);
      JoinSnoc(init, ps[|ps| - 1], "&");
      assert init + [ps[|ps| - 1]] == ps;
    }
  }

  /** `BuildURL`: the endpoint, `?`, and the encoded assignments each
      followed by `&`, with the last character removed. */
  method BuildURL(endpoint: string, parameters: Dict, encode: string -> string) returns (url: string)
    ensures |parameters| == 0 ==> url == endpoint
    ensures |parameters| > 0 ==> url == endpoint + "?" + Join(Assignments(parameters, encode), "&")
  {
    url := endpoint + "?";
    var ps := Assignments(parameters, encode);
    var i := 0;
    while i < |parameters|
      invariant 0 <= i <= |parameters|
      invariant url == endpoint + "?" + Terminated(ps[..i])
    {
      url := url + parameters[i].0 + "=" + encode(parameters[i].1) + "&";
      assert ps[..i + 1][..i] == ps[..i];
      i := i + 1;
    }
    assert ps[..|parameters|] == ps;
    if |parameters| > 0 {
      TerminatedIsJoin(ps);
    }
    url := url[..|url| - 1];
  }

  /** When neither keys nor encoded values contain `&`, splitting the query
      at `&` gives back every assignment in order. */
  lemma QuerySplitsBack(parameters: Dict, encode: string -> string)
    requires |parameters| > 0
    requires forall i :: 0 <= i < |parameters| ==> '&' !in parameters[i].0 && '&' !in encode(parameters[i].1)
    ensures Split(Join(Assignments(parameters, encode), "&"), '&') == Assignments(parameters, encode)
  {
    var ps := Assignments(parameters, encode);
    forall k | 0 <= k < |ps|
      ensures '&' !in ps[k]
    {
      assert ps[k] == parameters[k].0 + "=" + encode(parameters[k].1);
    }
    SplitJoin(ps, '&');
  }

  /** The address `GetAccount` requests: all accounts for an empty id, the
      one account otherwise. */
  function AccountEndpoint(accountId: string): (url: string)
    ensures accountId == "" ==> url == "https://api.tdameritrade.com/v1/accounts"
    ensures accountId != "" ==> url == "https://api.tdameritrade.com/v1/accounts/" + accountId
  {
    var suffix := if accountId != "" then "/" + accountId else accountId;
    "https://api.tdameritrade.com/v1/accounts" + suffix
  }

  /** What `GetAccount` asks for besides balances, in the order it is added. */
  function FieldNames(getPositions: bool, getOrders: bool): seq<string> {
    (if getPositions then ["positions"] else []) + (if getOrders then ["orders"] else [])
  }

  /** The parameters of `GetAccount`: none when nothing extra is asked for,
      otherwise one `fields` entry listing what is, comma-separated. */
  function AccountParameters(getPositions: bool, getOrders: bool): (r: Option<Dict>)
    ensures r.None? <==> FieldNames(getPositions, getOrders) == []
    ensures r.Some? ==> |r.value| == 1 && r.value[0].0 == "fields"
    ensures r.Some? ==> r.value[0].1 == Join(FieldNames(getPositions, getOrders), ",")
  {
    var afterPositions: Option<Dict> := if getPositions then Some([("fields", "positions")]) else None;
    if !getOrders then afterPositions
    else if afterPositions.None? then Some([("fields", "orders")])
    else
      assert ["positions", "orders"][1..] == ["orders"];
      Some([("fields", afterPositions.value[0].1 + ",orders")])
  }

  /** The `fields` value splits back into the requested names. */
  lemma AccountFieldsSplitBack(getPositions: bool, getOrders: bool)
    requires getPositions || getOrders
    ensures Split(AccountParameters(getPositions, getOrders).value[0].1, ',') == FieldNames(getPositions, getOrders)
  {
    var names := FieldNames(getPositions, getOrders);
    assert forall k :: 0 <= k < |names| ==> names[k] == "positions" || names[k] == "orders";
    assert ',' !in "positions" && ',' !in "orders";
    SplitJoin(names, ',');
  }
}

=== FILE: streaming.dfy ===
/** The pure parts of TDAmeritradeAPI/TDAmeritradeStreamingClient.cs: the
    constructor's checks, the credential query string, the ADMIN requests
    (LOGIN, LOGOUT, QOS) as the values that would be sent, and the
    connection flag. Sending over the web socket is not modelled; the user
    principals a `Connect` would fetch are a parameter. */
module Streaming {
  import opened Common
  import opened Text
  import opened Dict
  import Requests

  datatype QosLevel = EXPRESS | REAL_TIME | FAST | MODERATE | SLOW | DELAYED

  /** The level's numeric value, `(int)qosLevel`. */
  function QosValue(level: QosLevel): (v: nat)
    ensures v <= 5
  {
    match level
    case EXPRESS => 0
    case REAL_TIME => 1
    case FAST => 2
    case MODERATE => 3
    case SLOW => 4
    case DELAYED => 5
  }

  /** What a `Connect` fetched: the fields of the user principals the
      requests use. The timestamp is already in its text form. */
  datatype Principal = Principal(
    accountId: string,
    token: string,
    company: string,
    segment: string,
    cdDomainId: string,
    userGroup: string,
    accessLevel: string,
    timestamp: string,
    appId: string,
    acl: string)

  /** The exceptions thrown: ArgumentNullException, NullReferenceException
      and ArgumentOutOfRangeException. */
  datatype StreamingError = ArgumentNull | NullReference | ArgumentOutOfRange

  datatype StreamingClient = StreamingClient(isConnected: bool, principal: Option<Principal>)

  /** The constructor, given the client as null or as its `IsLoggedIn`: a
      null client and a client that is not logged in are rejected. */
  function New(clientLoggedIn: Option<bool>): (r: Result<StreamingClient, StreamingError>)
    ensures clientLoggedIn.None? ==> r == Err(ArgumentNull)
    ensures clientLoggedIn == Some(false) ==> r == Err(NullReference)
    ensures r.Ok? <==> clientLoggedIn == Some(true)
    ensures r.Ok? ==> !r.value.isConnected && r.value.principal.None?
  {
    match clientLoggedIn
    case None => Err(ArgumentNull)
    case Some(loggedIn) => if !loggedIn then Err(NullReference) else Ok(StreamingClient(false, None))
  }

  /** `Connect` without the socket: the principals are kept for later requests. */
  function Connect(c: StreamingClient, principal: Principal): (r: StreamingClient)
    ensures r.principal == Some(principal) && r.isConnected == c.isConnected
  {
    c.(principal := Some(principal))
  }

  /** `DictionaryToQueryString`: `key=value` pairs joined by `&`, the whole
      then URL-encoded once. The empty dictionary fails, because the range
      `[..^1]` of the empty string is out of range. */
  method DictionaryToQueryString(d: Dict, encode: string -> string) returns (r: Result<string, StreamingError>)
    ensures r.Err? <==> |d| == 0
    ensures r.Err? ==> r.error == ArgumentOutOfRange
    ensures r.Ok? ==> r.value == encode(Join(Requests.Assignments(d, s => s), "&"))
  {
    var result := "";
    var ps := Requests.Assignments(d, s => s);
    var i := 0;
    while i < |d|
      invariant 0 <= i <= |d|
      invariant result == Requests.Terminated(ps[..i])
    {
      result := result + d[i].0 + "=" + d[i].1 + "&";
      assert ps[..i + 1][..i] == ps[..i];
      i := i + 1;
    }
    if |result| == 0 {
      return Err(ArgumentOutOfRange);
    }
    assert ps[..|d|] == ps;
    Requests.TerminatedIsJoin(ps);
    r := Ok(encode(result[..|result| - 1]));
  }

  /** The credential dictionary of `Login`, eleven entries in this order. */
  function Credential(p: Principal): (d: Dict)
    ensures Keys(d) == ["userid", "token", "company", "segment", "cddomain", "usergroup",
                        "accesslevel", "authorized", "timestamp", "appid", "acl"]
    ensures d[7] == ("authorized", "Y")
  {
    [("userid", p.accountId), ("token", p.token), ("company", p.company), ("segment", p.segment),
     ("cddomain", p.cdDomainId), ("usergroup", p.userGroup), ("accesslevel", p.accessLevel),
     ("authorized", "Y"), ("timestamp", p.timestamp), ("appid", p.appId), ("acl", p.acl)]
  }

  /** The request `SendToServer` builds; `parameters` is the JSON object,
      its members in order. */
  datatype Request = Request(
    service: string,
    requestId: nat,
    command: string,
    account: string,
    parameters: seq<(string, string)>)

  /** The request of an ADMIN command for the connected account, or the
      null-reference failure when there are no principals yet. */
  function Admin(c: StreamingClient, requestId: nat, command: string, parameters: seq<(string, string)>)
    : (r: Result<Request, StreamingError>)
    ensures r.Err? <==> c.principal.None?
    ensures r.Err? ==> r.error == NullReference
    ensures r.Ok? ==> r.value.service == "ADMIN" && r.value.account == c.principal.value.accountId
    ensures r.Ok? ==> r.value.requestId == requestId && r.value.command == command && r.value.parameters == parameters
  {
    match c.principal
    case None => Err(NullReference)
    case Some(p) => Ok(Request("ADMIN", requestId, command, p.accountId, parameters))
  }

  /** `Login`: request 0, LOGIN, with the encoded credential, the token and the version. */
  method Login(c: StreamingClient, encode: string -> string) returns (r: Result<Request, StreamingError>)
    ensures r.Err? <==> c.principal.None?
    ensures r.Err? ==> r.error == NullReference
    ensures r.Ok? ==> r.value.service == "ADMIN" && r.value.account == c.principal.value.accountId
    ensures r.Ok? ==> r.value.requestId == 0 && r.value.command == "LOGIN"
    ensures r.Ok? ==> |r.value.parameters| == 3
    ensures r.Ok? ==>
      (r.value.parameters[0] == ("credential", encode(Join(Requests.Assignments(Credential(c.principal.value), s => s), "&"))))
    ensures r.Ok? ==> r.value.parameters[1] == ("token", c.principal.value.token)
    ensures r.Ok? ==> r.value.parameters[2] == ("version", "1.0")
  {
    if c.principal.None? {
      return Err(NullReference);
    }
    var p := c.principal.value;
    var credential := DictionaryToQueryString(Credential(p), encode);
    // the credential dictionary is never empty, so this cannot fail
    match credential
    case Err(_) =>
      r := Err(ArgumentOutOfRange);
    case Ok(query) =>
      r := Admin(c, 0, "LOGIN", [("credential", query), ("token", p.token), ("version", "1.0")]);
  }

  /** `LogOut`: request 1, LOGOUT, with no parameters; afterwards the client
      is not connected. Without principals the send throws first and
      nothing changes. */
  function LogOut(c: StreamingClient): (r: (StreamingClient, Result<Request, StreamingError>))
    ensures r.1.Err? <==> c.principal.None?
    ensures r.1.Err? ==> r.0 == c
    ensures r.1.Ok? ==> !r.0.isConnected && r.0.principal == c.principal
    ensures r.1.Ok? ==> r.1.value.requestId == 1 && r.1.value.command == "LOGOUT" && r.1.value.parameters == []
  {
    var sent := Admin(c, 1, "LOGOUT", []);
    if sent.Err? then (c, sent) else (c.(isConnected := false), sent)
  }

  /** `SetQualityOfService`: request 2, QOS, with the level's decimal value. */
  function SetQualityOfService(c: StreamingClient, level: QosLevel): (r: Result<Request, StreamingError>)
    ensures r.Err? <==> c.principal.None?
    ensures r.Ok? ==> r.value.requestId == 2 && r.value.command == "QOS"
    ensures r.Ok? ==> |r.value.parameters| == 1 && r.value.parameters[0].0 == "qoslevel"
    ensures r.Ok? ==> |r.value.parameters[0].1| == 1 && IsDigit(r.value.parameters[0].1[0])
  {
    Admin(c, 2, "QOS", [("qoslevel", NatToString(QosValue(level)))])
  }

  /** The `qoslevel` text names the level: it reads back as the level's
      value, and different levels give different texts. */
  lemma QosTextIdentifiesLevel(c: StreamingClient, a: QosLevel, b: QosLevel)
    requires c.principal.Some?
    ensures DigitsValue(SetQualityOfService(c, a).value.parameters[0].1) == QosValue(a)
    ensures SetQualityOfService(c, a) == SetQualityOfService(c, b) ==> a == b
  {
    NatToStringValue(QosValue(a));
    NatToStringValue(QosValue(b));
    if SetQualityOfService(c, a) == SetQualityOfService(c, b) {
      assert NatToString(QosValue(a)) == SetQualityOfService(c, a).value.parameters[0].1;
    }
  }

  /** The three ADMIN requests carry distinct ids and commands. */
  lemma AdminRequestsDistinct(c: StreamingClient, level: QosLevel)
    requires c.principal.Some?
    ensures var out, qos := LogOut(c).1.value, SetQualityOfService(c, level).value;
      out.requestId != qos.requestId && out.command != qos.command && out.requestId != 0 && qos.requestId != 0
  {
  }
}

=== FILE: symbols.dfy ===
/** Symbol translation of `Client.ParseSymbol` and `Client.ParseSymbols`
    (TDAmeritradeAPI/TDAmeritradeAPI.cs): a brokerage option symbol such as
    `.AAPL210528C126` becomes the wire form `AAPL_052821C126`, and every
    symbol is classified as an equity, an option or something else. */
module Symbols {
  import opened Common
  import opened Text

  /** `Order.Enums.SecurityType`. */
  datatype SecurityType = Equity | Option | Other

  /** The classification together with the rewritten symbol (the `ref` argument). */
  datatype Parsed = Parsed(kind: SecurityType, wire: string)

  /** The index errors of the option branch: no digit `2` after the dot, or
      fewer than six characters from the first `2` on. */
  datatype SymbolError = NoDateDigit | DateTooShort

  /** Upper-casing followed by trimming, computed in the other order, which
      gives the same text (`Text.TrimUpperCommute`). */
  function Normalize(raw: string): string {
    ToUpper(Trim(raw))
  }

  /** `Normalize` is the source's `ToUpper().Trim()`. */
  lemma NormalizeIsUpperThenTrim(raw: string)
    ensures Normalize(raw) == Trim(ToUpper(raw))
  {
    TrimUpperCommute(raw);
  }

  /** Normalising never introduces a comma. */
  lemma NormalizeNoComma(raw: string)
    requires ',' !in raw
    ensures ',' !in Normalize(raw)
  {
    var t := Trim(raw);
    assert ',' !in TrimStart(raw);
    assert ',' !in t;
  }

  /** Prefix length in which a `2` must occur for the option branch to
      have six characters from it on. */
  function DateWindow(t: string): nat {
    if |t| >= 6 then |t| - 5 else 0
  }

  /** The date `YYMMDD` rearranged to `MMDDYY`. */
  function Rearrange(date: string): (r: string)
    requires |date| == 6
    ensures |r| == 6
    ensures r[..4] == date[2..] && r[4..] == date[..2]
  {
    date[2..] + date[..2]
  }

  /** The option branch after the dot: the first `2` starts the six-digit
      date `YYMMDD`, which is rewritten `MMDDYY` behind an underscore. */
  function OptionWire(t: string): (r: Result<string, SymbolError>)
    ensures r.Err? <==> '2' !in t[..DateWindow(t)]
    ensures r.Ok? ==> |r.value| == |t| + 1
    ensures r.Ok? && ',' !in t ==> ',' !in r.value
  {
    match IndexOfChar(t, '2')
    case None => Err(NoDateDigit)
    case Some(i) =>
      if i + 6 > |t| then
        assert '2' !in t[..DateWindow(t)] by {
          assert t[..DateWindow(t)] == t[..i][..DateWindow(t)];
        }
        Err(DateTooShort)
      else
        assert t[i] in t[..DateWindow(t)];
        var head, date, tail := t[..i], t[i..i + 6], t[i + 6..];
        assert ',' !in t ==> ',' !in head && ',' !in date && ',' !in tail by {
          assert t == head + date + tail;
        }
        Ok(head + "_" + Rearrange(date) + tail)
  }

  /** The classification of a symbol that is not dotted. */
  function Classify(s: string): SecurityType {
    if |s| >= 2 && '_' in s then Option
    else if |s| >= 1 && IsLetter(s[0]) then Equity
    else Other
  }

  /** `ParseSymbol` on an already upper-cased and trimmed symbol. */
  function ParseNormalized(s: string): Result<Parsed, SymbolError> {
    if |s| >= 2 && s[0] == '.' then
      var t := s[1..];
      if t[0] != '/' then
        match OptionWire(t)
        case Err(e) => Err(e)
        case Ok(w) => Ok(Parsed(Option, w))
      else Ok(Parsed(Other, t))
    else Ok(Parsed(Classify(s), s))
  }

  /** The three shapes `ParseSymbol` distinguishes after normalising. */
  lemma ParseSymbolCases(raw: string)
    // a dotted option symbol: the dot goes, the date is rearranged, an underscore goes in
    ensures var s, r := Normalize(raw), ParseSymbol(raw);
      |s| >= 2 && s[0] == '.' && s[1] != '/' ==>
        && (r.Err? <==> '2' !in s[1..][..DateWindow(s[1..])])
        && (r.Ok? ==> r.value.kind == Option && |r.value.wire| == |s|)
    // a dotted futures symbol: only the dot goes
    ensures var s, r := Normalize(raw), ParseSymbol(raw);
      |s| >= 2 && s[0] == '.' && s[1] == '/' ==> r == Ok(Parsed(Other, s[1..]))
    // every other symbol is returned normalised and classified by its shape
    ensures var s, r := Normalize(raw), ParseSymbol(raw);
      !(|s| >= 2 && s[0] == '.') ==>
        && r.Ok? && r.value.wire == s
        && (r.value.kind == Option <==> |s| >= 2 && '_' in s)
        && (r.value.kind == Equity <==> |s| >= 1 && IsLetter(s[0]) && !(|s| >= 2 && '_' in s))
  {
  }

  /** A symbol without a comma parses to a wire form without a comma. */
  lemma ParsedNoComma(raw: string)
    requires ',' !in raw
    ensures ParseSymbol(raw).Ok? ==> ',' !in ParseSymbol(raw).value.wire
  {
    NormalizeNoComma(raw);
  }

  /** `ParseSymbol`: the symbol is upper-cased and trimmed, then rewritten
      and classified; an index error of the option branch is an `Err`. */
  function ParseSymbol(raw: string): Result<Parsed, SymbolError>
  {
    ParseNormalized(Normalize(raw))
  }

  /** The option branch in full: with `head` the text before the first `2`,
      the date is the six characters from it and the rest is `tail`. */
  lemma {:induction false} OptionWireSplit(head: string, date: string, tail: string)
    requires '2' !in head && |date| == 6 && date[0] == '2'
    ensures OptionWire(head + date + tail) == Ok(head + "_" + Rearrange(date) + tail)
  {
    var t := head + date + tail;
    assert t[..|head|] == head;
    assert t[|head|] == '2';
    FirstIndexOfChar(t, '2', |head|);
    assert t[|head|..|head| + 6] == date;
    assert t[|head| + 6..] == tail;
  }

  /** `ParseNormalized` on a dotted option symbol. */
  lemma ParseNormalizedOption(s: string, head: string, date: string, tail: string)
    requires s == "." + head + date + tail
    requires '2' !in head && |date| == 6 && date[0] == '2'
    requires (head + date)[0] != '/'
    ensures ParseNormalized(s) == Ok(Parsed(Option, head + "_" + Rearrange(date) + tail))
  {
    assert s[1..] == head + date + tail;
    OptionWireSplit(head, date, tail);
  }

  /** `ParseSymbol` on a dotted option symbol. */
  lemma ParseOptionSymbol(raw: string, head: string, date: string, tail: string)
    requires Normalize(raw) == "." + head + date + tail
    requires '2' !in head && |date| == 6 && date[0] == '2'
    requires (head + date)[0] != '/'
    ensures ParseSymbol(raw) == Ok(Parsed(Option, head + "_" + Rearrange(date) + tail))
  {
    ParseNormalizedOption(Normalize(raw), head, date, tail);
  }

  /** A symbol already in upper case with no surrounding white space is its own normal form. */
  lemma NormalizeFixed(s: string)
    requires forall i :: 0 <= i < |s| ==> !IsLower(s[i])
    requires |s| > 0 ==> !IsWhite(s[0]) && !IsWhite(s[|s| - 1])
    ensures Normalize(s) == s
  {
    assert TrimStart(s) == s;
    assert TrimEnd(s) == s;
    assert ToUpper(s) == s;
  }

  lemma ExampleOption()
    ensures ParseNormalized(".AAPL210528C126") == Ok(Parsed(Option, "AAPL_052821C126"))
  {
    assert ".AAPL210528C126" == "." + "AAPL" + "210528" + "C126";
    ParseNormalizedOption(".AAPL210528C126", "AAPL", "210528", "C126");
    ExampleWire();
  }

  lemma ExampleWire()
    ensures "AAPL" + "_" + Rearrange("210528") + "C126" == "AAPL_052821C126"
  {
    assert Rearrange("210528") == "052821";
  }

  lemma ExamplesUndotted()
    ensures ParseNormalized("AAPL_052821C126") == Ok(Parsed(Option, "AAPL_052821C126"))
    ensures ParseNormalized("MSFT") == Ok(Parsed(Equity, "MSFT"))
  {
    UndottedOption();
  }

  lemma UndottedOption()
    ensures ParseNormalized("AAPL_052821C126") == Ok(Parsed(Option, "AAPL_052821C126"))
  {
    assert "AAPL_052821C126"[4] == '_';
  }

  lemma ExamplesDotted()
    ensures ParseNormalized("./ESZ23") == Ok(Parsed(Other, "/ESZ23"))
    ensures ParseNormalized(".AAPL") == Err(NoDateDigit)
  {
    assert '2' !in "AAPL";
  }

  /** Every symbol of the list parses. */
  predicate AllParse(parts: seq<string>) {
    forall i :: 0 <= i < |parts| ==> ParseSymbol(parts[i]).Ok?
  }

  /** The wire form of one symbol, or why it does not parse. */
  function ParseWire(raw: string): (r: Result<string, SymbolError>)
    ensures r.Ok? <==> ParseSymbol(raw).Ok?
    ensures r.Ok? ==> r.value == ParseSymbol(raw).value.wire
  {
    var p := ParseSymbol(raw);
    if p.Ok? then Ok(p.value.wire) else Err(p.error)
  }

  /** `f` applied to each element in turn, the first failure ending the loop. */
  method MapEach<A, B, E>(xs: seq<A>, f: A -> Result<B, E>) returns (r: Result<seq<B>, E>)
    ensures r.Ok? <==> forall i :: 0 <= i < |xs| ==> f(xs[i]).Ok?
    ensures r.Ok? ==> |r.value| == |xs| && forall i :: 0 <= i < |xs| ==> f(xs[i]).value == r.value[i]
  {
    var ys: seq<B> := [];
    var i := 0;
    while i < |xs|
      invariant 0 <= i <= |xs|
      invariant |ys| == i
      invariant forall k :: 0 <= k < i ==> f(xs[k]).Ok? && f(xs[k]).value == ys[k]
    {
      var y := f(xs[i]);
      if y.Err? {
        return Err(y.error);
      }
      ys := ys + [y.value];
      i := i + 1;
    }
    r := Ok(ys);
  }

  /** The loop of `ParseSymbols`: each symbol parsed in turn, the first
      index error ending the loop. */
  method ParseEach(parts: seq<string>) returns (r: Result<seq<string>, SymbolError>)
    ensures r.Ok? <==> AllParse(parts)
    ensures r.Ok? ==> |r.value| == |parts|
    ensures r.Ok? ==> forall i :: 0 <= i < |parts| ==> ParseSymbol(parts[i]).value.wire == r.value[i]
  {
    r := MapEach(parts, raw => ParseWire(raw));
  }


  /** `ParseSymbols`: the comma-separated symbols parsed one by one and joined
      back with commas; splitting the result again yields exactly the parsed
      pieces. */
  method ParseSymbols(symbols: string) returns (r: Result<string, SymbolError>)
    ensures r.Ok? <==> AllParse(Split(symbols, ','))
    ensures var parts := Split(symbols, ',');
      r.Ok? ==> var out := Split(r.value, ',');
        && |out| == |parts|
        && forall i :: 0 <= i < |parts| ==> ParseSymbol(parts[i]).value.wire == out[i]
  {
    var parts := Split(symbols, ',');
    var each := ParseEach(parts);
    match each
    case Err(e) =>
      r := Err(e);
    case Ok(wires) =>
      r := Ok(Join(wires, ","));
      forall k | 0 <= k < |wires|
        ensures ',' !in wires[k]
      {
        ParsedNoComma(parts[k]);
      }
      SplitJoin(wires, ',');
  }
}

=== FILE: text.dfy ===
/** ASCII models of the .NET string and character primitives the library
    relies on (`char.IsLetter`, `char.IsUpper`, `ToUpper`, `ToLower`, `Trim`,
    `IndexOf`, `Split`, `string.Join`, `int.ToString`). Characters outside
    ASCII are treated as neither letters nor white space and are never
    re-cased. */
module Text {
  import opened Common

  predicate IsUpper(c: char) {
    'A' <= c <= 'Z'
  }

  predicate IsLower(c: char) {
    'a' <= c <= 'z'
  }

  predicate IsLetter(c: char) {
    IsUpper(c) || IsLower(c)
  }

  predicate IsDigit(c: char) {
    '0' <= c <= '9'
  }

  /** The characters `String.Trim()` removes (the ASCII part of Unicode white space). */
  predicate IsWhite(c: char) {
    c == ' ' || c == '\t' || c == '\n' || c == '\r' || c == '\U{B}' || c == '\U{C}'
  }

  function UpperChar(c: char): (u: char)
    ensures !IsLower(u)
    ensures IsLetter(c) <==> IsLetter(u)
    ensures !IsLower(c) ==> u == c
  {
    if IsLower(c) then (c as int - 32) as char else c
  }

  function LowerChar(c: char): (l: char)
    ensures !IsUpper(l)
    ensures IsLetter(c) <==> IsLetter(l)
    ensures !IsUpper(c) ==> l == c
  {
    if IsUpper(c) then (c as int + 32) as char else c
  }

  function ToUpper(s: string): (r: string)
    ensures |r| == |s|
    ensures forall i :: 0 <= i < |s| ==> r[i] == UpperChar(s[i])
  {
    seq(|s|, i requires 0 <= i < |s| => UpperChar(s[i]))
  }

  function ToLower(s: string): (r: string)
    ensures |r| == |s|
    ensures forall i :: 0 <= i < |s| ==> r[i] == LowerChar(s[i])
  {
    seq(|s|, i requires 0 <= i < |s| => LowerChar(s[i]))
  }

  /** A text without lower-case letters is its own upper-case form. */
  lemma UpperOfNoLower(s: string)
    requires forall k :: 0 <= k < |s| ==> !IsLower(s[k])
    ensures ToUpper(s) == s
  {
  }

  /** Lower-casing first does not change the upper-case form. */
  lemma UpperOfLower(s: string)
    ensures ToUpper(ToLower(s)) == ToUpper(s)
  {
    assert forall k :: 0 <= k < |s| ==> UpperChar(LowerChar(s[k])) == UpperChar(s[k]);
  }

  function TrimStart(s: string): (r: string)
    ensures |r| <= |s| && r == s[|s| - |r|..]
    ensures |r| > 0 ==> !IsWhite(r[0])
    ensures forall i :: 0 <= i < |s| - |r| ==> IsWhite(s[i])
  {
    if |s| > 0 && IsWhite(s[0]) then TrimStart(s[1..]) else s
  }

  function TrimEnd(s: string): (r: string)
    ensures |r| <= |s| && r == s[..|r|]
    ensures |r| > 0 ==> !IsWhite(r[|r| - 1])
    ensures forall i :: |r| <= i < |s| ==> IsWhite(s[i])
  {
    if |s| > 0 && IsWhite(s[|s| - 1]) then TrimEnd(s[..|s| - 1]) else s
  }

  /** `String.Trim()`: white space removed at both ends, the middle untouched. */
  function Trim(s: string): (r: string)
    ensures |r| <= |s|
    ensures |r| > 0 ==> !IsWhite(r[0]) && !IsWhite(r[|r| - 1])
  {
    TrimEnd(TrimStart(s))
  }

  /** Upper-casing never creates or removes white space. */
  lemma UpperKeepsWhite(c: char)
    ensures IsWhite(UpperChar(c)) <==> IsWhite(c)
  {
  }

  lemma {:induction false} TrimStartUpper(s: string)
    ensures TrimStart(ToUpper(s)) == ToUpper(TrimStart(s))
    decreases |s|
  {
    if |s| > 0 {
      UpperKeepsWhite(s[0]);
      if IsWhite(s[0]) {
        assert ToUpper(s)[1..] == ToUpper(s[1..]);
        TrimStartUpper(s[1..]);
      }
    }
  }

  lemma {:induction false} TrimEndUpper(s: string)
    ensures TrimEnd(ToUpper(s)) == ToUpper(TrimEnd(s))
    decreases |s|
  {
    if |s| > 0 {
      var n, u := |s|, ToUpper(s);
      UpperKeepsWhite(s[n - 1]);
      assert IsWhite(u[n - 1]) <==> IsWhite(s[n - 1]);
      if IsWhite(s[n - 1]) {
        var init := s[..n - 1];
        assert u[..n - 1] == ToUpper(init) by {
          assert forall k :: 0 <= k < n - 1 ==> u[..n - 1][k] == UpperChar(init[k]);
        }
        TrimEndUpper(init);
        assert TrimEnd(u) == TrimEnd(u[..n - 1]);
        assert TrimEnd(s) == TrimEnd(init);
      }
    }
  }

  /** Trimming and upper-casing commute. */
  lemma TrimUpperCommute(s: string)
    ensures Trim(ToUpper(s)) == ToUpper(Trim(s))
  {
    TrimStartUpper(s);
    TrimEndUpper(TrimStart(s));
  }

  /** `s.IndexOf(c)`: the first position of `c`, `None` standing for -1. */
  function IndexOfChar(s: string, c: char): (r: Option<nat>)
    ensures r.None? <==> c !in s
    ensures r.Some? ==> r.value < |s| && s[r.value] == c && c !in s[..r.value]
  {
    if |s| == 0 then None
    else if s[0] == c then Some(0)
    else
      match IndexOfChar(s[1..], c)
      case None => None
      case Some(k) =>
        assert s[1..][..k] == s[1..k + 1];
        assert s[..k + 1] == [s[0]] + s[1..k + 1];
        Some(k + 1)
  }

  predicate OccursAt(s: string, sub: string, i: nat) {
    i + |sub| <= |s| && s[i..i + |sub|] == sub
  }

  /** `s.IndexOf(sub)` for a non-empty `sub`, searching from position `from`. */
  function IndexOfFrom(s: string, sub: string, from: nat): (r: Option<nat>)
    requires from <= |s|
    ensures r.None? ==> forall i :: from <= i <= |s| ==> !OccursAt(s, sub, i)
    ensures r.Some? ==> from <= r.value && OccursAt(s, sub, r.value)
    ensures r.Some? ==> forall i :: from <= i < r.value ==> !OccursAt(s, sub, i)
    decreases |s| - from
  {
    if OccursAt(s, sub, from) then Some(from)
    else if from == |s| then None
    else IndexOfFrom(s, sub, from + 1)
  }

  function IndexOf(s: string, sub: string): (r: Option<nat>)
    ensures r.None? ==> forall i :: 0 <= i <= |s| ==> !OccursAt(s, sub, i)
    ensures r.Some? ==> OccursAt(s, sub, r.value)
    ensures r.Some? ==> forall i :: 0 <= i < r.value ==> !OccursAt(s, sub, i)
  {
    IndexOfFrom(s, sub, 0)
  }

  /** `s.Split(sep)`: the pieces between separators, always at least one. */
  function Split(s: string, sep: char): (parts: seq<string>)
    ensures |parts| >= 1
    ensures forall k :: 0 <= k < |parts| ==> sep !in parts[k]
    decreases |s|
  {
    match IndexOfChar(s, sep)
    case None => [s]
    case Some(i) => [s[..i]] + Split(s[i + 1..], sep)
  }

  /** `string.Join(sep, parts)`. */
  function Join(parts: seq<string>, sep: string): string
  {
    if |parts| == 0 then ""
    else if |parts| == 1 then parts[0]
    else parts[0] + sep + Join(parts[1..], sep)
  }

  /** A position holding `c` with no `c` before it is what `IndexOfChar` finds. */
  lemma FirstIndexOfChar(s: string, c: char, j: nat)
    requires j < |s| && s[j] == c && c !in s[..j]
    ensures IndexOfChar(s, c) == Some(j)
  {
  }

  /** Splitting a join of separator-free pieces gives the pieces back. */
  lemma {:induction false} SplitJoin(parts: seq<string>, sep: char)
    requires |parts| >= 1
    requires forall k :: 0 <= k < |parts| ==> sep !in parts[k]
    ensures Split(Join(parts, [sep]), sep) == parts
    decreases |parts|
  {
    if |parts| == 1 {
      assert Join(parts, [sep]) == parts[0];
    } else {
      var rest := Join(parts[1..], [sep]);
      var s := parts[0] + [sep] + rest;
      assert Join(parts, [sep]) == s;
      assert s[|parts[0]|] == sep;
      assert s[..|parts[0]|] == parts[0];
      assert !(sep in parts[0]);
      FirstIndexOfChar(s, sep, |parts[0]|);
      assert s[|parts[0]| + 1..] == rest;
      SplitJoin(parts[1..], sep);
      assert Split(s, sep) == [parts[0]] + parts[1..];
    }
  }

  function DigitChar(d: nat): (c: char)
    requires d < 10
    ensures IsDigit(c)
  {
    ('0' as int + d) as char
  }

  /** `n.ToString()` for a non-negative integer: decimal digits, no leading zero. */
  function NatToString(n: nat): (r: string)
    ensures |r| >= 1
    ensures forall i :: 0 <= i < |r| ==> IsDigit(r[i])
    ensures n > 0 ==> r[0] != '0'
    decreases n
  {
    if n < 10 then [DigitChar(n)] else NatToString(n / 10) + [DigitChar(n % 10)]
  }

  /** The value of a string of decimal digits. */
  function DigitsValue(s: string): nat
    requires forall i :: 0 <= i < |s| ==> IsDigit(s[i])
  {
    if |s| == 0 then 0
    else
      assert IsDigit(s[|s| - 1]);
      10 * DigitsValue(s[..|s| - 1]) + (s[|s| - 1] as int - '0' as int)
  }

  /** The decimal text of `n` denotes `n`. */
  lemma {:induction false} NatToStringValue(n: nat)
    ensures DigitsValue(NatToString(n)) == n
    decreases n
  {
    if n >= 10 {
      NatToStringValue(n / 10);
      var r := NatToString(n);
      assert r[..|r| - 1] == NatToString(n / 10);
    }
  }

  /** `n.ToString()` for any `int`: a leading minus sign for negatives. */
  function IntToString(n: int): (r: string)
    ensures |r| >= 1
    ensures n < 0 <==> r[0] == '-'
  {
    if n < 0 then "-" + NatToString(-n) else NatToString(n)
  }

  /** Different naturals have different decimal texts. */
  lemma NatToStringInjective(a: nat, b: nat)
    ensures NatToString(a) == NatToString(b) ==> a == b
  {
    NatToStringValue(a);
    NatToStringValue(b);
  }

  /** The text of a negative integer is a minus sign and the text of its magnitude. */
  lemma NegativeText(n: int)
    requires n < 0
    ensures IntToString(n)[1..] == NatToString(-n)
  {
  }

  /** Different integers have different decimal texts. */
  lemma IntToStringInjective(a: int, b: int)
    ensures IntToString(a) == IntToString(b) ==> a == b
  {
    if IntToString(a) == IntToString(b) {
      if a < 0 {
        NegativeText(a);
        NegativeText(b);
        NatToStringInjective(-a, -b);
      } else {
        NatToStringInjective(a, b);
      }
    }
  }

  /** `b.ToString().ToLower()`. */
  function BoolToLower(b: bool): string {
    if b then "true" else "false"
  }

  /** `b.ToString()` on a `bool?`: the empty string when it is null. */
  function NullableBoolToString(b: Option<bool>): string {
    match b
    case None => ""
    case Some(true) => "True"
    case Some(false) => "False"
  }
}

=== FILE: token_data.dfy ===
/** The persisted OAuth 2.0 credential record of TDAmeritradeAPI/OAuth2Data.cs,
    where an unset expiry is the sentinel -1. Expiries are absolute times in
    seconds since the Unix epoch; the current time `now` is a parameter
    instead of a read of the system clock. */
module TokenData {
  import opened Common

  /** Which expiry `WriteTokenExpiration` and `SecondsUntilExpiration` act on. */
  datatype TokenType = AccessToken | Both | RefreshToken

  const AccessLifetime: int := 1800        // 30 minutes
  const RefreshLifetime: int := 7776000    // 90 days
  const AccessMargin: int := 180           // renew an access token 3 minutes early
  const RefreshMargin: int := 86400        // renew a refresh token a day early
  const Unset: int := -1

  datatype TokenRecord = TokenRecord(
    accessToken: Option<string>,
    accessTokenExpiration: int,
    clientId: Option<string>,
    redirectUri: Option<string>,
    refreshToken: Option<string>,
    refreshTokenExpiration: int)

  /** The defaults the constructor assigns before it tries to read the file. */
  const Defaults: TokenRecord :=
    TokenRecord(None, Unset, None, None, None, Unset)

  /** The constructor: the stored record when the authorization file could be
      read and parsed, the defaults otherwise. */
  function Load(stored: Option<TokenRecord>): (r: TokenRecord)
    ensures stored.None? ==> r.accessTokenExpiration == -1 && r.refreshTokenExpiration == -1
    ensures stored.None? ==> r.accessToken.None? && r.refreshToken.None? && r.clientId.None? && r.redirectUri.None?
    ensures stored.Some? ==> r == stored.value
  {
    match stored
    case None => Defaults
    case Some(rec) => rec
  }

  /** The refresh token cannot be used: its expiry is unset or already past. */
  predicate RefreshUnusable(rec: TokenRecord, now: nat) {
    rec.refreshTokenExpiration < 0 || now >= rec.refreshTokenExpiration
  }

  /** The access token has no expiry or expires within the access margin. */
  predicate AccessDue(rec: TokenRecord, now: nat) {
    rec.accessTokenExpiration < 0 || now + AccessMargin >= rec.accessTokenExpiration
  }

  /** The refresh token expires within the refresh margin. */
  predicate RefreshDueSoon(rec: TokenRecord, now: nat) {
    now + RefreshMargin >= rec.refreshTokenExpiration
  }

  /** `TokensExpirationsStatus`: 4 when a full re-authentication is needed,
      otherwise bit 0 for "renew the access token" and bit 1 for "renew the
      refresh token". */
  function TokensExpirationsStatus(rec: TokenRecord, now: nat): (code: int)
    ensures 0 <= code <= 4
    ensures code == 4 <==> RefreshUnusable(rec, now)
    ensures code != 4 ==> (code % 2 == 1 <==> AccessDue(rec, now))
    ensures code != 4 ==> (code / 2 == 1 <==> RefreshDueSoon(rec, now))
  {
    var code := if rec.accessTokenExpiration < 0 then 1
                else if now + 180 >= rec.accessTokenExpiration then 1
                else 0;
    if rec.refreshTokenExpiration < 0 then 4
    else if now >= rec.refreshTokenExpiration then 4
    else if now + 86400 >= rec.refreshTokenExpiration then code + 2   // code | 2, with code in {0, 1}
    else code
  }

  /** `WriteTokenExpiration` (the save to disk that follows is not modelled). */
  function WriteTokenExpiration(rec: TokenRecord, t: TokenType, now: nat): (r: TokenRecord)
    ensures !t.RefreshToken? ==> r.accessTokenExpiration == now + AccessLifetime
    ensures t == RefreshToken ==> r.accessTokenExpiration == rec.accessTokenExpiration
    ensures !t.AccessToken? ==> r.refreshTokenExpiration == now + RefreshLifetime
    ensures t == AccessToken ==> r.refreshTokenExpiration == rec.refreshTokenExpiration
    ensures r.accessToken == rec.accessToken && r.refreshToken == rec.refreshToken
    ensures r.clientId == rec.clientId && r.redirectUri == rec.redirectUri
  {
    rec.(accessTokenExpiration :=
           if t.AccessToken? || t.Both? then now + 1800 else rec.accessTokenExpiration,
         refreshTokenExpiration :=
           if t.RefreshToken? || t.Both? then now + 7776000 else rec.refreshTokenExpiration)
  }

  /** `SecondsUntilExpiration`: -1 for `Both`, else the chosen expiry minus `now`. */
  function SecondsUntilExpiration(rec: TokenRecord, t: TokenType, now: nat): (s: int)
    ensures t == Both ==> s == -1
    ensures t == AccessToken ==> now + s == rec.accessTokenExpiration
    ensures t == RefreshToken ==> now + s == rec.refreshTokenExpiration
  {
    if t == Both then -1
    else if t == AccessToken then rec.accessTokenExpiration - now
    else rec.refreshTokenExpiration - now
  }

  /** A record built from the defaults needs a full re-authentication. */
  lemma FreshRecordNeedsBootstrap(now: nat)
    ensures TokensExpirationsStatus(Load(None), now) == 4
  {
  }

  /** Right after both expiries are written at `now`, both tokens are fine at `now`. */
  lemma WriteBothThenFine(rec: TokenRecord, now: nat)
    ensures TokensExpirationsStatus(WriteTokenExpiration(rec, Both, now), now) == 0
  {
    var r := WriteTokenExpiration(rec, Both, now);
    assert !AccessDue(r, now) && !RefreshDueSoon(r, now);
  }

  /** Writing the same expiries twice at the same time changes nothing more. */
  lemma WriteTokenExpirationIdempotent(rec: TokenRecord, t: TokenType, now: nat)
    ensures WriteTokenExpiration(WriteTokenExpiration(rec, t, now), t, now) == WriteTokenExpiration(rec, t, now)
  {
  }

  /** The refresh expiry alone decides whether the status is 4. */
  lemma StatusFourIgnoresAccess(rec: TokenRecord, accessExp: int, now: nat)
    ensures (TokensExpirationsStatus(rec, now) == 4) ==
            (TokensExpirationsStatus(rec.(accessTokenExpiration := accessExp), now) == 4)
  {
  }

  /** The named status of the design: the code is a faithful encoding of it. */
  datatype ExpiryStatus = Reauthenticate | Renew(access: bool, refresh: bool)

  function Classify(rec: TokenRecord, now: nat): ExpiryStatus {
    if RefreshUnusable(rec, now) then Reauthenticate
    else Renew(AccessDue(rec, now), RefreshDueSoon(rec, now))
  }

  function Encode(s: ExpiryStatus): (code: int)
    ensures 0 <= code <= 4
  {
    match s
    case Reauthenticate => 4
    case Renew(a, r) => (if a then 1 else 0) + (if r then 2 else 0)
  }

  function Decode(code: int): ExpiryStatus
    requires 0 <= code <= 4
  {
    if code == 4 then Reauthenticate else Renew(code % 2 == 1, code / 2 == 1)
  }

  /** The integer status is the encoding of the named classification, and it decodes back. */
  lemma StatusEncodesClassification(rec: TokenRecord, now: nat)
    ensures TokensExpirationsStatus(rec, now) == Encode(Classify(rec, now))
    ensures Decode(TokensExpirationsStatus(rec, now)) == Classify(rec, now)
  {
  }

  lemma DecodeEncode(s: ExpiryStatus)
    ensures Decode(Encode(s)) == s
  {
  }
}

=== FILE: token_data_nullable.dfy ===
/** The later revision of the credential record, TDAmeritradeAPI/Utils/OAuth2Data.cs,
    whose expiries are C# `int?`. Comparisons against a null expiry are lifted:
    every one of them is false. */
module TokenDataNullable {
  import opened Common
  import TokenData

  datatype TokenType = AccessToken | Both | RefreshToken

  datatype TokenRecord = TokenRecord(
    accessToken: Option<string>,
    accessTokenExpiration: Option<int>,
    clientId: Option<string>,
    redirectUri: Option<string>,
    refreshToken: Option<string>,
    refreshTokenExpiration: Option<int>)

  /** The parameterless constructor leaves every property null. */
  const Empty: TokenRecord := TokenRecord(None, None, None, None, None, None)

  /** C#'s lifted `x < c` on an `int?`. */
  predicate LiftedLess(x: Option<int>, c: int) {
    x.Some? && x.value < c
  }

  /** C#'s lifted `c >= x` on an `int?`. */
  predicate LiftedAtLeast(c: int, x: Option<int>) {
    x.Some? && c >= x.value
  }

  /** `TokensExpirationsStatus` as written for nullable expiries. */
  function TokensExpirationsStatus(rec: TokenRecord, now: nat): (code: int)
    ensures 0 <= code <= 4
    ensures code == 4 <==> rec.refreshTokenExpiration.Some? &&
                            TokenData.RefreshUnusable(Sentinel(rec), now)
    ensures code != 4 ==> (code % 2 == 1 <==> rec.accessTokenExpiration.Some? &&
                                               TokenData.AccessDue(Sentinel(rec), now))
    ensures code != 4 ==> (code / 2 == 1 <==> rec.refreshTokenExpiration.Some? &&
                                               TokenData.RefreshDueSoon(Sentinel(rec), now))
  {
    var code := if LiftedLess(rec.accessTokenExpiration, 0) then 1
                else if LiftedAtLeast(now + 180, rec.accessTokenExpiration) then 1
                else 0;
    if LiftedLess(rec.refreshTokenExpiration, 0) then 4
    else if LiftedAtLeast(now, rec.refreshTokenExpiration) then 4
    else if LiftedAtLeast(now + 86400, rec.refreshTokenExpiration) then code + 2
    else code
  }

  /** The same record in the sentinel revision's shape, null read as -1. */
  function Sentinel(rec: TokenRecord): (s: TokenData.TokenRecord)
    ensures rec.accessTokenExpiration.Some? ==> s.accessTokenExpiration == rec.accessTokenExpiration.value
    ensures rec.refreshTokenExpiration.Some? ==> s.refreshTokenExpiration == rec.refreshTokenExpiration.value
    ensures rec.accessTokenExpiration.None? ==> s.accessTokenExpiration == -1
    ensures rec.refreshTokenExpiration.None? ==> s.refreshTokenExpiration == -1
  {
    TokenData.TokenRecord(rec.accessToken, rec.accessTokenExpiration.GetOr(-1), rec.clientId,
                          rec.redirectUri, rec.refreshToken, rec.refreshTokenExpiration.GetOr(-1))
  }

  /** A null refresh expiry never yields 4, although the documentation says
      "4 = refresh token ... wasn't found". */
  lemma NullRefreshNeverReauthenticates(rec: TokenRecord, now: nat)
    requires rec.refreshTokenExpiration.None?
    ensures TokensExpirationsStatus(rec, now) != 4
    ensures TokensExpirationsStatus(rec, now) / 2 == 0
  {
  }

  /** A null access expiry leaves bit 0 clear. */
  lemma NullAccessLeavesBitClear(rec: TokenRecord, now: nat)
    requires rec.accessTokenExpiration.None?
    ensures TokensExpirationsStatus(rec, now) % 2 == 0
  {
  }

  /** A freshly constructed record reports "both tokens are OK". */
  lemma EmptyRecordStatusZero(now: nat)
    ensures TokensExpirationsStatus(Empty, now) == 0
  {
  }

  /** With both expiries present the two revisions agree exactly. */
  lemma AgreesWithSentinelRevision(rec: TokenRecord, now: nat)
    requires rec.accessTokenExpiration.Some? && rec.refreshTokenExpiration.Some?
    ensures TokensExpirationsStatus(rec, now) == TokenData.TokensExpirationsStatus(Sentinel(rec), now)
  {
  }

  /** The status as the documentation describes it: a missing refresh
      expiry means re-authentication, a missing access expiry means renewal. */
  function DocumentedStatus(rec: TokenRecord, now: nat): (code: int)
    ensures rec.refreshTokenExpiration.None? ==> code == 4
    ensures rec.refreshTokenExpiration.Some? && rec.accessTokenExpiration.Some? ==>
              code == TokensExpirationsStatus(rec, now)
    ensures code != 4 && rec.accessTokenExpiration.None? ==> code % 2 == 1
  {
    TokenData.TokensExpirationsStatus(Sentinel(rec), now)
  }

  /** `WriteTokenExpiration` (the save to disk that follows is not modelled). */
  function WriteTokenExpiration(rec: TokenRecord, t: TokenType, now: nat): (r: TokenRecord)
    ensures !t.RefreshToken? ==> r.accessTokenExpiration == Some(now + TokenData.AccessLifetime)
    ensures t == RefreshToken ==> r.accessTokenExpiration == rec.accessTokenExpiration
    ensures !t.AccessToken? ==> r.refreshTokenExpiration == Some(now + TokenData.RefreshLifetime)
    ensures t == AccessToken ==> r.refreshTokenExpiration == rec.refreshTokenExpiration
    ensures r.accessToken == rec.accessToken && r.refreshToken == rec.refreshToken
    ensures r.clientId == rec.clientId && r.redirectUri == rec.redirectUri
  {
    rec.(accessTokenExpiration :=
           if t.AccessToken? || t.Both? then Some(now + 1800) else rec.accessTokenExpiration,
         refreshTokenExpiration :=
           if t.RefreshToken? || t.Both? then Some(now + 7776000) else rec.refreshTokenExpiration)
  }

  /** Error of `SecondsUntilExpiration`: the `!`-cast of a null `int?` throws. */
  datatype ExpirationError = NullableObjectMustHaveAValue

  /** `SecondsUntilExpiration`: -1 for `Both`, else the chosen expiry minus `now`. */
  function SecondsUntilExpiration(rec: TokenRecord, t: TokenType, now: nat): (r: Result<int, ExpirationError>)
    ensures t == Both ==> r == Ok(-1)
    ensures t == AccessToken ==> (r.Err? <==> rec.accessTokenExpiration.None?)
    ensures t == RefreshToken ==> (r.Err? <==> rec.refreshTokenExpiration.None?)
    ensures t == AccessToken && r.Ok? ==> now + r.value == rec.accessTokenExpiration.value
    ensures t == RefreshToken && r.Ok? ==> now + r.value == rec.refreshTokenExpiration.value
  {
    if t == Both then Ok(-1)
    else
      var e := if t == AccessToken then rec.accessTokenExpiration else rec.refreshTokenExpiration;
      if e.None? then Err(NullableObjectMustHaveAValue) else Ok(e.value - now)
  }

  /** Right after both expiries are written at `now`, both tokens are fine at `now`. */
  lemma WriteBothThenFine(rec: TokenRecord, now: nat)
    ensures TokensExpirationsStatus(WriteTokenExpiration(rec, Both, now), now) == 0
  {
    var r := WriteTokenExpiration(rec, Both, now);
    assert r.accessTokenExpiration == Some(now + 1800);
    assert r.refreshTokenExpiration == Some(now + 7776000);
  }
}
